=== FILE: README.md ===
# movie-app: a Dafny model of its data transformations

movie-app is a React client over Firestore and TMDB, together with two small
Python recommendation services. This project models the parts of it that
are plain data transformations, as pure Dafny functions over immutable
records, and proves what each one guarantees.

The modelled parts are:

- the display helpers: minute counts rendered as `Hh Mm` and `Dd Hh Mm`, and the rating and similarity colour bands;
- the viewing-habits statistics: watch time per type, title counts, the genre histogram with its top three, the average rating, and the weekday histogram;
- the monthly financial report: loading the month document, adding a subscription or a monthly expense, cancelling a subscription, the total and the over-budget flag, and the billing rollover;
- the recommendations page's shaping of data:
  - trimming credits;
  - an item's type and tag string;
  - the discover-pool filter;
  - the favourites it sends;
  - the 30-minute cache;
  - de-duplicating the emotion results;
- the genre map built from the movie and series genre lists, and the page-by-page discover fetch;
- both recommendation services from the similarity scores on:
  - the current one: the general list of 20 and groups of 5 per favourite;
  - the older one: the top 10 titles not yet watched;
- the watched-title editor: notes, quotes, stars, the favourite flag, the watch date, and the record saved;
- the details page: which cast, directors and videos it shows, and the watched record it writes;
- the favourites filter of the watched list, and removing a title from it.

Modules follow the source files:

| module | source file |
|---|---|
| `Helpers` | `src/utils/helpers.js` |
| `Card` | `src/components/CardComponent.jsx` |
| `ViewingStats` | `src/pages/ConsumptionHabits.jsx` |
| `Finance` | `src/pages/FinancialReports.jsx` |
| `RecommendClient` | `src/pages/Recommendations.jsx` |
| `Api` | `src/services/api.js` |
| `RecommendServer` | `recommendation-server/main.py` |
| `LegacyRecommender` | `src/server_recommendations/venv/main.py` |
| `WatchedEdit` | `src/pages/WatchedEdit.jsx` |
| `TitleDetails` | `src/pages/DetailsPage.jsx` |
| `WatchedList` | `src/pages/Watched.jsx` and `src/components/WatchedCard.jsx` |

Five shared modules sit underneath:

- `Seqs`:
  - `Option`/`Result`;
  - filter, subsequence and count facts;
  - "first of each key" de-duplication;
  - sums.
- `Text`:
  - whitespace trimming;
  - ASCII lower-casing;
  - split and join;
  - decimal rendering and reading.
- `IsoDate`:
  - UTC instants;
  - `toISOString`;
  - the `YYYY-MM` and `YYYY-MM-DD` keys;
  - `new Date("YYYY-MM-DD")`;
  - `getDay`.
- `Ranking`: a stable sort, largest key first, as both JavaScript's `sort` and Python's `sorted(..., reverse=True)` behave.
- `Records`: the stored watched record and JavaScript truthiness.

Each handler is modelled as a step. It takes the page state plus its inputs and returns the next state. Where the handler writes a document, it also returns that document. Network responses, the clock and the signed-in user are parameters.

A month's report only ever reads the current month's document
(`src/pages/FinancialReports.jsx:50-55`), so nothing carries over from
earlier months. The billing rollover saves the subscription list as it was
before advancing it (lines 75-79); see Findings.

## Model

| member | source | states |
|---|---|---|
| Helpers.SplitHours | src/utils/helpers.js:15-17 | whole hours times 60 plus the leftover minutes give back the minute count, and fewer than 60 minutes are left over |
| Helpers.SplitDays | src/utils/helpers.js:21-24 | days times 1440 plus hours times 60 plus minutes give back the minute count, with fewer than 24 hours and fewer than 60 minutes |
| Helpers.ReadHoursOf | src/utils/helpers.js:18 | the text `<h>h <m>m` rendered from two numbers reads back as exactly those numbers |
| Helpers.MinutesToHours | src/utils/helpers.js:15-19 | the rendered text reads back as hours and minutes that recompose the input, minutes below 60 |
| Helpers.MinutesToDaysHours | src/utils/helpers.js:21-26 | the rendered text reads back as days, hours and minutes that recompose the input, hours below 24 and minutes below 60 |
| Helpers.RenderingsAgree | src/utils/helpers.js:15-26 | days times 24 plus hours of the long form equal the hours of the short form, and both show the same minutes |
| Helpers.ResolveRatingColor | src/utils/helpers.js:5-13 | green exactly from 7 up, orange exactly from 5 to below 7, red exactly below 5 |
| Helpers.RatingColorMonotone | src/utils/helpers.js:5-13 | a higher rating never gets a lower colour on the scale red < orange < green |
| Card.SimilarityColor | src/components/CardComponent.jsx:8-12 | green exactly from 0.8 up, yellow exactly from 0.5 to below 0.8, red exactly below 0.5 |
| Card.SimilarityColorMonotone | src/components/CardComponent.jsx:8-12 | a higher similarity never gets a lower colour on the scale red < yellow < green |
| IsoDate.ToIso | src/pages/FinancialReports.jsx:23 | the ISO rendering is 24 characters long, with the `T` at position 10 |
| IsoDate.IsoMonthPrefix | src/pages/FinancialReports.jsx:23 | the first seven characters of the rendering are the four-digit year, a dash and the two-digit month |
| IsoDate.MonthKey | src/pages/FinancialReports.jsx:23 | the month key is year, dash, month, and it reads back as the instant's month |
| IsoDate.MonthKeyInjective | src/pages/FinancialReports.jsx:23 | two instants get the same month document exactly when they fall in the same calendar month |
| IsoDate.MonthTextParses | src/pages/FinancialReports.jsx:23 | a padded year and month joined by a dash read back as that month |
| IsoDate.ParseDay | src/pages/WatchedEdit.jsx:52 | a date that reads yields a valid instant at midnight UTC |
| IsoDate.IsoDatePart | src/pages/WatchedEdit.jsx:90 | the part of the rendering before the `T` is the `YYYY-MM-DD` date text |
| IsoDate.DateTextParses | src/pages/WatchedEdit.jsx:90 | the date text of an instant reads back as the midnight of its day |
| IsoDate.DayKey | src/pages/WatchedEdit.jsx:90 | the saved day key is ten characters and reads back as midnight of the same day |
| IsoDate.Weekday | src/pages/ConsumptionHabits.jsx:92-93 | the day of the week is a number from 0 to 6 |
| IsoDate.WeekdayExamples | src/pages/ConsumptionHabits.jsx:93 | 1 January 1970 is day 4 (Thursday) and 17 March 2024 is day 0 (Sunday), so day 0 is Sunday |
| ViewingStats.WatchTimes | src/pages/ConsumptionHabits.jsx:59-70 | the movie time is the sum of the movies' runtimes (missing as 0), the show time the sum of episode length times episode count (each missing as 0); other types add nothing; the rating total sums ratings with missing as 0 |
| ViewingStats.TallyStep | src/pages/ConsumptionHabits.jsx:74 | counting one more genre keeps the tally complete: each genre seen once, in order of first appearance, with its number of occurrences |
| ViewingStats.TallyGenresCounts | src/pages/ConsumptionHabits.jsx:72-76 | counting a title's genre list extends a complete tally by exactly those genres |
| ViewingStats.TallyAll | src/pages/ConsumptionHabits.jsx:57-77 | after the pass, the tally covers every genre entry of every title |
| ViewingStats.TallyIsHistogram | src/pages/ConsumptionHabits.jsx:79-81 | the entries of a complete tally are exactly the histogram: distinct genres in order of first appearance with their counts |
| ViewingStats.HistogramEntries | src/pages/ConsumptionHabits.jsx:79-81 | the histogram names the distinct genres once each, in first-appearance order, each with its positive occurrence count |
| ViewingStats.HistogramTotal | src/pages/ConsumptionHabits.jsx:79-81 | the histogram's counts add up to the number of genre entries |
| ViewingStats.AllGenresDistinct | src/pages/ConsumptionHabits.jsx:79-84 | no genre is listed twice |
| ViewingStats.AllGenresNames | src/pages/ConsumptionHabits.jsx:79-84 | a genre is listed exactly when some watched title has it |
| ViewingStats.AllGenresCounts | src/pages/ConsumptionHabits.jsx:79-84 | every listed genre carries the number of its occurrences across all titles |
| ViewingStats.AllGenresTotal | src/pages/ConsumptionHabits.jsx:79-84 | the listed counts add up to the number of genre entries |
| ViewingStats.AllGenresStable | src/pages/ConsumptionHabits.jsx:80 | genres with the same count keep their first-appearance order after sorting |
| ViewingStats.ComputeStatistics | src/pages/ConsumptionHabits.jsx:44-87 | total, movie, show and favourite counts are the list length and filter counts (so movies plus shows and favourites never exceed the total); the total time is movie time plus show time; the genres are the histogram sorted by count with the first three as favourites; the average is the rating total over the count, 0 for an empty list |
| ViewingStats.AverageBounded | src/pages/ConsumptionHabits.jsx:86-87 | with every rating between 0 and 5 the average is between 0 and 5 |
| ViewingStats.WatchDay | src/pages/ConsumptionHabits.jsx:91-93 | a counted title falls on a day from 0 to 6 |
| ViewingStats.Bump | src/pages/ConsumptionHabits.jsx:94 | counting one title adds one to the buckets' total when it is a dated movie, nothing otherwise |
| ViewingStats.BumpAt | src/pages/ConsumptionHabits.jsx:94 | counting one title raises bucket d by one exactly when the title falls on day d |
| ViewingStats.Buckets | src/pages/ConsumptionHabits.jsx:89-96 | there are always seven buckets |
| ViewingStats.BucketsCount | src/pages/ConsumptionHabits.jsx:89-96 | bucket d counts exactly the movies whose watch date falls on day d |
| ViewingStats.BucketsTotal | src/pages/ConsumptionHabits.jsx:89-96 | the seven buckets add up to the number of movies with a readable watch date |
| ViewingStats.WeekdayCounts | src/pages/ConsumptionHabits.jsx:89-96 | the loop leaves seven buckets, each counting its day's movies, adding up to the dated movies |
| ViewingStats.WeekdayBarsAsWritten | src/pages/ConsumptionHabits.jsx:98-106 | the chart as written labels bar j with the j-th of Mon..Sun |
| ViewingStats.SundayMovie | src/pages/ConsumptionHabits.jsx:91-94 | a movie watched on Sunday 17 March 2024 is counted on day 0 |
| ViewingStats.SundayBuckets | src/pages/ConsumptionHabits.jsx:89-96 | a single title counted on day 0 fills only the first bucket |
| ViewingStats.WeekdayBarsMislabelled | src/pages/ConsumptionHabits.jsx:89-106 | a movie watched on a Sunday shows up in the bar labelled "Mon", and the Monday bucket stays empty |
| ViewingStats.WeekdayBars | src/pages/ConsumptionHabits.jsx:98-106 | corrected chart: the bar labelled with a day's name shows that day's bucket |
| Finance.CurrentMonthKey | src/pages/FinancialReports.jsx:22-23 | the key is seven characters with a dash at position 4, and reads back as the current month |
| Finance.Load | src/pages/FinancialReports.jsx:47-58 | without a user or a document the state stays; otherwise the budget is the stored one (missing or zero as 0) and missing lists are empty |
| Finance.LoadSaved | src/pages/FinancialReports.jsx:50-55 | loading what a handler saved gives back exactly the state it saved |
| Finance.RaisingBudgetKeepsUnder | src/pages/FinancialReports.jsx:153 | with the expenses fixed, raising a positive budget never takes the page over it |
| Finance.TotalAppend | src/pages/FinancialReports.jsx:152 | one more expense adds its price to the total |
| Finance.AddExpense | src/pages/FinancialReports.jsx:90-130 | without a user nothing changes; a subscription entry appends one subscription billed from this month (services defaulting to "") and one matching subscription charge; a monthly entry appends one monthly charge and keeps the subscriptions; the budget is unchanged, the new state saved and the form cleared |
| Finance.AddKeepsOverBudget | src/pages/FinancialReports.jsx:90-130 | adding an expense of non-negative price never takes the page from over budget back under it |
| Finance.Cancel | src/pages/FinancialReports.jsx:132-141 | no subscription of the platform remains, every other one stays in order with the number of copies it had, expenses and budget are unchanged, and the new state is saved |
| Finance.BudgetBlur | src/pages/FinancialReports.jsx:143-150 | the state is saved as it stands exactly when a user is signed in, and reloading gives it back |
| Finance.RolloverAsWritten | src/pages/FinancialReports.jsx:60-87 | as written: with a user and subscriptions, one charge per subscription due this month is appended in order; the state is saved exactly when one is due, but with the un-advanced subscriptions; every subscription, due or not, moves on a month |
| Finance.OpenPageAsWritten | src/pages/FinancialReports.jsx:31-88 | as written, the page shows the loaded document and never bills, because the rollover runs once at mount on the empty initial list |
| Finance.OpenPageNeverBills | src/pages/FinancialReports.jsx:60-88 | a stored March document with a subscription due in March opens with no charge |
| Finance.RolloverAsWrittenBillsTwice | src/pages/FinancialReports.jsx:75-79 | reloading the document the written rollover saved bills the same subscription a second time in the same month |
| Finance.RolloverAsWrittenDrifts | src/pages/FinancialReports.jsx:84-87 | a subscription due in April is moved to May by a March rollover |
| Finance.Rollover | src/pages/FinancialReports.jsx:60-87 | corrected: one charge per due subscription appended after the existing expenses; only due subscriptions move on a month; nothing changes or is saved when none is due; the saved state is the one shown |
| Finance.RolloverIdempotent | src/pages/FinancialReports.jsx:60-87 | after the corrected rollover nothing is due this month, so a second one changes and saves nothing |
| Finance.OpenPageCharges | src/pages/FinancialReports.jsx:47-88 | corrected page: the stored expenses followed by one charge per stored subscription due this month |
| Finance.OpenPageBillsOnce | src/pages/FinancialReports.jsx:47-88 | corrected page: the March subscription is billed once, and reopening from what was saved bills nothing more |
| RecommendClient.MinimalCredits | src/pages/Recommendations.jsx:35-38 | the kept cast is the first min(3, n) entries; the kept crew is exactly the directors, in order, each as often as the crew lists it; a missing list stays missing |
| RecommendClient.MinimalCreditsIdempotent | src/pages/Recommendations.jsx:31-38 | trimming trimmed credits changes nothing, so a cached entry equals a fresh one |
| RecommendClient.ItemType | src/pages/Recommendations.jsx:60 | the type is media_type when present, else "tv" exactly when the item has a name, else "movie" |
| RecommendClient.GenreWord | src/pages/Recommendations.jsx:64 | a known genre id gives its name with every letter lower-cased and nothing else changed, and an unknown one the empty word |
| RecommendClient.TagsStartWithOverview | src/pages/Recommendations.jsx:62-67 | the overview survives verbatim at the front of the tag string, followed by a space and the genre, cast and "job name" words joined by spaces |
| RecommendClient.TagsEmpty | src/pages/Recommendations.jsx:62-67 | the tag string is empty exactly when there is no overview text and nothing else to tag, or, without an overview, the only other word is empty |
| Text.JoinEmpty | src/pages/Recommendations.jsx:67 | a join is empty exactly when there are no parts or one empty part |
| RecommendClient.TagsWithoutOverview | src/pages/Recommendations.jsx:62-67 | without an overview the tags are the genre, cast and crew words joined by spaces |
| RecommendClient.DiscoverGenreWords | src/pages/Recommendations.jsx:64 | one genre word per genre id, in order; none when the ids are missing |
| RecommendClient.ToEntry | src/pages/Recommendations.jsx:59-77 | the recorded discover title keeps the id, poster and vote average; its title falls back to the name and its release date to the first-air date when falsy; its type is `ItemType`; its tags are built from the overview, the mapped genre words and the trimmed credits |
| RecommendClient.ToEntryUsable | src/pages/Recommendations.jsx:59-88 | a TMDB entry survives the pool filter exactly when it has a non-zero id, a title or a name, a poster, a release or first-air date, a numeric vote average and some text to tag |
| RecommendClient.DiscoverPool | src/pages/Recommendations.jsx:49-88 | every pool entry has a truthy id, title, tags, poster and release date and a numeric vote; the pool is no longer than the two page lists |
| RecommendClient.DiscoverPoolIsFilter | src/pages/Recommendations.jsx:80-88 | the pool is an order-preserving subsequence of the recorded titles, and every recorded title that passes the filter is in it, as often as it was recorded |
| RecommendClient.FavoriteGenreWords | src/pages/Recommendations.jsx:137 | one word per stored genre, in order, each the genre name with every letter lower-cased |
| RecommendClient.FavoriteEntry | src/pages/Recommendations.jsx:135-150 | a favourite keeps its id, poster and vote average with the same title and date fallbacks as a discover title; its type is the stored type when non-empty, else "tv" exactly when it has a truthy name, else "movie"; its tags are built from its description, stored genres and trimmed credits |
| RecommendClient.FavoriteTaggedLikeDiscover | src/pages/Recommendations.jsx:135-140 | a favourite whose description and genres match a discover title's overview and mapped genre names, up to case, gets the same tag string as that title |
| RecommendClient.SelectFavorites | src/pages/Recommendations.jsx:127-130 | at most five titles, all favourites from the list, none sent more often than it is listed |
| RecommendClient.SelectFavoritesTop | src/pages/Recommendations.jsx:127-130 | a dated favourite is left out only when five favourites watched the same day or later fill the list, and an undated favourite is sent only when every dated one is |
| RecommendClient.SelectFavoritesDatedFirst | src/pages/Recommendations.jsx:127-130 | if any favourite without a readable watch date is sent, every dated favourite is sent too |
| RecommendClient.SelectFavoritesCount | src/pages/Recommendations.jsx:127-130 | exactly min(5, number of favourites) titles are sent |
| RecommendClient.SelectFavoritesOrder | src/pages/Recommendations.jsx:129 | a dated favourite is preceded only by dated favourites watched the same day or later |
| RecommendClient.FromCache | src/pages/Recommendations.jsx:107-118 | the cached answer is used exactly when it has a timestamp and is younger than 1 800 000 ms, and then unchanged |
| RecommendClient.StoreThenRead | src/pages/Recommendations.jsx:107-118 | an answer stored at time s reads back at time t exactly when t - s is below 30 minutes |
| RecommendClient.FreshEarlier | src/pages/Recommendations.jsx:110-113 | a cached answer fresh at some time is fresh, and the same, at every earlier time |
| RecommendClient.DedupeResults | src/pages/Recommendations.jsx:194-202 | no two results share an (id, type), and none is added |
| RecommendClient.DedupeResultsFacts | src/pages/Recommendations.jsx:194-202 | the results keep their order, every (id, type) received survives, and each kept result is the first one received with its key |
| RecommendClient.DedupeResultsIdempotent | src/pages/Recommendations.jsx:194-202 | de-duplicating again changes nothing |
| Api.LastEntry | src/services/api.js:69-72 | the entry found has the id and is from the list; none is found exactly when no entry has the id |
| Api.LastEntryAppend | src/services/api.js:64-72 | in a joined list, an id's last entry is the one from the second part when it has one, else the one from the first |
| Api.LastEntryIsLast | src/services/api.js:70-72 | the entry found sits at a position after which no entry has its id |
| Api.LastEntrySnoc | src/services/api.js:70-71 | one more entry becomes the last entry of its own id and changes no other id's |
| Api.BuiltStep | src/services/api.js:70-72 | assigning one more named entry keeps the map equal to "each id's last name, lower-cased" |
| Api.AssignAll | src/services/api.js:69-72 | the map is built exactly when every entry has a name; its keys are the ids present, each mapped to its last entry's name lower-cased |
| Api.GetGenreMap | src/services/api.js:57-79 | a failed request or an unnamed entry gives the empty map; otherwise the keys are exactly the ids of both lists, each value the lower-cased name of that id's last entry; every value is lower-case |
| Api.SeriesGenresWin | src/services/api.js:64-72 | for an id the series list has, its series entry wins; otherwise the movie entry is kept |
| Api.FetchBulk | src/services/api.js:81-101 | the call succeeds exactly when every page arrives, and then returns the pages' results concatenated in page order, as many as the pages hold together |
| Api.FetchStep | src/services/api.js:84-87 | fetching one more page appends that page's results |
| Api.ConcatSnoc | src/services/api.js:86 | appending a page to the list of pages appends its results to the concatenation |
| Api.ConcatLength | src/services/api.js:81-90 | the concatenation holds as many results as the pages together |
| Api.ConcatMembers | src/services/api.js:81-90 | a result is fetched exactly when some page holds it |
| Ranking.Sort | recommendation-server/main.py:73 | the sorted list is a permutation of the input with non-increasing keys |
| Ranking.SortIsStable | recommendation-server/main.py:73 | for every key value, the elements carrying it keep their input order |
| Ranking.InsertSorted | recommendation-server/main.py:73 | inserting into a sorted list keeps it sorted |
| Ranking.InsertMultiset | recommendation-server/main.py:73 | inserting adds the element and keeps every other one |
| Ranking.SubsequenceOfSorted | recommendation-server/main.py:77-84 | any subsequence of a sorted list is sorted |
| Ranking.FirstByKeyKeepsBest | recommendation-server/main.py:75-84 | walking a sorted list and keeping the first title of each key keeps, for each key, a title scoring at least as high as every title with that key |
| Ranking.FirstByKeyDropsWorse | recommendation-server/main.py:75-84 | a title whose key was not seen beforehand and is not kept scores no higher than any kept title |
| RecommendServer.PickFacts | recommendation-server/main.py:67-84 | one selection round keeps at most `room` pool titles, none excluded, no key twice, scores non-increasing; with room to spare every eligible key is present |
| RecommendServer.PickTop | recommendation-server/main.py:67-84 | each kept title scores at least as high as every eligible title with its key, and an eligible title whose key is not kept scores no higher than any kept title |
| RecommendServer.PickRanked | recommendation-server/main.py:67-84 | a selection round meets all of the above together |
| RecommendServer.PickKeepsTieOrder | recommendation-server/main.py:73-77 | the kept titles follow the sorted order, and titles of equal score keep their discover order |
| RecommendServer.General | recommendation-server/main.py:57-84 | at most 20 rows of the discover frame it is given, none with a favourite's (id, type), no (id, type) twice |
| RecommendServer.GeneralTop | recommendation-server/main.py:59-84 | the general list is the titles of a ranked selection of 20 by the profile's scores among the non-favourite titles: best first, the best title of each key, and nothing left out that outscores a kept title |
| RecommendServer.GroupFor | recommendation-server/main.py:90-122 | one group is based on the favourite's title and holds at most 5 rows of the discover frame it is given with distinct keys, none blocked |
| RecommendServer.GroupForTop | recommendation-server/main.py:94-117 | a group is the titles of a ranked selection of 5 by the favourite's scores among the titles not blocked |
| RecommendServer.Individual | recommendation-server/main.py:86-122 | there is one group per favourite |
| RecommendServer.IndividualGroups | recommendation-server/main.py:90-122 | group i is based on favourite i and holds at most 5 rows of the discover frame it is given with distinct keys, none a favourite's nor already used |
| RecommendServer.IndividualDisjoint | recommendation-server/main.py:88-115 | no (id, type) appears in two groups |
| RecommendServer.IndividualRanked | recommendation-server/main.py:86-122 | each group is a ranked selection of 5 by its favourite's scores among the titles that are not excluded, not used, and not taken by an earlier group |
| RecommendServer.Recommend | recommendation-server/main.py:47-127 | empty favourites or discover lists make the service fail; otherwise both lists have the properties above over the discover rows with stemmed tags (line 50), with one group per favourite in request order; every general title is a discover title whose tags are replaced by their stemmed text |
| RecommendServer.RecommendRanked | recommendation-server/main.py:57-122 | an answer's general list is the top 20 of the non-favourite stemmed discover rows by the profile's scores, and each group is the top 5 by its favourite's scores of what the favourites and earlier groups left |
| LegacyRecommender.FirstIndex | src/server_recommendations/venv/main.py:64 | the position found holds the id and no earlier one does; none exactly when no title has the id |
| LegacyRecommender.WatchedIndices | src/server_recommendations/venv/main.py:63-67 | every position found is inside the catalogue |
| LegacyRecommender.WatchedIndicesSource | src/server_recommendations/venv/main.py:63-67 | each position found is the first catalogue position of some watched title's id |
| LegacyRecommender.WatchedIndicesEmpty | src/server_recommendations/venv/main.py:63-70 | no position is found exactly when no watched id occurs in the catalogue |
| LegacyRecommender.Candidates | src/server_recommendations/venv/main.py:77-89 | a catalogue entry with its score is a candidate exactly when its id was not watched, as often as the catalogue lists it |
| LegacyRecommender.Best | src/server_recommendations/venv/main.py:92-93 | min(n, count) candidates, sorted by similarity, none more often than among the candidates |
| LegacyRecommender.BestIsTop | src/server_recommendations/venv/main.py:92-93 | a candidate left out scores no higher than any kept one |
| LegacyRecommender.Recommend | src/server_recommendations/venv/main.py:49-93 | an empty catalogue fails; no watched title found gives []; otherwise at most 10 unwatched catalogue titles with their scores, most similar first, none more often than the candidates hold it |
| LegacyRecommender.RecommendCount | src/server_recommendations/venv/main.py:77-93 | nothing is collapsed or repeated: min(10, number of unwatched catalogue entries) results, a sub-multiset of the candidates |
| LegacyRecommender.RecommendTopTen | src/server_recommendations/venv/main.py:77-93 | a candidate not returned scores no higher than every returned one |
| WatchedEdit.ReadWatchDate | src/pages/WatchedEdit.jsx:52 | no date exactly when the stored value is falsy; a picked date is the valid day the text names |
| WatchedEdit.Load | src/pages/WatchedEdit.jsx:39-58 | a missing record leaves the form; otherwise rating (missing as 0), notes, quotes (missing as empty), favourite and date come from the record |
| WatchedEdit.AddTrimmed | src/pages/WatchedEdit.jsx:60-65 | a non-blank input appends its trimmed text and clears the box; a blank one changes nothing |
| WatchedEdit.KeepOtherIndicesSlice | src/pages/WatchedEdit.jsx:68 | the index filter removes exactly the element at the index when there is one |
| WatchedEdit.RemoveAtFacts | src/pages/WatchedEdit.jsx:67-69 | removing at an index in range drops exactly that element and keeps the rest in order; an index out of range changes nothing |
| WatchedEdit.AddNote | src/pages/WatchedEdit.jsx:60-65 | the note list and input change as for adding trimmed text, and nothing else changes |
| WatchedEdit.RemoveNote | src/pages/WatchedEdit.jsx:67-69 | the note list loses the indexed note, and nothing else changes |
| WatchedEdit.AddQuote | src/pages/WatchedEdit.jsx:71-76 | the quote list and input change as for adding trimmed text, and nothing else changes |
| WatchedEdit.RemoveQuote | src/pages/WatchedEdit.jsx:78-80 | the quote list loses the indexed quote, and nothing else changes |
| WatchedEdit.ClickStar | src/pages/WatchedEdit.jsx:125-131 | clicking a star sets the rating to it, a value from 1 to 5, and nothing else changes |
| WatchedEdit.LitStarsCount | src/pages/WatchedEdit.jsx:130 | the lit stars from a given star on are those up to the rating, capped at 5 |
| WatchedEdit.LitStarsMatchRating | src/pages/WatchedEdit.jsx:125-131 | a rating from 0 to 5 lights exactly that many stars |
| WatchedEdit.ToggleFavorite | src/pages/WatchedEdit.jsx:142 | the favourite flag flips, and nothing else changes |
| WatchedEdit.ToggleTwice | src/pages/WatchedEdit.jsx:142 | toggling twice restores the form |
| WatchedEdit.SavedWatchDate | src/pages/WatchedEdit.jsx:90 | no date renders as `undefined` (absent); a picked date as its ten-character day, which reads back as that day; an invalid date fails |
| WatchedEdit.SaveAsWritten | src/pages/WatchedEdit.jsx:82-95 | the page's write succeeds exactly when a record is loaded and a valid date is picked, and then writes what `Save` writes |
| WatchedEdit.SaveAsWrittenRejectsUndated | src/pages/WatchedEdit.jsx:90-93 | a record written by the details page, opened and saved without a date, fails to save as written, while the corrected save stores it with no date |
| WatchedEdit.Save | src/pages/WatchedEdit.jsx:82-95 | the corrected save: the record is written only once loaded and with a renderable date or none; it overwrites rating, notes, quotes, favourite and watch date with the form's values and keeps every other field |
| WatchedEdit.SaveThenLoad | src/pages/WatchedEdit.jsx:84-91 | loading the saved record gives back the form's rating, lists, favourite flag and date (at midnight) |
| TitleDetails.ShownCast | src/pages/DetailsPage.jsx:45 | the first min(10, n) cast entries; none when the credits or cast are missing |
| TitleDetails.Directors | src/pages/DetailsPage.jsx:47 | exactly the crew entries with job "Director", in order, each as often as the crew lists it; none without a crew |
| TitleDetails.FirstTrailer | src/pages/DetailsPage.jsx:51 | the position of a trailer with none before it; none exactly when there is no trailer |
| TitleDetails.Trailer | src/pages/DetailsPage.jsx:51 | the first video of kind "Trailer", if any |
| TitleDetails.OtherVideos | src/pages/DetailsPage.jsx:53 | exactly the first min(5, n) of the n non-trailer videos, in order |
| TitleDetails.FirstEntry | src/pages/DetailsPage.jsx:129 | the first episode length, absent for a missing or empty list |
| TitleDetails.WatchedRecord | src/pages/DetailsPage.jsx:107-133 | a record is built exactly when the cast has loaded and the details carry an id (whether Firestore accepts it is not modelled); title falls back to name and release date to first air date; rating, notes, quotes, favourite and watch date are absent |
| TitleDetails.WatchedRecordNames | src/pages/DetailsPage.jsx:108-109 | exactly the first min(3, n) cast names and min(2, m) director names, each the person's name with all whitespace removed, in credits order |
| TitleDetails.WatchedRecordWatchTime | src/pages/DetailsPage.jsx:123-130 | a movie record carries its runtime and no episode fields; a series record its episode and season counts and first episode length; so each adds exactly its own time to the viewing totals |
| WatchedList.Shown | src/pages/Watched.jsx:24-27 | with "favorite" exactly the favourites in list order, with any other filter the whole list; never longer |
| WatchedList.ShownFavorites | src/pages/Watched.jsx:24-26 | the favourites view keeps each favourite as often as the list has it, counts the favourites, and is idempotent |
| WatchedList.RemoveById | src/components/WatchedCard.jsx:28 | no title with the id remains, every other title remains in order |
| WatchedList.RemoveByIdFacts | src/components/WatchedCard.jsx:28 | removing twice is removing once; removing an absent id changes nothing |
| WatchedList.RemoveByIdKeepsOthers | src/components/WatchedCard.jsx:28 | every other title is kept as often as it occurred, and the list shrinks by the number of titles with the id |

## Left out

- Firestore, TMDB (axios) and HTTP calls to the services. Each request's answer is a parameter, and each write is the document that would be written.
- `sessionStorage` and `localStorage`. The credits cache read at `src/pages/Recommendations.jsx:31-32` is represented by `MinimalCreditsIdempotent`: a cached entry equals a freshly trimmed one.
- React state, effect scheduling and dependency arrays. Each handler is a pure step. The mount-time run of the rollover is modelled explicitly by `Finance.OpenPageAsWritten`.
- Rendering, routing, toasts and sign-in plumbing. The sign-in check of the details page (`src/pages/DetailsPage.jsx:99-106`) is not modelled: `TitleDetails.WatchedRecord` is the record a signed-in user writes.
- Vectorisation, stemming and cosine similarity in both services. They are floating-point numerics and library code outside this model, so scores are inputs. The Porter stemmer is a parameter of `RecommendServer.Recommend`, which returns the discover rows with their tags replaced by its output.
- Floating point in general:
  - ratings, votes and similarities are exact reals;
  - prices and budgets are integers, so `parseFloat` and a `NaN` price are not modelled;
  - `ratingToProcentage` is float formatting and is not modelled.
- Time zones. `getDay` and `new Date("YYYY-MM-DD")` are taken in UTC, and years run from 0 to 9999.
- date-fns `addMonths` works on whole months. Day-of-month clamping does not arise because billing dates are modelled as months.
- Helpers.MinutesToHours: natural minute counts only. Negative or fractional minutes are not modelled.
- Helpers.MinutesToDaysHours: natural minute counts only, as for the hours rendering.
- Text.Lower: lower-cases ASCII letters only. Unicode case mapping is not modelled.
- RecommendClient.SelectFavorites: favourites without a readable watch date are placed after the dated ones, in list order. The source's comparator yields `NaN` for them, which leaves their position to the engine's sort.
- RecommendClient.DedupeResults: the key is the pair (id, type). The source uses the string `` `${id}-${type}` ``, which could, in principle, confuse a type containing a dash.
- TitleDetails.WatchedRecord: `None` stands for both `null` and `undefined`. Under Firestore's default settings, assumed for `WatchedEdit.SaveAsWritten`, `addToWatched` rejects a record in which an unguarded field is `undefined`: for example a release date from `"" || undefined` when TMDB sends an empty release date and no first-air date. The page then shows an error toast and stores nothing. That rejection is not modelled: `Success` is the record the page builds, not a promise that it is stored.
- RecommendClient.FavoriteEntry: the favourites are not filtered by the page. The service's rejection of a favourite with a missing field, via request validation, is not modelled.
- The remaining recommendations-page flow is not modelled:
  - assembling and posting the request;
  - the early return on an empty genre map (`src/pages/Recommendations.jsx:124`);
  - the emotion endpoint, whose service side is not part of this model.
- Api.FetchBulk: takes one response per requested page rather than a page count.
  - The default of 5 pages is one response list of length 5.
  - The page's call with 6 is one response list of length 6.
- ViewingStats.AllGenres: follows insertion order for ties. `Object.entries` would list integer-like genre names first, in numeric order, and such names are not modelled.
- RecommendServer.Recommend: only empty favourites or an empty discover list are modelled as the service failing. Other vectoriser failures, such as a vocabulary made only of stop words, are not.
- LegacyRecommender.Recommend: only an empty catalogue is modelled as failing. A catalogue of stop words only, which also fails, is not.
- WatchedEdit.SaveAsWritten: assumes Firestore's default settings, under which a document with an `undefined` field is rejected. The Firestore initialisation is not part of this model. Under `ignoreUndefinedProperties` the merge would instead keep the previously stored date.
- Budget and subscription inheritance from earlier months, and history across months. The code does neither.

## Findings

| source | as written | input that shows it | evidently intended | confidence | as-written member | corrected member |
|---|---|---|---|---|---|---|
| src/pages/FinancialReports.jsx:60-88 | the rollover effect has an empty dependency list, so it runs once at mount while the subscription list is still the empty initial one, and returns early | a stored March document with a subscription due in March, opened in March | the rollover runs on the loaded subscriptions and bills the due ones | not executed; the mount-time ordering follows React's effect semantics | Finance.OpenPageNeverBills | Finance.OpenPageBillsOnce |
| src/pages/FinancialReports.jsx:75-87 | the saved document keeps the un-advanced subscriptions, and every subscription moves on a month, due or not | a ledger with one subscription due in March: reloading the saved document bills it again; one due in April moves to May | save the advanced list, and move only the subscriptions that were billed | not executed | Finance.RolloverAsWrittenBillsTwice | Finance.RolloverIdempotent |
| src/pages/ConsumptionHabits.jsx:89-106 | `getDay` numbers Sunday as 0, but bucket 0 is labelled "Mon" and so on, one day off | one movie watched on Sunday 17 March 2024 | the bar labelled with a day's name shows that day's count | not executed | ViewingStats.WeekdayBarsMislabelled | ViewingStats.WeekdayBars |
| src/pages/WatchedEdit.jsx:90-93 | with no date picked the record holds `watchDate: undefined`, which `setDoc` rejects under Firestore's default settings, so nothing is saved | a title marked as watched from its details page (stored without a date), opened in the editor, rated, and saved without picking a date | save the edits with the date absent, as the details page does with `?? null` | not executed; medium, since it depends on the Firestore settings, whose initialisation is not part of this model | WatchedEdit.SaveAsWrittenRejectsUndated | WatchedEdit.Save |

=== FILE: api.dfy ===
/** The TMDB client calls the recommendation page relies on: the genre map
    merged from the movie and series genre lists, and the bulk discover
    fetch that concatenates several result pages. The HTTP requests
    themselves are parameters: each response is given as the value it
    carries, or as missing when the request fails or the field is absent. */
module Api {
  import opened Seqs
  import opened Text

  /** A genre list entry; its name may be missing. */
  datatype Genre = Genre(id: int, name: Option<string>)

  /** The two genre list responses, or a failed request. */
  datatype GenreResponses = Fetched(movie: Option<seq<Genre>>, tv: Option<seq<Genre>>) | RequestFailed

  function IdOf(g: Genre): int {
    g.id
  }

  /** The entries the map is built from: the movie list, then the series
      list, a missing list counting as empty. */
  function Merged(movie: Option<seq<Genre>>, tv: Option<seq<Genre>>): (r: seq<Genre>)
    ensures |r| == |movie.GetOr([])| + |tv.GetOr([])|
    ensures r[..|movie.GetOr([])|] == movie.GetOr([]) && r[|movie.GetOr([])|..] == tv.GetOr([])
  {
    movie.GetOr([]) + tv.GetOr([])
  }

  predicate AllNamed(gs: seq<Genre>) {
    forall i :: 0 <= i < |gs| ==> gs[i].name.Some?
  }

  /** The last entry of `gs` with id `id`, if any: the entry whose name the
      map keeps, since each assignment overwrites the one before. */
  function LastEntry(gs: seq<Genre>, id: int): (r: Option<Genre>)
    ensures r.Some? ==> r.value in gs && r.value.id == id
    ensures r.None? <==> id !in KeysOf(gs, IdOf)
  {
    if |gs| == 0 then None
    else
      var rest := LastEntry(gs[1..], id);
      assert forall i :: 1 <= i < |gs| ==> gs[i] == gs[1..][i - 1];
      assert KeysOf(gs, IdOf) == {gs[0].id} + KeysOf(gs[1..], IdOf);
      if rest.Some? then rest else if gs[0].id == id then Some(gs[0]) else None
  }

  /** An entry later in the list hides every earlier entry with its id; in
      particular a series genre overrides a movie genre with the same id. */
  lemma {:induction false} LastEntryAppend(a: seq<Genre>, b: seq<Genre>, id: int)
    ensures LastEntry(a + b, id) == if LastEntry(b, id).Some? then LastEntry(b, id) else LastEntry(a, id)
    decreases |a|
  {
    if |a| > 0 {
      assert (a + b)[1..] == a[1..] + b;
      LastEntryAppend(a[1..], b, id);
    } else {
      assert a + b == b;
    }
  }

  /** `LastEntry` picks the entry at the last position holding the id. */
  lemma {:induction false} LastEntryIsLast(gs: seq<Genre>, id: int)
    requires LastEntry(gs, id).Some?
    ensures exists j :: 0 <= j < |gs| && gs[j] == LastEntry(gs, id).value
                        && forall k :: j < k < |gs| ==> gs[k].id != id
  {
    var rest := LastEntry(gs[1..], id);
    if rest.Some? {
      LastEntryIsLast(gs[1..], id);
      var j :| 0 <= j < |gs[1..]| && gs[1..][j] == rest.value
               && forall k :: j < k < |gs[1..]| ==> gs[1..][k].id != id;
      assert forall k :: j + 1 < k < |gs| ==> gs[k] == gs[1..][k - 1];
      assert gs[j + 1] == rest.value;
    } else {
      assert gs[0].id == id;
      forall k | 0 < k < |gs|
        ensures gs[k].id != id
      {
        assert gs[k] == gs[1..][k - 1];
      }
    }
  }

  /** `m` is the map built from the entries `prefix`: one key per id, the
      lower-cased name of the id's last entry as its value. */
  predicate Built(prefix: seq<Genre>, m: map<int, string>) {
    && m.Keys == KeysOf(prefix, IdOf)
    && forall id :: id in m ==>
         && LastEntry(prefix, id).Some? && LastEntry(prefix, id).value.name.Some?
         && m[id] == Lower(LastEntry(prefix, id).value.name.value)
         && Lower(m[id]) == m[id]
  }

  /** The last entry after appending `g`: `g` for its own id, unchanged for
      every other id. */
  lemma LastEntrySnoc(prefix: seq<Genre>, g: Genre, id: int)
    ensures LastEntry(prefix + [g], id) == if id == g.id then Some(g) else LastEntry(prefix, id)
  {
    LastEntryAppend(prefix, [g], id);
    assert [g][1..] == [];
  }

  /** Assigning one more named entry keeps the map built. */
  lemma BuiltStep(prefix: seq<Genre>, g: Genre, m: map<int, string>)
    requires Built(prefix, m) && g.name.Some?
    ensures Built(prefix + [g], m[g.id := Lower(g.name.value)])
  {
    forall id
      ensures LastEntry(prefix + [g], id) == if id == g.id then Some(g) else LastEntry(prefix, id)
    {
      LastEntrySnoc(prefix, g, id);
    }
    KeysOfSnoc(prefix, g, IdOf);
    LowerIdempotent(g.name.value);
  }

  /** The map the `forEach` builds: every entry in turn sets its id to its
      lower-cased name. An entry without a name makes `toLowerCase` throw,
      which the caller catches. */
  method AssignAll(all: seq<Genre>) returns (r: Option<map<int, string>>)
    ensures r.Some? <==> AllNamed(all)
    ensures r.Some? ==> r.value.Keys == KeysOf(all, IdOf)
    ensures r.Some? ==> forall id :: id in r.value ==>
              LastEntry(all, id).Some? && r.value[id] == Lower(LastEntry(all, id).value.name.value)
    ensures r.Some? ==> forall id :: id in r.value ==> Lower(r.value[id]) == r.value[id]
  {
    var m: map<int, string> := map[];
    var i := 0;
    while i < |all|
      invariant 0 <= i <= |all|
      invariant AllNamed(all[..i])
      invariant Built(all[..i], m)
    {
      var g := all[i];
      if g.name.None? {
        assert !AllNamed(all) by {
          assert !all[i].name.Some?;
        }
        return None;
      }
      assert all[..i + 1] == all[..i] + [g];
      BuiltStep(all[..i], g, m);
      m := m[g.id := Lower(g.name.value)];
      i := i + 1;
    }
    assert all[..i] == all;
    return Some(m);
  }

  /** `getGenreMap`: the genre map from both lists, series names winning over
      movie names for a shared id, every name lower-cased; the empty map when
      a request fails or an entry has no name. */
  method GetGenreMap(responses: GenreResponses) returns (r: map<int, string>)
    ensures responses.RequestFailed? ==> r == map[]
    ensures responses.Fetched? && !AllNamed(Merged(responses.movie, responses.tv)) ==> r == map[]
    ensures responses.Fetched? && AllNamed(Merged(responses.movie, responses.tv)) ==>
              var all := Merged(responses.movie, responses.tv);
              && r.Keys == KeysOf(all, IdOf)
              && forall id :: id in r ==>
                   LastEntry(all, id).Some? && r[id] == Lower(LastEntry(all, id).value.name.value)
    ensures forall id :: id in r ==> Lower(r[id]) == r[id]
  {
    if responses.RequestFailed? {
      return map[];
    }
    var built := AssignAll(Merged(responses.movie, responses.tv));
    r := built.GetOr(map[]);
  }

  /** A series genre overrides a movie genre with the same id: the name kept
      for an id the series list has is the one from its last series entry,
      and an id only the movie list has keeps its last movie name. */
  lemma SeriesGenresWin(movie: seq<Genre>, tv: seq<Genre>, id: int)
    ensures LastEntry(tv, id).Some? ==> LastEntry(Merged(Some(movie), Some(tv)), id) == LastEntry(tv, id)
    ensures LastEntry(tv, id).None? ==> LastEntry(Merged(Some(movie), Some(tv)), id) == LastEntry(movie, id)
  {
    LastEntryAppend(movie, tv, id);
  }

  /** A page's results, empty when the page is missing. */
  function PageResults<T>(page: Option<seq<T>>): seq<T> {
    page.GetOr([])
  }

  /** The `fetchMoviesBulk` / `fetchTvSeriesBulk` loop: one response per
      requested page, in page order; each page's results are appended in
      turn. A failed request or a response without results makes the call
      fail. */
  method FetchBulk<T>(pages: seq<Option<seq<T>>>) returns (r: Result<seq<T>>)
    ensures r.Success? <==> forall p :: 0 <= p < |pages| ==> pages[p].Some?
    ensures r.Success? ==> r.value == Concat(Map(pages, PageResults))
    ensures r.Success? ==> |r.value| == TotalLength(Map(pages, PageResults))
  {
    var all: seq<T> := [];
    var page := 0;
    while page < |pages|
      invariant 0 <= page <= |pages|
      invariant forall p :: 0 <= p < page ==> pages[p].Some?
      invariant all == Concat(Map(pages[..page], PageResults))
    {
      if pages[page].None? {
        return Failure;
      }
      FetchStep(pages, page);
      all := all + pages[page].value;
      page := page + 1;
    }
    assert pages[..page] == pages;
    ConcatLength(Map(pages, PageResults));
    return Success(all);
  }

  /** One more page appends that page's results. */
  lemma FetchStep<T>(pages: seq<Option<seq<T>>>, page: nat)
    requires page < |pages|
    ensures Concat(Map(pages[..page + 1], PageResults)) == Concat(Map(pages[..page], PageResults)) + PageResults(pages[page])
  {
    assert Map(pages[..page + 1], PageResults) == Map(pages[..page], PageResults) + [PageResults(pages[page])];
    ConcatSnoc(Map(pages[..page], PageResults), PageResults(pages[page]));
  }

  /** Appending one more page appends its elements. */
  lemma {:induction false} ConcatSnoc<T>(pages: seq<seq<T>>, last: seq<T>)
    ensures Concat(pages + [last]) == Concat(pages) + last
  {
    if |pages| > 0 {
      assert (pages + [last])[1..] == pages[1..] + [last];
      ConcatSnoc(pages[1..], last);
    } else {
      assert Concat([last][1..]) == [];
    }
  }

  /** The concatenation holds as many elements as the pages together. */
  lemma {:induction false} ConcatLength<T>(pages: seq<seq<T>>)
    ensures |Concat(pages)| == TotalLength(pages)
  {
    if |pages| > 0 {
      ConcatLength(pages[1..]);
    }
  }

  /** Every fetched element comes from one of the pages, and every element of
      every page is fetched. */
  lemma {:induction false} ConcatMembers<T>(pages: seq<seq<T>>)
    ensures forall x :: x in Concat(pages) <==> exists p :: 0 <= p < |pages| && x in pages[p]
  {
    if |pages| > 0 {
      ConcatMembers(pages[1..]);
      assert forall p :: 1 <= p < |pages| ==> pages[p] == pages[1..][p - 1];
      forall x | exists p :: 0 <= p < |pages| && x in pages[p]
        ensures x in Concat(pages)
      {
        var p :| 0 <= p < |pages| && x in pages[p];
        if p > 0 {
          assert x in pages[1..][p - 1];
        }
      }
    }
  }
}

=== FILE: card.dfy ===
/** The similarity badge colour of a recommendation card. */
module Card {

  /** `getSimilarityColor`: green from 0.8 up, yellow from 0.5 below 0.8, red
      below 0.5. */
  function SimilarityColor(value: real): (c: string)
    ensures c == "green" <==> value >= 0.8
    ensures c == "yellow" <==> 0.5 <= value < 0.8
    ensures c == "red" <==> value < 0.5
  {
    if value >= 0.8 then "green"
    else if value >= 0.5 then "yellow"
    else "red"
  }

  /** Position of a similarity colour on the scale red < yellow < green. */
  function SimilarityColorRank(c: string): nat {
    if c == "green" then 2 else if c == "yellow" then 1 else 0
  }

  /** A higher similarity never gets a lower colour. */
  lemma SimilarityColorMonotone(a: real, b: real)
    requires a <= b
    ensures SimilarityColorRank(SimilarityColor(a)) <= SimilarityColorRank(SimilarityColor(b))
  {
  }
}

=== FILE: client.dfy ===
/** The shaping the recommendations page does around the service: trimming
    credits, deriving an item's type and tag string, building and filtering
    the discover pool, choosing the favourites to send, deciding whether the
    cached answer is still fresh, and de-duplicating a result list. */
module RecommendClient {
  import opened Seqs
  import opened Text
  import opened IsoDate
  import opened Ranking
  import opened Records
  import RecommendServer

  /** A TMDB list entry (a movie or a series). A missing `media_type`,
      `overview`, `genre_ids` or `vote_average` is `None`; a `vote_average`
      that is not a number is `None` too. */
  datatype TmdbItem = TmdbItem(
    id: Option<int>,
    title: Option<string>,
    name: Option<string>,
    mediaType: Option<string>,
    overview: Option<string>,
    genreIds: Option<seq<int>>,
    posterPath: Option<string>,
    releaseDate: Option<string>,
    firstAirDate: Option<string>,
    voteAverage: Option<real>)

  /** A discover title in the shape the page posts to the service. */
  datatype DiscoverEntry = DiscoverEntry(
    id: Option<int>,
    title: Option<string>,
    tags: string,
    posterPath: Option<string>,
    releaseDate: Option<string>,
    voteAverage: Option<real>,
    mediaType: string)

  /** The credits kept for tagging: the first three cast entries and the
      directors. */
  function MinimalCredits(c: Credits): (r: Credits)
    ensures r.cast.Some? <==> c.cast.Some?
    ensures c.cast.Some? ==> |r.cast.value| == Min(3, |c.cast.value|) && r.cast.value <= c.cast.value
    ensures r.crew.Some? <==> c.crew.Some?
    ensures c.crew.Some? ==> forall p :: p in r.crew.value <==> p in c.crew.value && IsDirector(p)
    ensures c.crew.Some? ==> IsSubsequence(r.crew.value, c.crew.value)
    ensures c.crew.Some? ==> forall p :: multiset(r.crew.value)[p] == if IsDirector(p) then multiset(c.crew.value)[p] else 0
  {
    FilterIsSubsequence(c.crew.GetOr([]), IsDirector);
    Credits(if c.cast.Some? then Some(Take(c.cast.value, 3)) else None,
            if c.crew.Some? then Some(Filter(c.crew.value, IsDirector)) else None)
  }

  function Min(a: nat, b: nat): nat {
    if a <= b then a else b
  }

  /** Trimming trimmed credits changes nothing, so a cached (already trimmed)
      entry is exactly what trimming it again would give. */
  lemma MinimalCreditsIdempotent(c: Credits)
    ensures MinimalCredits(MinimalCredits(c)) == MinimalCredits(c)
  {
    if c.crew.Some? {
      FilterIdempotent(c.crew.value, IsDirector);
    }
  }

  /** `media_type`, else "tv" for an entry with a name, else "movie". */
  function ItemType(item: TmdbItem): (r: string)
    ensures Truthy(item.mediaType) ==> r == item.mediaType.value
    ensures !Truthy(item.mediaType) ==> (r == "tv" <==> Truthy(item.name)) && (r == "tv" || r == "movie")
  {
    if Truthy(item.mediaType) then item.mediaType.value
    else if Truthy(item.name) then "tv"
    else "movie"
  }

  /** A genre id's tag word: the lower-cased genre name, or the empty word
      (`undefined` joins as nothing) for an id the map does not know. */
  function GenreWord(genreMap: map<int, string>, id: int): (r: string)
    ensures id in genreMap ==> Lower(r) == r && |r| == |genreMap[id]|
    ensures id in genreMap ==> forall k :: 0 <= k < |r| ==> r[k] == LowerChar(genreMap[id][k])
    ensures id !in genreMap ==> r == ""
  {
    if id in genreMap then
      LowerIdempotent(genreMap[id]);
      Lower(genreMap[id])
    else ""
  }

  function CastName(p: Person): string {
    p.name
  }

  function CrewWord(p: Person): string {
    p.job + " " + p.name
  }

  /** The overview's space-separated words; a missing overview gives none. */
  function OverviewWords(overview: Option<string>): seq<string> {
    if overview.Some? then Split(overview.value, ' ') else []
  }

  /** The words after the overview, in order: the genre words, the cast names,
      then "job name" for each crew entry. A missing part contributes nothing. */
  function OtherWords(genreWords: Option<seq<string>>, credits: Credits): seq<string> {
    genreWords.GetOr([])
    + (if credits.cast.Some? then Map(credits.cast.value, CastName) else [])
    + (if credits.crew.Some? then Map(credits.crew.value, CrewWord) else [])
  }

  /** The tag string: all the words joined with single spaces. */
  function Tags(overview: Option<string>, genreWords: Option<seq<string>>, credits: Credits): string {
    Join(OverviewWords(overview) + OtherWords(genreWords, credits), ' ')
  }

  /** The overview survives verbatim at the front of the tag string: on its
      own when nothing else is tagged, followed by a space otherwise. */
  lemma TagsStartWithOverview(overview: string, genreWords: Option<seq<string>>, credits: Credits)
    ensures var rest := OtherWords(genreWords, credits);
            Tags(Some(overview), genreWords, credits)
              == if |rest| == 0 then overview else overview + " " + Join(rest, ' ')
  {
    var words := Split(overview, ' ');
    var rest := OtherWords(genreWords, credits);
    JoinSplit(overview, ' ');
    if |rest| == 0 {
      assert words + rest == words;
    } else {
      JoinAppend(words, rest, ' ');
    }
  }

  /** Without an overview the tag string is the other words joined. */
  lemma TagsWithoutOverview(genreWords: Option<seq<string>>, credits: Credits)
    ensures Tags(None, genreWords, credits) == Join(OtherWords(genreWords, credits), ' ')
  {
    assert OverviewWords(None) + OtherWords(genreWords, credits) == OtherWords(genreWords, credits);
  }

  /** A discover title's genre words. */
  function DiscoverGenreWords(item: TmdbItem, genreMap: map<int, string>): (r: Option<seq<string>>)
    ensures r.Some? <==> item.genreIds.Some?
    ensures r.Some? ==> |r.value| == |item.genreIds.value|
                        && forall i :: 0 <= i < |r.value| ==> r.value[i] == GenreWord(genreMap, item.genreIds.value[i])
  {
    if item.genreIds.Some? then Some(Map(item.genreIds.value, id => GenreWord(genreMap, id))) else None
  }

  /** A discover title as the page records it before filtering. */
  function ToEntry(item: TmdbItem, genreMap: map<int, string>, credits: Credits): (e: DiscoverEntry)
    ensures e.id == item.id && e.posterPath == item.posterPath && e.voteAverage == item.voteAverage
    ensures e.title == (if Truthy(item.title) then item.title else item.name)
    ensures e.releaseDate == (if Truthy(item.releaseDate) then item.releaseDate else item.firstAirDate)
    ensures e.mediaType == ItemType(item)
    ensures e.tags == Tags(item.overview, DiscoverGenreWords(item, genreMap), MinimalCredits(credits))
  {
    DiscoverEntry(item.id, Or(item.title, item.name),
                  Tags(item.overview, DiscoverGenreWords(item, genreMap), MinimalCredits(credits)),
                  item.posterPath, Or(item.releaseDate, item.firstAirDate), item.voteAverage, ItemType(item))
  }

  /** The pool filter: a truthy id, title, tag string, poster and release
      date, and a numeric vote average. */
  predicate Usable(e: DiscoverEntry) {
    && e.id.Some? && e.id.value != 0
    && Truthy(e.title)
    && e.tags != ""
    && Truthy(e.posterPath)
    && Truthy(e.releaseDate)
    && e.voteAverage.Some?
  }

  /** The tag string is empty exactly when there is no overview text and
      nothing else to tag, or, without an overview at all, the only other
      word is empty. */
  lemma TagsEmpty(overview: Option<string>, genreWords: Option<seq<string>>, credits: Credits)
    ensures var rest := OtherWords(genreWords, credits);
            (Tags(overview, genreWords, credits) == "") <==>
              (overview.Some? ==> overview.value == "") && (|rest| == 0 || (overview.None? && rest == [""]))
  {
    var rest := OtherWords(genreWords, credits);
    if overview.Some? {
      TagsStartWithOverview(overview.value, genreWords, credits);
    } else {
      TagsWithoutOverview(genreWords, credits);
      JoinEmpty(rest, ' ');
    }
  }

  /** Which TMDB entries survive the pool filter: a non-zero id, a title or a
      name, a poster, a release or first-air date, a numeric vote average,
      and something to tag (overview text, or some other word that is not
      the lone empty one). */
  lemma ToEntryUsable(item: TmdbItem, genreMap: map<int, string>, credits: Credits)
    ensures var rest := OtherWords(DiscoverGenreWords(item, genreMap), MinimalCredits(credits));
            Usable(ToEntry(item, genreMap, credits)) <==>
              (&& item.id.Some? && item.id.value != 0
               && (Truthy(item.title) || Truthy(item.name))
               && Truthy(item.posterPath)
               && (Truthy(item.releaseDate) || Truthy(item.firstAirDate))
               && item.voteAverage.Some?
               && !((item.overview.Some? ==> item.overview.value == "")
                    && (|rest| == 0 || (item.overview.None? && rest == [""]))))
  {
    TagsEmpty(item.overview, DiscoverGenreWords(item, genreMap), MinimalCredits(credits));
  }

  /** The discover pool: the movie pages then the series pages, each entry
      paired with its credits (`credits[i]` for the i-th entry), tagged, and
      filtered to the usable ones. */
  function DiscoverPool(movies: seq<TmdbItem>, series: seq<TmdbItem>, genreMap: map<int, string>,
                        credits: seq<Credits>): (r: seq<DiscoverEntry>)
    requires |credits| == |movies| + |series|
    ensures |r| <= |movies| + |series|
    ensures forall i :: 0 <= i < |r| ==> Usable(r[i])
  {
    var items := movies + series;
    Filter(seq(|items|, i requires 0 <= i < |items| => ToEntry(items[i], genreMap, credits[i])), Usable)
  }

  /** Every pool entry is a recorded discover title that passed the filter,
      in order, and every recorded title that passes the filter is in the
      pool, as often as it was recorded. */
  lemma DiscoverPoolIsFilter(movies: seq<TmdbItem>, series: seq<TmdbItem>, genreMap: map<int, string>,
                             credits: seq<Credits>)
    requires |credits| == |movies| + |series|
    ensures var items := movies + series;
            var all := seq(|items|, i requires 0 <= i < |items| => ToEntry(items[i], genreMap, credits[i]));
            && IsSubsequence(DiscoverPool(movies, series, genreMap, credits), all)
            && (forall i :: 0 <= i < |items| && Usable(all[i]) ==> all[i] in DiscoverPool(movies, series, genreMap, credits))
            && forall e :: multiset(DiscoverPool(movies, series, genreMap, credits))[e] == if Usable(e) then multiset(all)[e] else 0
  {
    var items := movies + series;
    var all := seq(|items|, i requires 0 <= i < |items| => ToEntry(items[i], genreMap, credits[i]));
    FilterIsSubsequence(all, Usable);
  }

  /** A pool entry in the service's request shape; every field the service
      requires is present because the filter demanded it. */
  function ToServerMovie(e: DiscoverEntry): (m: RecommendServer.Movie)
    requires Usable(e)
    ensures m.id == e.id.value && m.title == e.title.value && m.tags == e.tags
    ensures m.posterPath == e.posterPath.value && m.releaseDate == e.releaseDate.value
    ensures m.voteAverage == e.voteAverage.value && m.mediaType == e.mediaType
  {
    RecommendServer.Movie(e.id.value, e.title.value, e.tags, e.posterPath.value,
                          e.releaseDate.value, e.voteAverage.value, e.mediaType)
  }

  /** A favourite's genre words: its stored genre names, lower-cased. */
  function FavoriteGenreWords(item: WatchedItem): (r: Option<seq<string>>)
    ensures r.Some? <==> item.genres.Some?
    ensures r.Some? ==> |r.value| == |item.genres.value|
                        && forall i :: 0 <= i < |r.value| ==>
                             |r.value[i]| == |item.genres.value[i]| && Lower(r.value[i]) == r.value[i]
    ensures r.Some? ==> forall i, k :: 0 <= i < |r.value| && 0 <= k < |r.value[i]| ==>
                          r.value[i][k] == LowerChar(item.genres.value[i][k])
  {
    if item.genres.Some? then
      assert forall g :: g in item.genres.value ==> Lower(Lower(g)) == Lower(g) by {
        forall g | g in item.genres.value {
          LowerIdempotent(g);
        }
      }
      Some(Map(item.genres.value, Lower))
    else None
  }

  /** A favourite in the shape the page posts to the service: tagged like a
      discover title from its description, stored genres and trimmed
      credits; its type is the stored `type`, else "tv" for a title with a
      name, else "movie". Favourites are not filtered. */
  function FavoriteEntry(item: WatchedItem, credits: Credits): (e: DiscoverEntry)
    ensures e.id == Some(item.id) && e.posterPath == item.posterPath && e.voteAverage == item.voteAverage
    ensures e.title == (if Truthy(item.title) then item.title else item.name)
    ensures e.releaseDate == (if Truthy(item.releaseDate) then item.releaseDate else item.firstAirDate)
    ensures item.mediaType != "" ==> e.mediaType == item.mediaType
    ensures item.mediaType == "" ==> (e.mediaType == "tv" <==> Truthy(item.name)) && (e.mediaType == "tv" || e.mediaType == "movie")
    ensures e.tags == Tags(item.description, FavoriteGenreWords(item), MinimalCredits(credits))
  {
    DiscoverEntry(Some(item.id), Or(item.title, item.name),
                  Tags(item.description, FavoriteGenreWords(item), MinimalCredits(credits)),
                  item.posterPath, Or(item.releaseDate, item.firstAirDate), item.voteAverage,
                  if item.mediaType != "" then item.mediaType else if Truthy(item.name) then "tv" else "movie")
  }

  /** A favourite is tagged exactly as a discover title with the same text
      and the same genres would be: when its description is the title's
      overview and its genre names match, up to case, the names the genre
      map gives the title's genre ids, the two tag strings are equal. */
  lemma FavoriteTaggedLikeDiscover(item: WatchedItem, t: TmdbItem, genreMap: map<int, string>, credits: Credits)
    requires item.description == t.overview
    requires item.genres.Some? <==> t.genreIds.Some?
    requires item.genres.Some? ==>
               && |item.genres.value| == |t.genreIds.value|
               && forall i :: 0 <= i < |t.genreIds.value| ==>
                    t.genreIds.value[i] in genreMap && Lower(genreMap[t.genreIds.value[i]]) == Lower(item.genres.value[i])
    ensures FavoriteEntry(item, credits).tags == ToEntry(t, genreMap, credits).tags
  {
    var fav := FavoriteGenreWords(item);
    var disc := DiscoverGenreWords(t, genreMap);
    if item.genres.Some? {
      assert |fav.value| == |disc.value|;
      forall i | 0 <= i < |fav.value|
        ensures fav.value[i] == disc.value[i]
      {
        assert fav.value[i] == Lower(item.genres.value[i]);
      }
      assert fav.value == disc.value;
    }
    assert fav == disc;
  }

  /** The day a watched title was watched, when its `watchDate` reads as a
      date; otherwise `new Date(...)` is an invalid date. */
  function WatchedOn(item: WatchedItem): Option<Instant> {
    if item.watchDate.Some? then ParseDay(item.watchDate.value) else None
  }

  predicate DatedFavorite(item: WatchedItem) {
    IsFavorite(item) && WatchedOn(item).Some?
  }

  predicate UndatedFavorite(item: WatchedItem) {
    IsFavorite(item) && WatchedOn(item).None?
  }

  /** The sort key: the watch day as a day number, later days larger. */
  function WatchDayKey(item: WatchedItem): real {
    var t := WatchedOn(item);
    if t.Some? then DaysFromCivil(t.value.year, t.value.month, t.value.day) as real else 0.0
  }

  /** The favourites sent to the service: the favourites, most recently
      watched first (equal days in list order), then the favourites without a
      readable watch date in list order, cut to the first five. */
  function SelectFavorites(watched: seq<WatchedItem>): (r: seq<WatchedItem>)
    ensures |r| <= 5
    ensures forall i :: 0 <= i < |r| ==> r[i] in watched && IsFavorite(r[i])
    ensures multiset(r) <= multiset(Filter(watched, IsFavorite))
  {
    var dated := Sort(Filter(watched, DatedFavorite), WatchDayKey);
    var undated := Filter(watched, UndatedFavorite);
    var all := dated + undated;
    FavoritesSplit(watched);
    assert multiset(all) == multiset(dated) + multiset(undated);
    TakeMultiset(all, 5);
    var r := Take(all, 5);
    forall i | 0 <= i < |r|
      ensures r[i] in watched && IsFavorite(r[i])
    {
      assert r[i] in multiset(Filter(watched, IsFavorite));
    }
    r
  }

  /** Every favourite is either dated or undated, so the two lists between
      them hold exactly the favourites. */
  lemma FavoritesSplit(watched: seq<WatchedItem>)
    ensures multiset(Filter(watched, DatedFavorite)) + multiset(Filter(watched, UndatedFavorite))
         == multiset(Filter(watched, IsFavorite))
  {
    forall x
      ensures (multiset(Filter(watched, DatedFavorite)) + multiset(Filter(watched, UndatedFavorite)))[x]
           == multiset(Filter(watched, IsFavorite))[x]
    {
    }
  }

  /** The dated favourites by recency: each one is a dated favourite from the
      list, and each dated favourite of the list is somewhere among them. */
  lemma DatedByRecency(watched: seq<WatchedItem>, x: WatchedItem) returns (p: nat)
    requires x in watched && DatedFavorite(x)
    ensures var dated := Sort(Filter(watched, DatedFavorite), WatchDayKey);
            && p < |dated| && dated[p] == x
            && forall i :: 0 <= i < |dated| ==> dated[i] in watched && DatedFavorite(dated[i])
  {
    var dated := Sort(Filter(watched, DatedFavorite), WatchDayKey);
    assert x in Filter(watched, DatedFavorite);
    assert x in multiset(dated);
    p :| 0 <= p < |dated| && dated[p] == x;
    DatedAreDated(watched);
  }

  /** Every title in the recency-sorted dated list is a dated favourite of
      the watched list. */
  lemma DatedAreDated(watched: seq<WatchedItem>)
    ensures var dated := Sort(Filter(watched, DatedFavorite), WatchDayKey);
            forall i :: 0 <= i < |dated| ==> dated[i] in watched && DatedFavorite(dated[i])
  {
    var dated := Sort(Filter(watched, DatedFavorite), WatchDayKey);
    forall i | 0 <= i < |dated|
      ensures dated[i] in watched && DatedFavorite(dated[i])
    {
      assert dated[i] in multiset(dated);
    }
  }

  /** Recency decides who is left out: a favourite with a readable watch date
      that is not sent only misses out because five favourites watched on
      the same day or later fill the list. */
  lemma SelectFavoritesTop(watched: seq<WatchedItem>, x: WatchedItem)
    requires x in watched && DatedFavorite(x)
    ensures var r := SelectFavorites(watched);
            x in r || (|r| == 5 && forall i :: 0 <= i < |r| ==> DatedFavorite(r[i]) && WatchDayKey(r[i]) >= WatchDayKey(x))
  {
    var dated := Sort(Filter(watched, DatedFavorite), WatchDayKey);
    var p := DatedByRecency(watched, x);
    TakeSortedFront(dated, Filter(watched, UndatedFavorite), WatchDayKey, 5, p);
  }

  /** A favourite without a readable watch date is sent only when every
      dated favourite is. */
  lemma SelectFavoritesDatedFirst(watched: seq<WatchedItem>, x: WatchedItem)
    requires x in watched && DatedFavorite(x)
    ensures var r := SelectFavorites(watched);
            (exists i :: 0 <= i < |r| && UndatedFavorite(r[i])) ==> x in r
  {
    var dated := Sort(Filter(watched, DatedFavorite), WatchDayKey);
    var p := DatedByRecency(watched, x);
    TakeSortedFront(dated, Filter(watched, UndatedFavorite), WatchDayKey, 5, p);
  }

  /** Five favourites are sent when there are at least five, otherwise all of
      them. */
  lemma SelectFavoritesCount(watched: seq<WatchedItem>)
    ensures |SelectFavorites(watched)| == Min(5, Count(watched, IsFavorite))
  {
    CountSplit(watched, DatedFavorite, UndatedFavorite, IsFavorite);
  }

  /** The order of the selection: a dated favourite is preceded only by dated
      favourites watched on the same day or later. */
  lemma SelectFavoritesOrder(watched: seq<WatchedItem>)
    ensures var r := SelectFavorites(watched);
            forall i, j :: 0 <= i < j < |r| && DatedFavorite(r[j]) ==>
              DatedFavorite(r[i]) && WatchDayKey(r[i]) >= WatchDayKey(r[j])
  {
    var dated := Sort(Filter(watched, DatedFavorite), WatchDayKey);
    var undated := Filter(watched, UndatedFavorite);
    DatedAreDated(watched);
    TakeSortedThenOthers(dated, undated, WatchDayKey, DatedFavorite, 5);
  }

  /** How long a cached answer stays usable: 30 minutes, in milliseconds. */
  const MaxAge: int := 1000 * 60 * 30

  /** A cached answer and when it was stored (`None` when the timestamp is
      missing, which makes the age not a number). */
  datatype CachedAnswer = CachedAnswer(answer: RecommendServer.Response, timestamp: Option<int>)

  /** What the page takes from the cache at time `now`: the cached answer
      while it is younger than 30 minutes, nothing otherwise. */
  function FromCache(cached: Option<CachedAnswer>, now: int): (r: Option<RecommendServer.Response>)
    ensures r.Some? <==> cached.Some? && cached.value.timestamp.Some?
                         && now - cached.value.timestamp.value < 1800000
    ensures r.Some? ==> r.value == cached.value.answer
  {
    if cached.Some? && cached.value.timestamp.Some? && now - cached.value.timestamp.value < MaxAge
    then Some(cached.value.answer) else None
  }

  /** The entry the page stores after a successful request. */
  function Store(answer: RecommendServer.Response, now: int): CachedAnswer {
    CachedAnswer(answer, Some(now))
  }

  /** Storing then reading gives the stored answer back exactly while less
      than 30 minutes have passed. */
  lemma StoreThenRead(answer: RecommendServer.Response, stored: int, now: int)
    ensures FromCache(Some(Store(answer, stored)), now) == Some(answer) <==> now - stored < MaxAge
    ensures now - stored >= MaxAge ==> FromCache(Some(Store(answer, stored)), now) == None
  {
  }

  /** A cached answer usable at some time is usable at every earlier time. */
  lemma FreshEarlier(cached: Option<CachedAnswer>, now: int, earlier: int)
    requires earlier <= now && FromCache(cached, now).Some?
    ensures FromCache(cached, earlier) == FromCache(cached, now)
  {
  }

  /** The emotion results without repeats: the first result of each
      `(id, type)` in the order received. */
  function DedupeResults(items: seq<RecommendServer.Movie>): (r: seq<RecommendServer.Movie>)
    ensures |r| <= |items|
    ensures DistinctKeys(r, RecommendServer.KeyOf)
  {
    FirstByKey(items, RecommendServer.KeyOf, {}, |items| + 1)
  }

  /** De-duplication keeps order, drops no `(id, type)`, and keeps exactly
      the first result of each. */
  lemma DedupeResultsFacts(items: seq<RecommendServer.Movie>)
    ensures var r := DedupeResults(items);
            && IsSubsequence(r, items)
            && KeysOf(r, RecommendServer.KeyOf) == KeysOf(items, RecommendServer.KeyOf)
    ensures forall i :: 0 <= i < |DedupeResults(items)| ==>
              exists j :: 0 <= j < |items| && items[j] == DedupeResults(items)[i]
                          && FirstOfKey(items, RecommendServer.KeyOf, j)
  {
    FirstByKeyIsSubsequence(items, RecommendServer.KeyOf, {}, |items| + 1);
    FirstByKeyKeepsEveryKey(items, RecommendServer.KeyOf, {}, |items| + 1);
    FirstByKeyFirstOccurrence(items, RecommendServer.KeyOf, {}, |items| + 1);
  }

  /** De-duplicating twice is de-duplicating once. */
  lemma DedupeResultsIdempotent(items: seq<RecommendServer.Movie>)
    ensures DedupeResults(DedupeResults(items)) == DedupeResults(items)
  {
    DistinctFirstByKey(DedupeResults(items), RecommendServer.KeyOf, |DedupeResults(items)| + 1);
  }
}

=== FILE: details.dfy ===
/** The title details page: which credits and videos it shows, and the
    watched record it writes when the title is marked as watched. */
module TitleDetails {
  import opened Seqs
  import opened Text
  import opened Records
  import ViewingStats

  /** A title's details as TMDB returns them; every field may be missing. */
  datatype Details = Details(
    id: Option<int>,
    title: Option<string>,
    name: Option<string>,
    posterPath: Option<string>,
    releaseDate: Option<string>,
    firstAirDate: Option<string>,
    voteAverage: Option<real>,
    genres: Option<seq<string>>,
    popularity: Option<real>,
    overview: Option<string>,
    status: Option<string>,
    runtime: Option<int>,
    numberOfEpisodes: Option<int>,
    numberOfSeasons: Option<int>,
    episodeRunTime: Option<seq<int>>)

  /** A video entry: its site key and its kind ("Trailer", "Teaser", ...). */
  datatype Video = Video(key: string, kind: string)

  /** The cast shown: the first ten credits entries, or nothing when the
      credits or their cast are missing. */
  function ShownCast(credits: Option<Credits>): (r: Option<seq<Person>>)
    ensures r.Some? <==> credits.Some? && credits.value.cast.Some?
    ensures r.Some? ==> |r.value| <= 10 && r.value <= credits.value.cast.value
                        && (|credits.value.cast.value| >= 10 ==> |r.value| == 10)
    ensures r.Some? ==> |r.value| == if |credits.value.cast.value| < 10 then |credits.value.cast.value| else 10
  {
    if credits.Some? && credits.value.cast.Some? then Some(Take(credits.value.cast.value, 10)) else None
  }

  /** The directors: the crew entries whose job is "Director", in order; none
      when the crew is missing. */
  function Directors(credits: Option<Credits>): (r: seq<Person>)
    ensures forall p :: p in r <==> credits.Some? && credits.value.crew.Some?
                                    && p in credits.value.crew.value && IsDirector(p)
    ensures credits.Some? && credits.value.crew.Some? ==> IsSubsequence(r, credits.value.crew.value)
    ensures credits.Some? && credits.value.crew.Some? ==>
              forall p :: multiset(r)[p] == if IsDirector(p) then multiset(credits.value.crew.value)[p] else 0
  {
    var crew := if credits.Some? && credits.value.crew.Some? then credits.value.crew.value else [];
    FilterIsSubsequence(crew, IsDirector);
    Filter(crew, IsDirector)
  }

  predicate IsTrailer(v: Video) {
    v.kind == "Trailer"
  }

  predicate NotTrailer(v: Video) {
    v.kind != "Trailer"
  }

  /** The position of the first trailer, if any. */
  function FirstTrailer(videos: seq<Video>): (r: Option<nat>)
    ensures r.Some? ==> r.value < |videos| && IsTrailer(videos[r.value])
                        && forall k :: 0 <= k < r.value ==> !IsTrailer(videos[k])
    ensures r.None? <==> forall k :: 0 <= k < |videos| ==> !IsTrailer(videos[k])
  {
    if |videos| == 0 then None
    else if IsTrailer(videos[0]) then Some(0)
    else
      var rest := FirstTrailer(videos[1..]);
      assert forall k :: 1 <= k < |videos| ==> videos[k] == videos[1..][k - 1];
      if rest.Some? then Some(rest.value + 1) else None
  }

  /** The trailer shown: the first video of kind "Trailer". */
  function Trailer(videos: Option<seq<Video>>): (r: Option<Video>)
    ensures r.Some? ==> videos.Some? && IsTrailer(r.value)
                        && exists i :: 0 <= i < |videos.value| && videos.value[i] == r.value
                                       && forall k :: 0 <= k < i ==> !IsTrailer(videos.value[k])
    ensures r.None? ==> videos.None? || forall v :: v in videos.value ==> !IsTrailer(v)
  {
    if videos.None? then None
    else
      var i := FirstTrailer(videos.value);
      if i.Some? then Some(videos.value[i.value]) else None
  }

  /** The other videos shown: up to five that are not trailers, in order. */
  function OtherVideos(videos: Option<seq<Video>>): (r: Option<seq<Video>>)
    ensures r.Some? <==> videos.Some?
    ensures r.Some? ==> |r.value| <= 5 && forall v :: v in r.value ==> v in videos.value && NotTrailer(v)
    ensures r.Some? ==> r.value <= Filter(videos.value, NotTrailer)
    ensures r.Some? ==> var n := |Filter(videos.value, NotTrailer)|; |r.value| == if n < 5 then n else 5
  {
    if videos.None? then None else Some(Take(Filter(videos.value, NotTrailer), 5))
  }

  /** A name with all whitespace removed. */
  function Squeezed(p: Person): string {
    StripSpaces(p.name)
  }

  /** The record written when the title is marked as watched. The cast
      must have loaded (a missing cast makes the page throw) and the details
      must carry an id (it names the stored document). A movie gets its
      runtime; a series gets its episode and season counts and its first
      episode length; other fields the page does not set stay absent. */
  function WatchedRecord(details: Details, kind: string, cast: Option<seq<Person>>, directors: seq<Person>)
    : (r: Result<WatchedItem>)
    ensures r.Success? <==> cast.Some? && details.id.Some?
    ensures r.Success? ==>
              && r.value.id == details.id.value
              && r.value.mediaType == kind
              && r.value.title == Or(details.title, details.name)
              && r.value.releaseDate == Or(details.releaseDate, details.firstAirDate)
              && r.value.description == details.overview
              && r.value.rating.None? && r.value.notes.None? && r.value.quotes.None?
              && r.value.favorite.None? && r.value.watchDate.None?
  {
    if cast.None? || details.id.None? then Failure
    else
      var castNames := Take(Map(cast.value, Squeezed), 3);
      var directorNames := Take(Map(directors, Squeezed), 2);
      var isMovie := kind == "movie";
      var isTv := kind == "tv";
      Success(WatchedItem(
        id := details.id.value,
        title := Or(details.title, details.name),
        name := None,
        mediaType := kind,
        posterPath := details.posterPath,
        releaseDate := Or(details.releaseDate, details.firstAirDate),
        firstAirDate := None,
        voteAverage := details.voteAverage,
        genres := details.genres,
        popularity := details.popularity,
        description := details.overview,
        cast := Some(castNames),
        crew := Some(directorNames),
        status := details.status,
        runtime := if isMovie then details.runtime else None,
        episodes := if isTv then details.numberOfEpisodes else None,
        seasons := if isTv then details.numberOfSeasons else None,
        episodeRunTime := if isTv then FirstEntry(details.episodeRunTime) else None,
        rating := None,
        notes := None,
        quotes := None,
        favorite := None,
        watchDate := None))
  }

  /** `list?.[0] ?? null`: the first entry, absent for a missing or empty list. */
  function FirstEntry(list: Option<seq<int>>): (r: Option<int>)
    ensures r.Some? <==> list.Some? && |list.value| > 0
    ensures r.Some? ==> r.value == list.value[0]
  {
    if list.Some? && |list.value| > 0 then Some(list.value[0]) else None
  }

  /** The stored cast and crew names: the first three cast names and the
      first two director names (all of them when there are fewer), each the
      person's name without whitespace, in credits order. */
  lemma WatchedRecordNames(details: Details, kind: string, cast: Option<seq<Person>>, directors: seq<Person>)
    requires WatchedRecord(details, kind, cast, directors).Success?
    ensures var item := WatchedRecord(details, kind, cast, directors).value;
            && item.cast.Some? && |item.cast.value| <= 3
            && |item.cast.value| == (if |cast.value| < 3 then |cast.value| else 3)
            && (forall i :: 0 <= i < |item.cast.value| ==>
                  item.cast.value[i] == StripSpaces(cast.value[i].name)
                  && forall j :: 0 <= j < |item.cast.value[i]| ==> !IsSpace(item.cast.value[i][j]))
            && item.crew.Some? && |item.crew.value| <= 2
            && |item.crew.value| == (if |directors| < 2 then |directors| else 2)
            && (forall i :: 0 <= i < |item.crew.value| ==> item.crew.value[i] == StripSpaces(directors[i].name))
  {
  }

  /** The record's type decides which duration fields it carries, and so what
      it adds to the viewing totals: a movie adds its runtime to the movie
      time, a series its episode count times its first episode length to the
      show time, and any other type adds nothing. */
  lemma WatchedRecordWatchTime(details: Details, kind: string, cast: Option<seq<Person>>, directors: seq<Person>)
    requires WatchedRecord(details, kind, cast, directors).Success?
    ensures var item := WatchedRecord(details, kind, cast, directors).value;
            kind == "movie" ==>
              && item.runtime == details.runtime && item.episodes.None? && item.seasons.None?
              && ViewingStats.MovieTime(item) == OrZero(details.runtime)
              && ViewingStats.ShowTime(item) == 0
    ensures var item := WatchedRecord(details, kind, cast, directors).value;
            kind == "tv" ==>
              && item.runtime.None? && item.episodes == details.numberOfEpisodes
              && item.seasons == details.numberOfSeasons
              && item.episodeRunTime == FirstEntry(details.episodeRunTime)
              && ViewingStats.MovieTime(item) == 0
              && ViewingStats.ShowTime(item) == OrZero(FirstEntry(details.episodeRunTime)) * OrZero(details.numberOfEpisodes)
    ensures var item := WatchedRecord(details, kind, cast, directors).value;
            kind != "movie" && kind != "tv" ==>
              && item.runtime.None? && item.episodes.None? && item.seasons.None? && item.episodeRunTime.None?
              && ViewingStats.MovieTime(item) == 0 && ViewingStats.ShowTime(item) == 0
  {
  }
}

=== FILE: edit.dfy ===
/** The page that edits one watched title: the form state loaded from the
    stored record, the note and quote lists, the star rating, the favourite
    toggle and the watch date, and the record the page writes back. */
module WatchedEdit {
  import opened Seqs
  import opened Text
  import opened IsoDate
  import opened Records
  import TitleDetails

  /** The date picker's value: nothing chosen, a date, or an invalid date
      (`new Date` of a stored value it cannot read). */
  datatype DateChoice = NoDate | Picked(day: Instant) | InvalidDate

  /** The form state. `movie` is the loaded record, `None` until it arrives. */
  datatype Editor = Editor(
    movie: Option<WatchedItem>,
    rating: int,
    notes: seq<string>,
    newNote: string,
    quotes: seq<string>,
    newQuote: string,
    favorite: bool,
    watchDate: DateChoice)

  const Initial := Editor(None, 0, [], "", [], "", false, NoDate)

  /** How the page reads a stored watch date: a truthy value becomes the
      date it names (or an invalid date), anything else no date. */
  function ReadWatchDate(stored: Option<string>): (r: DateChoice)
    ensures r.Picked? ==> Truthy(stored) && r.day.Valid() && ParseDay(stored.value) == Some(r.day)
    ensures r == NoDate <==> !Truthy(stored)
  {
    if !Truthy(stored) then NoDate
    else
      var t := ParseDay(stored.value);
      if t.Some? then Picked(t.value) else InvalidDate
  }

  /** Loading the stored record: a missing record leaves the form as it is;
      otherwise the form takes the record's rating (0 when missing), notes and
      quotes (empty when missing), favourite flag and watch date. */
  function Load(ed: Editor, stored: Option<WatchedItem>): (r: Editor)
    ensures stored.None? ==> r == ed
    ensures stored.Some? ==>
              && r.movie == stored
              && r.rating == (if stored.value.rating.Some? then stored.value.rating.value else 0)
              && r.notes == stored.value.notes.GetOr([])
              && r.quotes == stored.value.quotes.GetOr([])
              && (r.favorite <==> stored.value.favorite == Some(true))
              && r.watchDate == ReadWatchDate(stored.value.watchDate)
              && r.newNote == ed.newNote && r.newQuote == ed.newQuote
  {
    if stored.None? then ed
    else
      var m := stored.value;
      ed.(movie := stored, rating := OrZero(m.rating), notes := m.notes.GetOr([]),
          quotes := m.quotes.GetOr([]), favorite := IsFavorite(m),
          watchDate := ReadWatchDate(m.watchDate))
  }

  /** Adding from an input box: the trimmed text is appended and the box
      cleared when the trimmed text is not empty; otherwise nothing changes. */
  function AddTrimmed(list: seq<string>, input: string): (r: (seq<string>, string))
    ensures Trim(input) != "" ==> r.0 == list + [Trim(input)] && r.1 == ""
    ensures Trim(input) == "" ==> r == (list, input)
    ensures forall i :: 0 <= i < |r.0| ==> r.0[i] == (if i < |list| then list[i] else Trim(input))
  {
    if Trim(input) != "" then (list + [Trim(input)], "") else (list, input)
  }

  /** `list.filter((_, i) => i !== index)`, walking the list with each
      element's index starting at `from`. */
  function KeepOtherIndices(list: seq<string>, index: int, from: int): (r: seq<string>)
    ensures |r| <= |list|
    decreases |list|
  {
    if |list| == 0 then []
    else (if from != index then [list[0]] else []) + KeepOtherIndices(list[1..], index, from + 1)
  }

  /** Removing the element at `index`. */
  function RemoveAt(list: seq<string>, index: int): seq<string> {
    KeepOtherIndices(list, index, 0)
  }

  /** The index filter drops exactly the element at `index` when there is one
      and keeps the rest in order. */
  lemma {:induction false} KeepOtherIndicesSlice(list: seq<string>, index: int, from: int)
    ensures KeepOtherIndices(list, index, from)
         == if from <= index < from + |list| then list[..index - from] + list[index - from + 1..] else list
    decreases |list|
  {
    if |list| > 0 {
      KeepOtherIndicesSlice(list[1..], index, from + 1);
      if from == index {
        assert list[..0] + list[1..] == list[1..];
      } else if from < index < from + |list| {
        assert [list[0]] + (list[1..][..index - from - 1] + list[1..][index - from..])
            == list[..index - from] + list[index - from + 1..];
      } else {
        assert [list[0]] + list[1..] == list;
      }
    }
  }

  /** Removing at an index inside the list drops exactly that element and
      keeps the others in order; any other index leaves the list unchanged. */
  lemma RemoveAtFacts(list: seq<string>, index: int)
    ensures 0 <= index < |list| ==>
              && |RemoveAt(list, index)| == |list| - 1
              && (forall i :: 0 <= i < index ==> RemoveAt(list, index)[i] == list[i])
              && (forall i :: index <= i < |list| - 1 ==> RemoveAt(list, index)[i] == list[i + 1])
    ensures !(0 <= index < |list|) ==> RemoveAt(list, index) == list
  {
    KeepOtherIndicesSlice(list, index, 0);
  }

  function AddNote(ed: Editor): (r: Editor)
    ensures (r.notes, r.newNote) == AddTrimmed(ed.notes, ed.newNote)
    ensures r.(notes := ed.notes, newNote := ed.newNote) == ed
  {
    var (notes, input) := AddTrimmed(ed.notes, ed.newNote);
    ed.(notes := notes, newNote := input)
  }

  function RemoveNote(ed: Editor, index: int): (r: Editor)
    ensures r.notes == RemoveAt(ed.notes, index)
    ensures r.(notes := ed.notes) == ed
  {
    ed.(notes := RemoveAt(ed.notes, index))
  }

  function AddQuote(ed: Editor): (r: Editor)
    ensures (r.quotes, r.newQuote) == AddTrimmed(ed.quotes, ed.newQuote)
    ensures r.(quotes := ed.quotes, newQuote := ed.newQuote) == ed
  {
    var (quotes, input) := AddTrimmed(ed.quotes, ed.newQuote);
    ed.(quotes := quotes, newQuote := input)
  }

  function RemoveQuote(ed: Editor, index: int): (r: Editor)
    ensures r.quotes == RemoveAt(ed.quotes, index)
    ensures r.(quotes := ed.quotes) == ed
  {
    ed.(quotes := RemoveAt(ed.quotes, index))
  }

  /** Clicking star `star` (1 to 5) sets the rating to it. */
  function ClickStar(ed: Editor, star: int): (r: Editor)
    requires 1 <= star <= 5
    ensures 1 <= r.rating <= 5 && r.rating == star
    ensures r.(rating := ed.rating) == ed
  {
    ed.(rating := star)
  }

  /** How many of the stars `star`..5 are shown lit for a rating: a star is
      lit when it is at most the rating. */
  function LitStars(star: int, rating: int): nat
    requires 1 <= star <= 6
    decreases 6 - star
  {
    if star > 5 then 0 else (if star <= rating then 1 else 0) + LitStars(star + 1, rating)
  }

  /** The lit stars among `star`..5 are those up to the rating, capped at 5. */
  lemma {:induction false} LitStarsCount(star: int, rating: int)
    requires 1 <= star <= 6
    ensures var top := if rating < 5 then rating else 5;
            LitStars(star, rating) == if top - star + 1 > 0 then top - star + 1 else 0
    decreases 6 - star
  {
    if star <= 5 {
      LitStarsCount(star + 1, rating);
    }
  }

  /** A rating from 0 to 5 lights exactly that many of the five stars. */
  lemma LitStarsMatchRating(rating: int)
    requires 0 <= rating <= 5
    ensures LitStars(1, rating) == rating
  {
    LitStarsCount(1, rating);
  }

  function ToggleFavorite(ed: Editor): (r: Editor)
    ensures r.favorite == !ed.favorite
    ensures r.(favorite := ed.favorite) == ed
  {
    ed.(favorite := !ed.favorite)
  }

  lemma ToggleTwice(ed: Editor)
    ensures ToggleFavorite(ToggleFavorite(ed)) == ed
  {
  }

  /** The saved watch date: the "YYYY-MM-DD" day of the chosen date, absent
      when none is chosen; an invalid date makes `toISOString` throw, and
      nothing is saved. */
  function SavedWatchDate(choice: DateChoice): (r: Result<Option<string>>)
    ensures r.Failure? <==> choice.InvalidDate? || (choice.Picked? && !choice.day.Valid())
    ensures choice == NoDate ==> r == Success(None)
    ensures choice.Picked? && choice.day.Valid() ==>
              r.Success? && r.value.Some? && |r.value.value| == 10
              && ParseDay(r.value.value) == Some(choice.day.Midnight())
  {
    match choice
    case NoDate => Success(None)
    case InvalidDate => Failure
    case Picked(t) => if t.Valid() then Success(Some(DayKey(t))) else Failure
  }

  /** The write the page attempts, as written. With no date chosen the
      record carries `watchDate: undefined`, and Firestore's default settings
      reject a document holding an `undefined` field, so the save fails and
      the page does not navigate away. Otherwise it writes what `Save` does. */
  function SaveAsWritten(ed: Editor): (r: Result<WatchedItem>)
    ensures r.Success? <==> ed.movie.Some? && ed.watchDate.Picked? && ed.watchDate.day.Valid()
    ensures r.Success? ==> r == Save(ed)
  {
    if ed.watchDate == NoDate then Failure else Save(ed)
  }

  /** A title marked as watched from its details page is stored without a
      watch date. Opened in the editor and saved without picking a date, the
      page's write fails, while the corrected save stores the form with the
      date still absent. */
  lemma SaveAsWrittenRejectsUndated(details: TitleDetails.Details, kind: string, cast: Option<seq<Person>>,
                                    directors: seq<Person>)
    requires TitleDetails.WatchedRecord(details, kind, cast, directors).Success?
    ensures var ed := Load(Initial, Some(TitleDetails.WatchedRecord(details, kind, cast, directors).value));
            && SaveAsWritten(ed).Failure?
            && Save(ed).Success? && Save(ed).value.watchDate.None?
  {
  }

  /** The record the page writes back: the loaded record with rating, notes,
      quotes, favourite and watch date replaced by the form's values. No record
      is written before one is loaded or when the date cannot be rendered; a
      form without a date is stored with the date absent, which is what
      `SaveAsWritten` should do. */
  function Save(ed: Editor): (r: Result<WatchedItem>)
    ensures r.Success? <==> ed.movie.Some? && SavedWatchDate(ed.watchDate).Success?
    ensures r.Success? ==>
              && r.value.rating == Some(ed.rating)
              && r.value.notes == Some(ed.notes)
              && r.value.quotes == Some(ed.quotes)
              && r.value.favorite == Some(ed.favorite)
              && r.value.watchDate == SavedWatchDate(ed.watchDate).value
    ensures r.Success? ==>
              var m := ed.movie.value;
              r.value.(rating := m.rating, notes := m.notes, quotes := m.quotes,
                       favorite := m.favorite, watchDate := m.watchDate) == m
  {
    if ed.movie.None? then Failure
    else
      var date := SavedWatchDate(ed.watchDate);
      if date.Failure? then Failure
      else
        Success(ed.movie.value.(rating := Some(ed.rating), notes := Some(ed.notes), quotes := Some(ed.quotes),
                                favorite := Some(ed.favorite), watchDate := date.value))
  }

  /** Saving and loading again gives back the form's rating, lists, favourite
      flag and date (a picked date comes back as midnight of its day). */
  lemma SaveThenLoad(ed: Editor)
    requires Save(ed).Success?
    ensures var back := Load(Initial, Some(Save(ed).value));
            && back.rating == ed.rating && back.notes == ed.notes && back.quotes == ed.quotes
            && back.favorite == ed.favorite
            && back.watchDate == (if ed.watchDate.Picked? then Picked(ed.watchDate.day.Midnight()) else NoDate)
  {
    if ed.watchDate.Picked? {
      var t := ed.watchDate.day;
      assert Truthy(Some(DayKey(t)));
    }
  }
}

=== FILE: finance.dfy ===
/** The monthly financial report: a budget, the subscriptions and the
    expenses of one calendar month, kept in the document named by the month
    key. Each handler is a pure step from the page state to the next page
    state and the document it would write. */
module Finance {
  import opened Seqs
  import opened Text
  import opened IsoDate
  import opened Records

  /** A recurring subscription; `nextBilling` is the month of its next charge. */
  datatype Subscription = Subscription(
    platform: Option<string>,
    price: int,
    period: Option<string>,
    services: string,
    nextBilling: YearMonth)

  datatype ExpenseKind = SubscriptionCharge | MonthlyCharge

  datatype Expense = Expense(name: Option<string>, price: int, date: Instant, kind: ExpenseKind)

  /** The page state: budget limit, subscriptions and this month's expenses. */
  datatype Ledger = Ledger(budget: int, subscriptions: seq<Subscription>, expenses: seq<Expense>)

  /** A stored month document; any field may be missing. */
  datatype StoredDoc = StoredDoc(
    budgetLimit: Option<int>,
    subscriptions: Option<seq<Subscription>>,
    monthlyExpenses: Option<seq<Expense>>)

  /** The add-expense form. */
  datatype ExpenseForm = ExpenseForm(
    platform: Option<string>,
    name: Option<string>,
    price: int,
    period: Option<string>,
    services: Option<string>)

  /** Which kind of entry the form adds. */
  datatype EntryKind = SubscriptionEntry | MonthlyEntry

  /** A handler's effect: the next page state and the document written, if any. */
  datatype Change = Change(ledger: Ledger, saved: Option<StoredDoc>)

  /** The state the page starts in. */
  const Initial := Ledger(0, [], [])

  const EmptyForm := ExpenseForm(None, None, 0, None, None)

  /** `getCurrentMonthKey`: the "YYYY-MM" key of the month document, which
      reads back as the current month. */
  function CurrentMonthKey(now: Instant): (r: string)
    requires now.Valid()
    ensures |r| == 7 && r[4] == '-'
    ensures ParseMonthKey(r) == Some(now.MonthOf())
  {
    PadFacts(now.year, 4);
    PadFacts(now.month, 2);
    MonthKey(now)
  }

  /** The document a handler writes for a page state. */
  function Save(l: Ledger): StoredDoc {
    StoredDoc(Some(l.budget), Some(l.subscriptions), Some(l.expenses))
  }

  /** `loadData`: a found document replaces the state, a missing or zero budget
      reading as 0 and a missing list as empty; no document, or no user,
      leaves the state as it is. */
  function Load(doc: Option<StoredDoc>, signedIn: bool, state: Ledger): (r: Ledger)
    ensures !signedIn || doc.None? ==> r == state
    ensures signedIn && doc.Some? ==>
              && (doc.value.budgetLimit.Some? ==> r.budget == doc.value.budgetLimit.value)
              && (doc.value.budgetLimit.None? ==> r.budget == 0)
              && r.subscriptions == (if doc.value.subscriptions.Some? then doc.value.subscriptions.value else [])
              && r.expenses == (if doc.value.monthlyExpenses.Some? then doc.value.monthlyExpenses.value else [])
  {
    if !signedIn then state
    else match doc
      case None => state
      case Some(d) =>
        Ledger(OrZero(d.budgetLimit),
               if d.subscriptions.Some? then d.subscriptions.value else [],
               if d.monthlyExpenses.Some? then d.monthlyExpenses.value else [])
  }

  /** Loading what a handler saved gives back the state it saved. */
  lemma LoadSaved(l: Ledger, state: Ledger)
    ensures Load(Some(Save(l)), true, state) == l
  {
  }

  function PriceOf(e: Expense): int {
    e.price
  }

  /** `totalExpenses`. */
  function Total(expenses: seq<Expense>): int {
    SumOf(expenses, PriceOf)
  }

  /** `isOverBudget`: only a positive budget can be exceeded. */
  predicate IsOverBudget(l: Ledger) {
    Total(l.expenses) > l.budget && l.budget > 0
  }

  /** With the expenses fixed, raising a positive budget never puts the page
      over it. */
  lemma RaisingBudgetKeepsUnder(l: Ledger, budget: int)
    requires 0 < l.budget <= budget && !IsOverBudget(l)
    ensures !IsOverBudget(l.(budget := budget))
  {
  }

  /** One more expense adds its price to the total. */
  lemma TotalAppend(expenses: seq<Expense>, e: Expense)
    ensures Total(expenses + [e]) == Total(expenses) + e.price
  {
    SumOfAppend(expenses, [e], PriceOf);
  }

  /** `handleAddExpense`. A subscription entry appends one subscription (billed
      from the current month, services defaulting to "") and one matching
      "subscription" expense; a monthly entry appends one "monthly" expense.
      The new state is saved and the form cleared. Without a user nothing
      happens. */
  function AddExpense(l: Ledger, entry: EntryKind, form: ExpenseForm, now: Instant, signedIn: bool)
    : (r: (Change, ExpenseForm))
    ensures !signedIn ==> r == (Change(l, None), form)
    ensures signedIn ==> r.0.saved == Some(Save(r.0.ledger)) && r.1 == EmptyForm
    ensures signedIn ==> r.0.ledger.budget == l.budget
    ensures signedIn && entry == SubscriptionEntry ==>
              && r.0.ledger.subscriptions
                   == l.subscriptions + [Subscription(form.platform, form.price, form.period,
                                                      if Truthy(form.services) then form.services.value else "",
                                                      now.MonthOf())]
              && r.0.ledger.expenses
                   == l.expenses + [Expense(form.platform, form.price, now, SubscriptionCharge)]
    ensures signedIn && entry == MonthlyEntry ==>
              && r.0.ledger.subscriptions == l.subscriptions
              && r.0.ledger.expenses == l.expenses + [Expense(form.name, form.price, now, MonthlyCharge)]
  {
    if !signedIn then (Change(l, None), form)
    else
      var next := match entry
        case SubscriptionEntry =>
          var sub := Subscription(form.platform, form.price, form.period,
                                  if Truthy(form.services) then form.services.value else "",
                                  now.MonthOf());
          Ledger(l.budget, l.subscriptions + [sub],
                 l.expenses + [Expense(form.platform, form.price, now, SubscriptionCharge)])
        case MonthlyEntry =>
          Ledger(l.budget, l.subscriptions, l.expenses + [Expense(form.name, form.price, now, MonthlyCharge)]);
      (Change(next, Some(Save(next))), EmptyForm)
  }

  /** Adding an expense of non-negative price never takes the page from over
      budget back under it. */
  lemma AddKeepsOverBudget(l: Ledger, entry: EntryKind, form: ExpenseForm, now: Instant, signedIn: bool)
    requires IsOverBudget(l) && form.price >= 0
    ensures IsOverBudget(AddExpense(l, entry, form, now, signedIn).0.ledger)
  {
    if signedIn {
      match entry
      case SubscriptionEntry =>
        TotalAppend(l.expenses, Expense(form.platform, form.price, now, SubscriptionCharge));
      case MonthlyEntry =>
        TotalAppend(l.expenses, Expense(form.name, form.price, now, MonthlyCharge));
    }
  }

  /** `handleCancelSubscription`: drops every subscription of the platform and
      keeps the rest in order; expenses already charged stay. */
  function Cancel(l: Ledger, platform: Option<string>, signedIn: bool): (r: Change)
    ensures !signedIn ==> r == Change(l, None)
    ensures signedIn ==> r.saved == Some(Save(r.ledger))
    ensures r.ledger.budget == l.budget && r.ledger.expenses == l.expenses
    ensures signedIn ==> forall i :: 0 <= i < |r.ledger.subscriptions| ==> r.ledger.subscriptions[i].platform != platform
    ensures signedIn ==> forall s :: s in l.subscriptions && s.platform != platform ==> s in r.ledger.subscriptions
    ensures signedIn ==> forall s :: multiset(r.ledger.subscriptions)[s]
                                     == if s.platform != platform then multiset(l.subscriptions)[s] else 0
    ensures IsSubsequence(r.ledger.subscriptions, l.subscriptions)
  {
    if !signedIn then
      SubsequenceRefl(l.subscriptions);
      Change(l, None)
    else
      var kept := Filter(l.subscriptions, (s: Subscription) => s.platform != platform);
      FilterIsSubsequence(l.subscriptions, (s: Subscription) => s.platform != platform);
      var next := Ledger(l.budget, kept, l.expenses);
      Change(next, Some(Save(next)))
  }

  /** `handleBudgetBlur`: the state is saved as it stands, so reloading the
      month document gives it back; without a user nothing is saved. */
  function BudgetBlur(l: Ledger, signedIn: bool): (r: Change)
    ensures r.ledger == l
    ensures r.saved.Some? <==> signedIn
    ensures signedIn ==> Load(r.saved, true, Initial) == l
  {
    if signedIn then Change(l, Some(Save(l))) else Change(l, None)
  }

  // ---------------------------------------------------------------------
  // Billing rollover

  /** The charge a due subscription adds. */
  function Charge(s: Subscription, now: Instant): Expense {
    Expense(s.platform, s.price, now, SubscriptionCharge)
  }

  /** The subscription moved to the following month. */
  function Advance(s: Subscription): Subscription {
    s.(nextBilling := s.nextBilling.Next())
  }

  predicate DueIn(month: YearMonth, s: Subscription) {
    s.nextBilling == month
  }

  /** The subscriptions billed in `month`, in order. */
  function Due(subs: seq<Subscription>, month: YearMonth): seq<Subscription> {
    Filter(subs, s => DueIn(month, s))
  }

  /** The rollover effect as written: each subscription billed this month adds
      a charge after the existing expenses, and when there is one the state
      is saved, but with the subscriptions as they were before; then every
      subscription, due or not, moves on a month in the page state. */
  function RolloverAsWritten(l: Ledger, now: Instant, signedIn: bool): (r: Change)
    ensures !signedIn || |l.subscriptions| == 0 ==> r == Change(l, None)
    ensures signedIn && |l.subscriptions| > 0 ==>
              && r.ledger.expenses == l.expenses + Map(Due(l.subscriptions, now.MonthOf()), s => Charge(s, now))
              && r.ledger.subscriptions == Map(l.subscriptions, Advance)
              && (r.saved.Some? <==> |Due(l.subscriptions, now.MonthOf())| > 0)
              && (r.saved.Some? ==> r.saved.value.subscriptions == Some(l.subscriptions))
  {
    if !signedIn || |l.subscriptions| == 0 then Change(l, None)
    else
      var due := Due(l.subscriptions, now.MonthOf());
      var expenses := if |due| > 0 then l.expenses + Map(due, s => Charge(s, now)) else l.expenses;
      var saved := if |due| > 0 then Some(Save(Ledger(l.budget, l.subscriptions, expenses))) else None;
      Change(Ledger(l.budget, Map(l.subscriptions, Advance), expenses), saved)
  }

  /** The page as written: both effects run after the first render, when the
      subscription list is still the empty initial one, so the rollover does
      nothing and the loaded document is shown unbilled. */
  function OpenPageAsWritten(doc: Option<StoredDoc>, now: Instant, signedIn: bool): (r: Change)
    ensures r == Change(Load(doc, signedIn, Initial), None)
  {
    var atMount := RolloverAsWritten(Initial, now, signedIn);
    Change(Load(doc, signedIn, atMount.ledger), atMount.saved)
  }

  /** A subscription billed in March 2024. */
  function MarchSubscription(): Subscription {
    Subscription(Some("Netflix"), 10, None, "", YearMonth(2024, 3))
  }

  function MarchNow(): Instant {
    Instant(2024, 3, 10, 12, 0, 0, 0)
  }

  /** A stored March document with a subscription due in March opens with no
      charge for it. */
  lemma OpenPageNeverBills()
    ensures var doc := Some(StoredDoc(Some(100), Some([MarchSubscription()]), Some([])));
            OpenPageAsWritten(doc, MarchNow(), true).ledger.expenses == []
  {
  }

  /** Reloading the document the written rollover saved bills the same
      subscription again in the same month. */
  lemma RolloverAsWrittenBillsTwice()
    ensures var l := Ledger(100, [MarchSubscription()], []);
            var first := RolloverAsWritten(l, MarchNow(), true);
            var again := RolloverAsWritten(Load(first.saved, true, Initial), MarchNow(), true);
            && |first.ledger.expenses| == 1
            && |again.ledger.expenses| == 2
  {
    var l := Ledger(100, [MarchSubscription()], []);
    var due := Due(l.subscriptions, MarchNow().MonthOf());
    assert due == [MarchSubscription()];
    var first := RolloverAsWritten(l, MarchNow(), true);
    LoadSaved(Ledger(100, [MarchSubscription()], first.ledger.expenses), Initial);
  }

  /** A subscription billed in April is moved to May by a March rollover. */
  lemma RolloverAsWrittenDrifts()
    ensures var april := MarchSubscription().(nextBilling := YearMonth(2024, 4));
            RolloverAsWritten(Ledger(0, [april], []), MarchNow(), true).ledger.subscriptions[0].nextBilling
              == YearMonth(2024, 5)
  {
  }

  /** Moves a subscription on a month when it is due in `month`. */
  function AdvanceIfDue(month: YearMonth, s: Subscription): Subscription {
    if DueIn(month, s) then Advance(s) else s
  }

  /** The rollover as evidently intended: each subscription billed this month
      adds a charge and moves on a month, the others stay as they are, and the
      state saved is the state shown. */
  function Rollover(l: Ledger, now: Instant, signedIn: bool): (r: Change)
    ensures !signedIn || |Due(l.subscriptions, now.MonthOf())| == 0 ==> r == Change(l, None)
    ensures signedIn && |Due(l.subscriptions, now.MonthOf())| > 0 ==>
              && r.ledger.expenses == l.expenses + Map(Due(l.subscriptions, now.MonthOf()), s => Charge(s, now))
              && r.saved == Some(Save(r.ledger))
    ensures r.ledger.budget == l.budget && |r.ledger.subscriptions| == |l.subscriptions|
    ensures forall i :: 0 <= i < |l.subscriptions| ==>
              r.ledger.subscriptions[i] == (if signedIn then AdvanceIfDue(now.MonthOf(), l.subscriptions[i])
                                            else l.subscriptions[i])
  {
    var month := now.MonthOf();
    var due := Due(l.subscriptions, month);
    if !signedIn || |due| == 0 then
      assert forall i :: 0 <= i < |l.subscriptions| ==> !DueIn(month, l.subscriptions[i]) || !signedIn by {
        forall i | 0 <= i < |l.subscriptions| && signedIn
          ensures !DueIn(month, l.subscriptions[i])
        {
          assert l.subscriptions[i] in l.subscriptions;
        }
      }
      Change(l, None)
    else
      var next := Ledger(l.budget, Map(l.subscriptions, s => AdvanceIfDue(month, s)),
                         l.expenses + Map(due, s => Charge(s, now)));
      Change(next, Some(Save(next)))
  }

  /** Nothing the corrected rollover leaves behind is due again this month:
      a second rollover, or one after reloading the saved document, bills
      nothing more. */
  lemma RolloverIdempotent(l: Ledger, now: Instant, signedIn: bool)
    requires now.Valid()
    ensures var first := Rollover(l, now, signedIn);
            Rollover(first.ledger, now, signedIn) == Change(first.ledger, None)
  {
    var month := now.MonthOf();
    var first := Rollover(l, now, signedIn);
    var subs := first.ledger.subscriptions;
    if signedIn {
      forall i | 0 <= i < |subs|
        ensures !DueIn(month, subs[i])
      {
        var s := l.subscriptions[i];
        if DueIn(month, s) {
          assert subs[i].nextBilling == month.Next();
        }
      }
    }
  }

  /** The page as evidently intended: load the month document, then apply the
      rollover to what was loaded. */
  function OpenPage(doc: Option<StoredDoc>, now: Instant, signedIn: bool): Change {
    Rollover(Load(doc, signedIn, Initial), now, signedIn)
  }

  /** Opening the page shows the stored expenses followed by one charge for
      each stored subscription billed this month, in subscription order. */
  lemma OpenPageCharges(doc: Option<StoredDoc>, now: Instant)
    requires doc.Some? && doc.value.subscriptions.Some?
    ensures OpenPage(doc, now, true).ledger.expenses
              == (if doc.value.monthlyExpenses.Some? then doc.value.monthlyExpenses.value else [])
                 + Map(Due(doc.value.subscriptions.value, now.MonthOf()), s => Charge(s, now))
  {
    var loaded := Load(doc, true, Initial);
    if |Due(loaded.subscriptions, now.MonthOf())| == 0 {
      assert Map(Due(loaded.subscriptions, now.MonthOf()), s => Charge(s, now)) == [];
      assert loaded.expenses + [] == loaded.expenses;
    }
  }

  /** The corrected page bills the March subscription of the stored document
      once, and opening the page again from what it saved bills nothing more. */
  lemma OpenPageBillsOnce()
    ensures var doc := Some(StoredDoc(Some(100), Some([MarchSubscription()]), Some([])));
            var first := OpenPage(doc, MarchNow(), true);
            && |first.ledger.expenses| == 1
            && first.saved.Some?
            && OpenPage(first.saved, MarchNow(), true).ledger.expenses == first.ledger.expenses
  {
    var doc := Some(StoredDoc(Some(100), Some([MarchSubscription()]), Some([])));
    var loaded := Load(doc, true, Initial);
    assert Due(loaded.subscriptions, MarchNow().MonthOf()) == [MarchSubscription()];
    var first := OpenPage(doc, MarchNow(), true);
    LoadSaved(first.ledger, Initial);
    RolloverIdempotent(loaded, MarchNow(), true);
  }
}

=== FILE: helpers.dfy ===
/** The display helpers: minute counts rendered as "Hh Mm" and "Dd Hh Mm",
    and the colour band a TMDB vote average is shown in. */
module Helpers {
  import opened Seqs
  import opened Text

  datatype HoursMinutes = HoursMinutes(hours: nat, minutes: nat)

  datatype DaysHoursMinutes = DaysHoursMinutes(days: nat, hours: nat, minutes: nat)

  /** `Math.floor(m / 60)` and `m % 60`: whole hours and the minutes left over. */
  function SplitHours(total: nat): (r: HoursMinutes)
    ensures r.hours * 60 + r.minutes == total && r.minutes < 60
  {
    HoursMinutes(total / 60, total % 60)
  }

  /** Whole days, then whole hours of the remaining day, then minutes. */
  function SplitDays(total: nat): (r: DaysHoursMinutes)
    ensures r.days * 1440 + r.hours * 60 + r.minutes == total
    ensures r.hours < 24 && r.minutes < 60
  {
    DaysHoursMinutes(total / 1440, (total % 1440) / 60, total % 1440 % 60)
  }

  /** Reads back text of the shape "<h>h <m>m". */
  function ReadHours(s: string): Option<HoursMinutes> {
    match ReadSegment(s, 'h')
    case None => None
    case Some((h, rest)) =>
      if |rest| > 0 && rest[0] == ' ' then
        match ReadSegment(rest[1..], 'm')
        case None => None
        case Some((m, tail)) => if tail == "" then Some(HoursMinutes(h, m)) else None
      else None
  }

  /** Reads back text of the shape "<d>d <h>h <m>m". */
  function ReadDaysHours(s: string): Option<DaysHoursMinutes> {
    match ReadSegment(s, 'd')
    case None => None
    case Some((d, rest)) =>
      if |rest| > 0 && rest[0] == ' ' then
        match ReadHours(rest[1..])
        case None => None
        case Some(hm) => Some(DaysHoursMinutes(d, hm.hours, hm.minutes))
      else None
  }

  lemma ReadHoursOf(h: nat, m: nat)
    ensures ReadHours(NatToString(h) + "h " + NatToString(m) + "m") == Some(HoursMinutes(h, m))
  {
    var ht, mt := NatToString(h), NatToString(m);
    var tail := [' '] + mt + ['m'];
    var s := ht + "h " + mt + "m";
    assert s == ht + ['h'] + tail;
    SegmentRoundTrip(h, 'h', tail);
    assert ReadSegment(s, 'h') == Some((h, tail));
    assert tail[1..] == mt + ['m'] + [];
    SegmentRoundTrip(m, 'm', []);
    assert ReadSegment(tail[1..], 'm') == Some((m, []));
  }

  /** `minutesToHours`: the text names whole hours and leftover minutes that
      add back up to the input, with fewer than 60 minutes. */
  function MinutesToHours(minutes: nat): (r: string)
    ensures ReadHours(r).Some?
    ensures ReadHours(r).value.hours * 60 + ReadHours(r).value.minutes == minutes
    ensures ReadHours(r).value.minutes < 60
  {
    var hm := SplitHours(minutes);
    ReadHoursOf(hm.hours, hm.minutes);
    NatToString(hm.hours) + "h " + NatToString(hm.minutes) + "m"
  }

  /** `minutesToDaysHours`: the text names days, hours and minutes that add
      back up to the input, with fewer than 24 hours and 60 minutes. */
  function MinutesToDaysHours(minutes: nat): (r: string)
    ensures ReadDaysHours(r).Some?
    ensures ReadDaysHours(r).value.days * 1440 + ReadDaysHours(r).value.hours * 60
            + ReadDaysHours(r).value.minutes == minutes
    ensures ReadDaysHours(r).value.hours < 24 && ReadDaysHours(r).value.minutes < 60
  {
    var dhm := SplitDays(minutes);
    var hoursText := NatToString(dhm.hours) + "h " + NatToString(dhm.minutes) + "m";
    var r := NatToString(dhm.days) + "d " + hoursText;
    assert r == NatToString(dhm.days) + ['d'] + (" " + hoursText);
    SegmentRoundTrip(dhm.days, 'd', " " + hoursText);
    assert (" " + hoursText)[1..] == hoursText;
    ReadHoursOf(dhm.hours, dhm.minutes);
    r
  }

  /** The two renderings agree: days times 24 plus hours is the hour count of
      `minutesToHours`, and the minutes are the same. */
  lemma {:induction false} RenderingsAgree(minutes: nat)
    ensures var d := ReadDaysHours(MinutesToDaysHours(minutes)).value;
            var h := ReadHours(MinutesToHours(minutes)).value;
            d.days * 24 + d.hours == h.hours && d.minutes == h.minutes
  {
    var d := ReadDaysHours(MinutesToDaysHours(minutes)).value;
    var h := ReadHours(MinutesToHours(minutes)).value;
    var hours := d.days * 24 + d.hours;
    assert hours * 60 + d.minutes == minutes;
    assert h.hours * 60 + h.minutes == minutes;
  }

  /** `resolveRatingColor`: green from 7 up, orange from 5 below 7, red below 5. */
  function ResolveRatingColor(rating: real): (c: string)
    ensures c == "green.400" <==> rating >= 7.0
    ensures c == "orange.400" <==> 5.0 <= rating < 7.0
    ensures c == "red.400" <==> rating < 5.0
  {
    if rating >= 7.0 then "green.400"
    else if rating >= 5.0 then "orange.400"
    else "red.400"
  }

  /** Position of a rating colour on the scale red < orange < green. */
  function RatingColorRank(c: string): nat {
    if c == "green.400" then 2 else if c == "orange.400" then 1 else 0
  }

  /** A higher rating never gets a lower colour. */
  lemma RatingColorMonotone(a: real, b: real)
    requires a <= b
    ensures RatingColorRank(ResolveRatingColor(a)) <= RatingColorRank(ResolveRatingColor(b))
  {
  }
}

=== FILE: isodate.dfy ===
/** Calendar dates as JavaScript's `Date` renders them with `toISOString()`
    (always UTC, four-digit years), the "YYYY-MM" and "YYYY-MM-DD" keys the
    application cuts out of that rendering, reading a "YYYY-MM-DD" string back
    into a date, and the day of the week. */
module IsoDate {
  import opened Seqs
  import opened Text

  predicate IsLeapYear(y: int) {
    y % 4 == 0 && (y % 100 != 0 || y % 400 == 0)
  }

  function DaysInMonth(y: int, m: int): int
    requires 1 <= m <= 12
  {
    if m == 2 then (if IsLeapYear(y) then 29 else 28)
    else if m == 4 || m == 6 || m == 9 || m == 11 then 30
    else 31
  }

  /** A calendar month. */
  datatype YearMonth = YearMonth(year: int, month: int) {
    predicate Valid() {
      1 <= month <= 12
    }

    /** The following calendar month (date-fns `addMonths(d, 1)` on the month). */
    function Next(): (r: YearMonth)
      ensures Valid() ==> r.Valid() && r.year * 12 + r.month == year * 12 + month + 1
    {
      if month >= 12 then YearMonth(year + 1, 1) else YearMonth(year, month + 1)
    }
  }

  /** A moment in UTC, to the millisecond. */
  datatype Instant = Instant(year: int, month: int, day: int,
                             hour: int, minute: int, second: int, millis: int) {
    predicate Valid() {
      && 0 <= year <= 9999
      && 1 <= month <= 12
      && 1 <= day <= DaysInMonth(year, month)
      && 0 <= hour < 24 && 0 <= minute < 60 && 0 <= second < 60 && 0 <= millis < 1000
    }

    function MonthOf(): YearMonth {
      YearMonth(year, month)
    }

    /** Midnight UTC of the same day. */
    function Midnight(): Instant {
      Instant(year, month, day, 0, 0, 0, 0)
    }
  }

  function DateText(t: Instant): string
    requires t.Valid()
  {
    Pad(t.year, 4) + "-" + Pad(t.month, 2) + "-" + Pad(t.day, 2)
  }

  function TimeText(t: Instant): string
    requires t.Valid()
  {
    Pad(t.hour, 2) + ":" + Pad(t.minute, 2) + ":" + Pad(t.second, 2) + "." + Pad(t.millis, 3) + "Z"
  }

  lemma DateTextShape(t: Instant)
    requires t.Valid()
    ensures |Pad(t.year, 4)| == 4 && |Pad(t.month, 2)| == 2 && |Pad(t.day, 2)| == 2
    ensures |DateText(t)| == 10
    ensures 'T' !in DateText(t)
  {
    PadFacts(t.year, 4);
    PadFacts(t.month, 2);
    PadFacts(t.day, 2);
    var s := DateText(t);
    forall i | 0 <= i < |s|
      ensures s[i] != 'T'
    {
      if i < 4 {
        assert s[i] == Pad(t.year, 4)[i];
      } else if 4 < i < 7 {
        assert s[i] == Pad(t.month, 2)[i - 5];
      } else if 7 < i {
        assert s[i] == Pad(t.day, 2)[i - 8];
      }
    }
  }

  /** `date.toISOString()`: "YYYY-MM-DDTHH:mm:ss.sssZ". */
  function ToIso(t: Instant): (r: string)
    requires t.Valid()
    ensures |r| == 24 && r[10] == 'T'
  {
    DateTextShape(t);
    PadFacts(t.hour, 2);
    PadFacts(t.minute, 2);
    PadFacts(t.second, 2);
    PadFacts(t.millis, 3);
    DateText(t) + "T" + TimeText(t)
  }

  /** Reads a "YYYY-MM" month key. */
  function ParseMonthKey(s: string): Option<YearMonth> {
    if |s| == 7 && AllDigits(s[..4]) && s[4] == '-' && AllDigits(s[5..]) then
      var m := Value(s[5..]);
      if 1 <= m <= 12 then Some(YearMonth(Value(s[..4]), m)) else None
    else None
  }

  /** Reads a "YYYY-MM-DD" date as midnight UTC, the way `new Date("YYYY-MM-DD")`
      does; anything else, or a day the month does not have, is no date. */
  function ParseDay(s: string): (r: Option<Instant>)
    ensures r.Some? ==> r.value.Valid() && r.value == r.value.Midnight()
  {
    if |s| == 10 && AllDigits(s[..4]) && s[4] == '-' && AllDigits(s[5..7])
       && s[7] == '-' && AllDigits(s[8..])
    then
      var y, m, d := Value(s[..4]), Value(s[5..7]), Value(s[8..]);
      ValueBound(s[..4]);
      if 1 <= m <= 12 && 1 <= d <= DaysInMonth(y, m) then Some(Instant(y, m, d, 0, 0, 0, 0))
      else None
    else None
  }

  /** A four-digit year, a dash and a two-digit month read back as that month. */
  lemma MonthTextParses(y: nat, m: nat)
    requires y <= 9999 && 1 <= m <= 12
    ensures ParseMonthKey(Pad(y, 4) + "-" + Pad(m, 2)) == Some(YearMonth(y, m))
  {
    PadFacts(y, 4);
    PadFacts(m, 2);
    var s := Pad(y, 4) + "-" + Pad(m, 2);
    assert s[..4] == Pad(y, 4);
    assert s[5..] == Pad(m, 2);
  }

  /** The first seven characters of the rendering are the year, a dash and the month. */
  lemma IsoMonthPrefix(t: Instant)
    requires t.Valid()
    ensures ToIso(t)[..7] == Pad(t.year, 4) + "-" + Pad(t.month, 2)
  {
    DateTextShape(t);
    var head := Pad(t.year, 4) + "-" + Pad(t.month, 2);
    assert ToIso(t) == head + ("-" + Pad(t.day, 2) + "T" + TimeText(t));
  }

  /** `date.toISOString().slice(0, 7)`: the "YYYY-MM" month key, which reads
      back as the instant's month. */
  function MonthKey(t: Instant): (r: string)
    requires t.Valid()
    ensures r == Pad(t.year, 4) + "-" + Pad(t.month, 2)
    ensures ParseMonthKey(r) == Some(t.MonthOf())
  {
    IsoMonthPrefix(t);
    MonthTextParses(t.year, t.month);
    ToIso(t)[..7]
  }

  /** Two instants share a month key exactly when they fall in the same
      calendar month. */
  lemma MonthKeyInjective(a: Instant, b: Instant)
    requires a.Valid() && b.Valid()
    ensures MonthKey(a) == MonthKey(b) <==> a.MonthOf() == b.MonthOf()
  {
  }

  /** The "YYYY-MM-DD" text of a valid instant reads back as its midnight. */
  lemma DateTextParses(t: Instant)
    requires t.Valid()
    ensures ParseDay(DateText(t)) == Some(t.Midnight())
  {
    DateTextShape(t);
    PadFacts(t.year, 4);
    PadFacts(t.month, 2);
    PadFacts(t.day, 2);
    var r := DateText(t);
    assert r[..4] == Pad(t.year, 4);
    assert r[5..7] == Pad(t.month, 2);
    assert r[8..] == Pad(t.day, 2);
  }

  /** The part of the rendering before the "T" is the date text. */
  lemma IsoDatePart(t: Instant)
    requires t.Valid()
    ensures Split(ToIso(t), 'T')[0] == DateText(t)
  {
    DateTextShape(t);
    SplitFirstPiece(DateText(t), 'T', TimeText(t));
  }

  /** `date.toISOString().split("T")[0]`: the "YYYY-MM-DD" day key, which reads
      back as midnight of the instant's day. */
  function DayKey(t: Instant): (r: string)
    requires t.Valid()
    ensures r == DateText(t) && |r| == 10
    ensures ParseDay(r) == Some(t.Midnight())
  {
    DateTextShape(t);
    IsoDatePart(t);
    DateTextParses(t);
    Split(ToIso(t), 'T')[0]
  }

  /** Days from 1970-01-01 to the given civil date (proleptic Gregorian). */
  function DaysFromCivil(y: int, m: int, d: int): int
    requires 1 <= m <= 12
  {
    var y' := if m <= 2 then y - 1 else y;
    var era := y' / 400;
    var yoe := y' - era * 400;
    var mp := if m > 2 then m - 3 else m + 9;
    var doy := (153 * mp + 2) / 5 + d - 1;
    var doe := yoe * 365 + yoe / 4 - yoe / 100 + doy;
    era * 146097 + doe - 719468
  }

  /** `new Date(...).getDay()` in UTC: 0 is Sunday, 6 is Saturday. */
  function Weekday(t: Instant): (w: int)
    requires t.Valid()
    ensures 0 <= w < 7
  {
    (DaysFromCivil(t.year, t.month, t.day) + 4) % 7
  }

  /** 1 January 1970 was a Thursday, and 17 March 2024 a Sunday. */
  lemma WeekdayExamples()
    ensures Weekday(Instant(1970, 1, 1, 0, 0, 0, 0)) == 4
    ensures Weekday(Instant(2024, 3, 17, 0, 0, 0, 0)) == 0
  {
    assert (153 * 10 + 2) / 5 == 306;
    assert 1969 / 400 == 4 && 369 / 4 == 92 && 369 / 100 == 3;
    assert DaysFromCivil(1970, 1, 1) == 0;
    assert (153 * 0 + 2) / 5 == 0;
    assert 2024 / 400 == 5 && 24 / 4 == 6 && 24 / 100 == 0;
    assert DaysFromCivil(2024, 3, 17) == 19799;
  }
}

=== FILE: legacy.dfy ===
/** The older recommendation service's `/recommend` endpoint from the
    similarity scores on: locate the watched titles in the catalogue, drop
    every catalogue title whose id was watched, and return the ten most
    similar. Scores are inputs; how they are computed is not part of this
    model. */
module LegacyRecommender {
  import opened Seqs
  import opened Ranking

  /** A catalogue title as the service receives it. */
  datatype Title = Title(
    id: int,
    title: string,
    genres: seq<string>,
    description: string,
    posterPath: string,
    voteAverage: real,
    mediaType: string)

  /** A recommendation: the title's fields plus its similarity. */
  datatype Rec = Rec(title: Title, similarity: real)

  /** The endpoint fails on an empty catalogue (nothing to vectorise), and
      otherwise answers with a list. */
  datatype Reply = ServerError | Recs(recs: seq<Rec>)

  function SimilarityOf(r: Rec): real {
    r.similarity
  }

  /** The index of the first catalogue title with id `id`, if any. */
  function FirstIndex(all: seq<Title>, id: int): (r: Option<nat>)
    ensures r.Some? ==> r.value < |all| && all[r.value].id == id
                        && forall k :: 0 <= k < r.value ==> all[k].id != id
    ensures r.None? <==> forall k :: 0 <= k < |all| ==> all[k].id != id
  {
    if |all| == 0 then None
    else if all[0].id == id then Some(0)
    else
      var rest := FirstIndex(all[1..], id);
      assert forall k :: 1 <= k < |all| ==> all[k] == all[1..][k - 1];
      if rest.Some? then Some(rest.value + 1) else None
  }

  /** The catalogue positions of the watched titles that occur in it, one per
      such watched title, in watched order. */
  function WatchedIndices(watched: seq<Title>, all: seq<Title>): (r: seq<nat>)
    ensures forall i :: 0 <= i < |r| ==> r[i] < |all|
    decreases |watched|
  {
    if |watched| == 0 then []
    else
      var here := FirstIndex(all, watched[0].id);
      if here.Some? then [here.value] + WatchedIndices(watched[1..], all) else WatchedIndices(watched[1..], all)
  }

  /** Each position found is the first catalogue position of some watched
      title's id. */
  lemma {:induction false} WatchedIndicesSource(watched: seq<Title>, all: seq<Title>)
    ensures forall i :: 0 <= i < |WatchedIndices(watched, all)| ==>
              exists w :: 0 <= w < |watched| && FirstIndex(all, watched[w].id) == Some(WatchedIndices(watched, all)[i])
    decreases |watched|
  {
    if |watched| > 0 {
      var r := WatchedIndices(watched, all);
      var here := FirstIndex(all, watched[0].id);
      var rest := WatchedIndices(watched[1..], all);
      WatchedIndicesSource(watched[1..], all);
      forall i | 0 <= i < |r|
        ensures exists w :: 0 <= w < |watched| && FirstIndex(all, watched[w].id) == Some(r[i])
      {
        if here.Some? && i == 0 {
          assert FirstIndex(all, watched[0].id) == Some(r[0]);
        } else {
          var i' := if here.Some? then i - 1 else i;
          assert 0 <= i' < |rest| && r[i] == rest[i'];
          var w :| 0 <= w < |watched[1..]| && FirstIndex(all, watched[1..][w].id) == Some(rest[i']);
          assert watched[w + 1] == watched[1..][w];
        }
      }
    } else {
      assert WatchedIndices(watched, all) == [];
    }
  }

  /** No position is found exactly when no watched title's id occurs in the
      catalogue. */
  lemma {:induction false} WatchedIndicesEmpty(watched: seq<Title>, all: seq<Title>)
    ensures |WatchedIndices(watched, all)| == 0
            <==> forall w, k :: 0 <= w < |watched| && 0 <= k < |all| ==> all[k].id != watched[w].id
    decreases |watched|
  {
    if |watched| > 0 {
      WatchedIndicesEmpty(watched[1..], all);
      assert forall w :: 1 <= w < |watched| ==> watched[w] == watched[1..][w - 1];
    }
  }

  /** The ids of the watched titles. */
  function WatchedIds(watched: seq<Title>): set<int> {
    set w | w in watched :: w.id
  }

  /** Every catalogue title paired with its score, in catalogue order. */
  function Scored(all: seq<Title>, scores: seq<real>): (r: seq<Rec>)
    requires |scores| == |all|
    ensures |r| == |all|
    ensures forall i :: 0 <= i < |r| ==> r[i] == Rec(all[i], scores[i])
  {
    seq(|all|, i requires 0 <= i < |all| => Rec(all[i], scores[i]))
  }

  /** The candidates: the scored titles whose id was not watched, in
      catalogue order. */
  function Candidates(watched: seq<Title>, all: seq<Title>, scores: seq<real>): (r: seq<Rec>)
    requires |scores| == |all|
    ensures forall c :: c in r ==> c.title.id !in WatchedIds(watched)
                                    && exists k :: 0 <= k < |all| && c == Rec(all[k], scores[k])
    ensures forall k :: 0 <= k < |all| && all[k].id !in WatchedIds(watched) ==> Rec(all[k], scores[k]) in r
    ensures forall c :: multiset(r)[c] == if c.title.id !in WatchedIds(watched) then multiset(Scored(all, scores))[c] else 0
  {
    var r := Filter(Scored(all, scores), (r: Rec) => r.title.id !in WatchedIds(watched));
    forall k | 0 <= k < |all| && all[k].id !in WatchedIds(watched)
      ensures Rec(all[k], scores[k]) in r
    {
      assert Scored(all, scores)[k] == Rec(all[k], scores[k]);
    }
    r
  }

  /** The `n` most similar of `cands`, most similar first, ties in `cands`
      order. */
  function Best(cands: seq<Rec>, n: nat): (r: seq<Rec>)
    ensures |r| == if |cands| < n then |cands| else n
    ensures SortedBy(r, SimilarityOf)
    ensures forall i :: 0 <= i < |r| ==> r[i] in cands
    ensures multiset(r) <= multiset(cands)
  {
    var sorted := Sort(cands, SimilarityOf);
    var top := Take(sorted, n);
    TakeMultiset(sorted, n);
    forall i | 0 <= i < |top|
      ensures top[i] in cands
    {
      assert top[i] == sorted[i] && sorted[i] in multiset(sorted);
    }
    top
  }

  /** `recommend_movies`: nothing when no watched title is in the catalogue,
      otherwise the ten most similar candidates, most similar first. */
  function Recommend(watched: seq<Title>, all: seq<Title>, scores: seq<real>): (r: Reply)
    requires |scores| == |all|
    ensures r.ServerError? <==> |all| == 0
    ensures r.Recs? && |WatchedIndices(watched, all)| == 0 ==> r.recs == []
    ensures r.Recs? ==> |r.recs| <= 10 && SortedBy(r.recs, SimilarityOf)
    ensures r.Recs? ==> forall i :: 0 <= i < |r.recs| ==>
              r.recs[i].title.id !in WatchedIds(watched)
              && exists k :: 0 <= k < |all| && r.recs[i] == Rec(all[k], scores[k])
    ensures r.Recs? ==> multiset(r.recs) <= multiset(Candidates(watched, all, scores))
  {
    if |all| == 0 then ServerError
    else if |WatchedIndices(watched, all)| == 0 then Recs([])
    else Recs(Best(Candidates(watched, all, scores), 10))
  }

  /** Nothing is collapsed or repeated: with a non-empty catalogue containing
      a watched title, the answer holds ten results, or every candidate when
      there are fewer, however many catalogue entries share an id, and no
      result occurs more often than among the candidates. */
  lemma RecommendCount(watched: seq<Title>, all: seq<Title>, scores: seq<real>)
    requires |scores| == |all| && |all| > 0 && |WatchedIndices(watched, all)| > 0
    ensures var n := |Candidates(watched, all, scores)|;
            |Recommend(watched, all, scores).recs| == if n < 10 then n else 10
    ensures multiset(Recommend(watched, all, scores).recs) <= multiset(Candidates(watched, all, scores))
  {
  }

  /** A candidate `Best` leaves out scores no higher than anything it keeps. */
  lemma BestIsTop(cands: seq<Rec>, n: nat, c: Rec)
    requires c in cands
    ensures var r := Best(cands, n);
            c in r || forall i :: 0 <= i < |r| ==> r[i].similarity >= c.similarity
  {
    var sorted := Sort(cands, SimilarityOf);
    var r := Best(cands, n);
    assert r == Take(sorted, n);
    assert c in multiset(sorted);
    var j :| 0 <= j < |sorted| && sorted[j] == c;
    if j < n {
      assert r[j] == c;
    } else {
      forall i | 0 <= i < |r|
        ensures r[i].similarity >= c.similarity
      {
        assert r[i] == sorted[i];
      }
    }
  }

  /** Only the ten best are returned: a candidate left out scores no higher
      than any returned result. */
  lemma RecommendTopTen(watched: seq<Title>, all: seq<Title>, scores: seq<real>, c: Rec)
    requires |scores| == |all| && |all| > 0 && |WatchedIndices(watched, all)| > 0
    requires c in Candidates(watched, all, scores)
    ensures var r := Recommend(watched, all, scores).recs;
            c in r || forall i :: 0 <= i < |r| ==> r[i].similarity >= c.similarity
  {
    BestIsTop(Candidates(watched, all, scores), 10, c);
  }
}

=== FILE: ranking.dfy ===
/** Ordering by a numeric key, largest first, as a stable sort does it:
    JavaScript's `Array.prototype.sort` and Python's `sorted(..., reverse=True)`
    both keep equal-key elements in their input order. */
module Ranking {
  import opened Seqs

  /** Keys never increase from left to right. */
  ghost predicate SortedBy<T>(s: seq<T>, key: T -> real) {
    forall i, j :: 0 <= i < j < |s| ==> key(s[i]) >= key(s[j])
  }

  /** The elements whose key is `k`, in order. */
  function WithKey<T>(s: seq<T>, key: T -> real, k: real): seq<T> {
    if |s| == 0 then []
    else WithKey(s[..|s| - 1], key, k) + (if key(s[|s| - 1]) == k then [s[|s| - 1]] else [])
  }

  /** Places `x` after every element whose key is at least its own. */
  function Insert<T>(x: T, t: seq<T>, key: T -> real): (r: seq<T>)
    ensures |r| == |t| + 1
  {
    if |t| == 0 || key(t[|t| - 1]) >= key(x) then t + [x]
    else Insert(x, t[..|t| - 1], key) + [t[|t| - 1]]
  }

  /** Inserting adds `x` and keeps every other element. */
  lemma {:induction false} InsertMultiset<T>(x: T, t: seq<T>, key: T -> real)
    ensures multiset(Insert(x, t, key)) == multiset(t) + multiset{x}
    decreases |t|
  {
    if !(|t| == 0 || key(t[|t| - 1]) >= key(x)) {
      InsertMultiset(x, t[..|t| - 1], key);
      assert t == t[..|t| - 1] + [t[|t| - 1]];
    }
  }

  /** Inserting into a sorted sequence keeps it sorted. */
  lemma {:induction false} InsertSorted<T>(x: T, t: seq<T>, key: T -> real)
    requires SortedBy(t, key)
    ensures SortedBy(Insert(x, t, key), key)
    decreases |t|
  {
    if !(|t| == 0 || key(t[|t| - 1]) >= key(x)) {
      var last := t[|t| - 1];
      var init := t[..|t| - 1];
      var rest := Insert(x, init, key);
      InsertSorted(x, init, key);
      InsertMultiset(x, init, key);
      forall i | 0 <= i < |rest|
        ensures key(rest[i]) >= key(last)
      {
        assert rest[i] in multiset(rest);
        if rest[i] != x {
          assert rest[i] in multiset(init);
          var j :| 0 <= j < |init| && init[j] == rest[i];
          assert init[j] == t[j];
        }
      }
      assert Insert(x, t, key) == rest + [last];
    }
  }

  /** Stable sort by `key`, largest key first. */
  function Sort<T>(s: seq<T>, key: T -> real): (r: seq<T>)
    ensures |r| == |s|
    ensures multiset(r) == multiset(s)
    ensures SortedBy(r, key)
  {
    if |s| == 0 then []
    else
      var init := Sort(s[..|s| - 1], key);
      assert s == s[..|s| - 1] + [s[|s| - 1]];
      InsertMultiset(s[|s| - 1], init, key);
      InsertSorted(s[|s| - 1], init, key);
      Insert(s[|s| - 1], init, key)
  }

  lemma {:induction false} InsertWithKey<T>(x: T, t: seq<T>, key: T -> real, k: real)
    ensures WithKey(Insert(x, t, key), key, k)
         == WithKey(t, key, k) + (if key(x) == k then [x] else [])
    decreases |t|
  {
    var r := Insert(x, t, key);
    if |t| == 0 || key(t[|t| - 1]) >= key(x) {
      assert r[..|r| - 1] == t;
    } else {
      var rest := Insert(x, t[..|t| - 1], key);
      assert r[..|r| - 1] == rest;
      InsertWithKey(x, t[..|t| - 1], key, k);
    }
  }

  /** Stability: for every key value, the elements carrying it come out in the
      order they went in. Together with `SortedBy` and the multiset equality
      this determines the result completely. */
  lemma {:induction false} SortIsStable<T>(s: seq<T>, key: T -> real, k: real)
    ensures WithKey(Sort(s, key), key, k) == WithKey(s, key, k)
  {
    if |s| > 0 {
      SortIsStable(s[..|s| - 1], key, k);
      InsertWithKey(s[|s| - 1], Sort(s[..|s| - 1], key), key, k);
    }
  }

  /** The tail of a sorted sequence is sorted. */
  lemma SortedTail<T>(s: seq<T>, key: T -> real)
    requires |s| > 0 && SortedBy(s, key)
    ensures SortedBy(s[1..], key)
  {
    forall a, b | 0 <= a < b < |s[1..]|
      ensures key(s[1..][a]) >= key(s[1..][b])
    {
      assert s[1..][a] == s[a + 1] && s[1..][b] == s[b + 1];
    }
  }

  /** First-by-key selection over a sorted list keeps the best of each key:
      a kept element scores at least as high as every element sharing its key. */
  lemma {:induction false} FirstByKeyKeepsBest<T, K>(s: seq<T>, keyOf: T -> K, key: T -> real, seen: set<K>, room: nat)
    requires SortedBy(s, key)
    ensures forall j, i :: 0 <= j < |s| && 0 <= i < |FirstByKey(s, keyOf, seen, room)|
                           && keyOf(FirstByKey(s, keyOf, seen, room)[i]) == keyOf(s[j])
                           ==> key(FirstByKey(s, keyOf, seen, room)[i]) >= key(s[j])
    decreases |s|
  {
    var r := FirstByKey(s, keyOf, seen, room);
    if room > 0 && |s| > 0 {
      var k0 := keyOf(s[0]);
      var tail := s[1..];
      SortedTail(s, key);
      if k0 in seen {
        FirstByKeyKeepsBest(tail, keyOf, key, seen, room);
        forall j, i | 0 <= j < |s| && 0 <= i < |r| && keyOf(r[i]) == keyOf(s[j])
          ensures key(r[i]) >= key(s[j])
        {
          assert r[i] == FirstByKey(tail, keyOf, seen, room)[i];
          assert s[j] == tail[j - 1];
        }
      } else {
        var rest := FirstByKey(tail, keyOf, seen + {k0}, room - 1);
        FirstByKeyKeepsBest(tail, keyOf, key, seen + {k0}, room - 1);
        assert r == [s[0]] + rest;
        forall j, i | 0 <= j < |s| && 0 <= i < |r| && keyOf(r[i]) == keyOf(s[j])
          ensures key(r[i]) >= key(s[j])
        {
          if i > 0 {
            assert r[i] == rest[i - 1];
            assert keyOf(rest[i - 1]) !in seen + {k0};
            assert s[j] == tail[j - 1];
          } else if j > 0 {
            assert key(s[0]) >= key(s[j]);
          }
        }
      }
    }
  }

  /** First-by-key selection over a sorted list drops only what scores no
      higher than everything it keeps: an element whose key was not seen
      beforehand and was not kept ranks below every kept element. */
  lemma {:induction false} FirstByKeyDropsWorse<T, K>(s: seq<T>, keyOf: T -> K, key: T -> real, seen: set<K>, room: nat)
    requires SortedBy(s, key)
    ensures forall j, i :: 0 <= j < |s| && 0 <= i < |FirstByKey(s, keyOf, seen, room)|
                           && keyOf(s[j]) !in seen && keyOf(s[j]) !in KeysOf(FirstByKey(s, keyOf, seen, room), keyOf)
                           ==> key(FirstByKey(s, keyOf, seen, room)[i]) >= key(s[j])
    decreases |s|
  {
    var r := FirstByKey(s, keyOf, seen, room);
    if room > 0 && |s| > 0 {
      var k0 := keyOf(s[0]);
      var tail := s[1..];
      SortedTail(s, key);
      if k0 in seen {
        FirstByKeyDropsWorse(tail, keyOf, key, seen, room);
        assert r == FirstByKey(tail, keyOf, seen, room);
        forall j, i | 0 <= j < |s| && 0 <= i < |r| && keyOf(s[j]) !in seen && keyOf(s[j]) !in KeysOf(r, keyOf)
          ensures key(r[i]) >= key(s[j])
        {
          assert s[j] == tail[j - 1];
        }
      } else {
        var rest := FirstByKey(tail, keyOf, seen + {k0}, room - 1);
        FirstByKeyDropsWorse(tail, keyOf, key, seen + {k0}, room - 1);
        assert r == [s[0]] + rest;
        KeysOfCons(r, keyOf);
        assert r[1..] == rest;
        forall j, i | 0 <= j < |s| && 0 <= i < |r| && keyOf(s[j]) !in seen && keyOf(s[j]) !in KeysOf(r, keyOf)
          ensures key(r[i]) >= key(s[j])
        {
          assert s[j] == tail[j - 1];
          if i > 0 {
            assert r[i] == rest[i - 1];
          }
        }
      }
    }
  }

  /** Cutting a sorted list followed by anything to its first `n` elements
      keeps position `p` of the sorted list when `p < n`; otherwise every
      element kept comes from the sorted list ahead of position `p`. */
  lemma TakeSortedFront<T>(a: seq<T>, b: seq<T>, key: T -> real, n: nat, p: nat)
    requires SortedBy(a, key) && p < |a|
    ensures p < n ==> p < |Take(a + b, n)| && Take(a + b, n)[p] == a[p]
    ensures n <= p ==> |Take(a + b, n)| == n
                       && forall i :: 0 <= i < n ==> Take(a + b, n)[i] == a[i] && key(a[i]) >= key(a[p])
  {
  }

  /** In a prefix of a sorted list of `inA` elements followed by elements
      that are not, an `inA` element is preceded only by `inA` elements with
      keys at least its own. */
  lemma TakeSortedThenOthers<T>(a: seq<T>, b: seq<T>, key: T -> real, inA: T -> bool, n: nat)
    requires SortedBy(a, key)
    requires forall i :: 0 <= i < |a| ==> inA(a[i])
    requires forall i :: 0 <= i < |b| ==> !inA(b[i])
    ensures var r := Take(a + b, n);
            forall i, j :: 0 <= i < j < |r| && inA(r[j]) ==> inA(r[i]) && key(r[i]) >= key(r[j])
  {
    var r := Take(a + b, n);
    forall i, j | 0 <= i < j < |r| && inA(r[j])
      ensures inA(r[i]) && key(r[i]) >= key(r[j])
    {
      assert j < |a|;
      assert r[i] == a[i] && r[j] == a[j];
    }
  }

  /** Any subsequence of a sorted sequence is sorted. */
  lemma {:induction false} SubsequenceOfSorted<T>(a: seq<T>, b: seq<T>, key: T -> real)
    requires IsSubsequence(a, b) && SortedBy(b, key)
    ensures SortedBy(a, key)
    decreases |b|
  {
    if |a| > 0 {
      if a[0] == b[0] {
        SubsequenceOfSorted(a[1..], b[1..], key);
        SubsequenceMembers(a[1..], b[1..]);
        forall j | 1 <= j < |a|
          ensures key(a[0]) >= key(a[j])
        {
          assert a[j] == a[1..][j - 1];
          var p :| 0 <= p < |b[1..]| && b[1..][p] == a[j];
          assert b[p + 1] == a[j];
        }
      } else {
        SubsequenceOfSorted(a, b[1..], key);
      }
    }
  }

  /** Every element of a subsequence occurs in the sequence. */
  lemma {:induction false} SubsequenceMembers<T>(a: seq<T>, b: seq<T>)
    requires IsSubsequence(a, b)
    ensures forall i :: 0 <= i < |a| ==> a[i] in b
    decreases |b|
  {
    if |a| > 0 {
      if a[0] == b[0] {
        SubsequenceMembers(a[1..], b[1..]);
        forall i | 1 <= i < |a|
          ensures a[i] in b
        {
          assert a[i] == a[1..][i - 1];
        }
      } else {
        SubsequenceMembers(a, b[1..]);
      }
    }
  }
}

=== FILE: records.dfy ===
/** The records the application keeps: a watched title as stored under
    `users/<uid>/watched/<id>`, credits people, and the JavaScript truthiness
    rules the code applies to their optional fields. */
module Records {
  import opened Seqs

  /** A credits entry: a cast member (whose `job` is empty) or a crew member. */
  datatype Person = Person(name: string, job: string)

  /** A title's credits; either list may be missing. */
  datatype Credits = Credits(cast: Option<seq<Person>>, crew: Option<seq<Person>>)

  predicate IsDirector(p: Person) {
    p.job == "Director"
  }

  /** A watched title. Every field the application may leave out is optional;
      `mediaType` is the record's `type` field. */
  datatype WatchedItem = WatchedItem(
    id: int,
    title: Option<string>,
    name: Option<string>,
    mediaType: string,
    posterPath: Option<string>,
    releaseDate: Option<string>,
    firstAirDate: Option<string>,
    voteAverage: Option<real>,
    genres: Option<seq<string>>,
    popularity: Option<real>,
    description: Option<string>,
    cast: Option<seq<string>>,
    crew: Option<seq<string>>,
    status: Option<string>,
    runtime: Option<int>,
    episodes: Option<int>,
    seasons: Option<int>,
    episodeRunTime: Option<int>,
    rating: Option<int>,
    notes: Option<seq<string>>,
    quotes: Option<seq<string>>,
    favorite: Option<bool>,
    watchDate: Option<string>)

  /** JavaScript truthiness of an optional string: present and not empty. */
  predicate Truthy(s: Option<string>) {
    s.Some? && s.value != ""
  }

  /** `a || b` on optional strings. */
  function Or(a: Option<string>, b: Option<string>): Option<string> {
    if Truthy(a) then a else b
  }

  /** `n || 0` on an optional number. */
  function OrZero(n: Option<int>): int {
    if n.Some? then n.value else 0
  }

  /** `item.favorite` read as a condition. */
  predicate IsFavorite(item: WatchedItem) {
    item.favorite == Some(true)
  }
}

=== FILE: seqs.dfy ===
/** Generic sequence vocabulary shared by every other module: an optional
    value, filtering, counting, summing, and first-occurrence selection by key. */
module Seqs {

  /** A value that may be absent: a JavaScript `undefined`/`null` field, or a
      Python `None`. */
  datatype Option<T> = None | Some(value: T) {
    /** The wrapped value, or `default` when absent. */
    function GetOr(default: T): T {
      if Some? then value else default
    }
  }

  /** The outcome of a step that can fail: a value, or a failure (a thrown
      exception or a rejected request). */
  datatype Result<T> = Success(value: T) | Failure

  /** `s.filter(p)`: the elements satisfying `p`, in their original order. */
  function Filter<T(!new)>(s: seq<T>, p: T -> bool): (r: seq<T>)
    ensures |r| <= |s|
    ensures forall i :: 0 <= i < |r| ==> p(r[i])
    ensures forall x :: x in r <==> x in s && p(x)
    ensures forall x :: multiset(r)[x] == if p(x) then multiset(s)[x] else 0
  {
    if |s| == 0 then []
    else
      assert s == [s[0]] + s[1..];
      if p(s[0]) then [s[0]] + Filter(s[1..], p) else Filter(s[1..], p)
  }

  /** `a` can be obtained from `b` by deleting elements (greedy matching
      decides this exactly). */
  predicate IsSubsequence<T(==)>(a: seq<T>, b: seq<T>)
    decreases |b|
  {
    |a| == 0 ||
    (|b| > 0 &&
     if a[0] == b[0] then IsSubsequence(a[1..], b[1..]) else IsSubsequence(a, b[1..]))
  }

  /** A subsequence of the tail of `b` is a subsequence of `b`. */
  lemma {:induction false} SubsequenceOfTail<T>(a: seq<T>, b: seq<T>)
    requires |b| > 0 && IsSubsequence(a, b[1..])
    ensures IsSubsequence(a, b)
    decreases |a| + |b|
  {
    if |a| > 0 && a[0] == b[0] {
      SubsequenceDropHead(a, b[1..]);
    }
  }

  /** Dropping the first element of a subsequence leaves a subsequence. */
  lemma {:induction false} SubsequenceDropHead<T>(a: seq<T>, c: seq<T>)
    requires |a| > 0 && IsSubsequence(a, c)
    ensures IsSubsequence(a[1..], c)
    decreases |a| + |c|
  {
    if a[0] == c[0] {
      SubsequenceOfTail(a[1..], c);
    } else {
      SubsequenceDropHead(a, c[1..]);
      SubsequenceOfTail(a[1..], c);
    }
  }

  /** Every sequence is a subsequence of itself. */
  lemma {:induction false} SubsequenceRefl<T>(s: seq<T>)
    ensures IsSubsequence(s, s)
  {
    if |s| > 0 {
      SubsequenceRefl(s[1..]);
    }
  }

  /** Filtering keeps the order of the elements it keeps. */
  lemma {:induction false} FilterIsSubsequence<T(!new)>(s: seq<T>, p: T -> bool)
    ensures IsSubsequence(Filter(s, p), s)
  {
    if |s| > 0 {
      FilterIsSubsequence(s[1..], p);
      if !p(s[0]) {
        SubsequenceOfTail(Filter(s, p), s);
      }
    }
  }

  /** Filtering with a predicate every element satisfies changes nothing. */
  lemma {:induction false} FilterAll<T(!new)>(s: seq<T>, p: T -> bool)
    requires forall i :: 0 <= i < |s| ==> p(s[i])
    ensures Filter(s, p) == s
  {
    if |s| > 0 {
      FilterAll(s[1..], p);
    }
  }

  /** Filtering twice with the same predicate is filtering once. */
  lemma FilterIdempotent<T(!new)>(s: seq<T>, p: T -> bool)
    ensures Filter(Filter(s, p), p) == Filter(s, p)
  {
    FilterAll(Filter(s, p), p);
  }

  /** `s.filter(p).length`. */
  function Count<T(!new)>(s: seq<T>, p: T -> bool): nat {
    |Filter(s, p)|
  }

  /** Sum of `f` over the elements of `s`, left to right. */
  function SumOf<T>(s: seq<T>, f: T -> int): int {
    if |s| == 0 then 0 else f(s[0]) + SumOf(s[1..], f)
  }

  lemma {:induction false} SumOfAppend<T>(a: seq<T>, b: seq<T>, f: T -> int)
    ensures SumOf(a + b, f) == SumOf(a, f) + SumOf(b, f)
  {
    if |a| == 0 {
      assert a + b == b;
    } else {
      assert (a + b)[0] == a[0];
      assert (a + b)[1..] == a[1..] + b;
      SumOfAppend(a[1..], b, f);
    }
  }

  /** The first `n` elements (all of them when there are fewer): `s.slice(0, n)`. */
  function Take<T>(s: seq<T>, n: nat): (r: seq<T>)
    ensures |r| <= n && |r| <= |s|
    ensures |r| == n || |r| == |s|
    ensures r <= s
  {
    if |s| <= n then s else s[..n]
  }

  /** A prefix holds no element more often than the whole sequence. */
  lemma TakeMultiset<T>(s: seq<T>, n: nat)
    ensures multiset(Take(s, n)) <= multiset(s)
  {
    if n < |s| {
      assert s == s[..n] + s[n..];
    }
  }

  /** The values `keyOf` gives the elements of `s`. */
  function KeysOf<T, K>(s: seq<T>, keyOf: T -> K): set<K> {
    set i | 0 <= i < |s| :: keyOf(s[i])
  }

  /** No two elements of `s` share a key. */
  predicate DistinctKeys<T, K(==)>(s: seq<T>, keyOf: T -> K) {
    forall i, j :: 0 <= i < j < |s| ==> keyOf(s[i]) != keyOf(s[j])
  }

  /** Walks `s` in order and keeps an element when its key is neither in `seen`
      nor already kept, stopping once `room` elements are kept. This is the
      "seen set" loop used for de-duplication throughout the application. */
  function FirstByKey<T, K(==)>(s: seq<T>, keyOf: T -> K, seen: set<K>, room: nat): (r: seq<T>)
    ensures |r| <= room && |r| <= |s|
    ensures forall i :: 0 <= i < |r| ==> r[i] in s && keyOf(r[i]) !in seen
    ensures DistinctKeys(r, keyOf)
    ensures KeysOf(r, keyOf) <= KeysOf(s, keyOf)
    decreases |s|
  {
    if room == 0 || |s| == 0 then []
    else if keyOf(s[0]) in seen then FirstByKey(s[1..], keyOf, seen, room)
    else
      var rest := FirstByKey(s[1..], keyOf, seen + {keyOf(s[0])}, room - 1);
      assert forall i :: 0 < i < |s| ==> s[i] == s[1..][i - 1];
      [s[0]] + rest
  }

  /** What `FirstByKey` keeps is an order-preserving subsequence of its input. */
  lemma {:induction false} FirstByKeyIsSubsequence<T, K>(s: seq<T>, keyOf: T -> K, seen: set<K>, room: nat)
    ensures IsSubsequence(FirstByKey(s, keyOf, seen, room), s)
    decreases |s|
  {
    if room > 0 && |s| > 0 {
      if keyOf(s[0]) in seen {
        FirstByKeyIsSubsequence(s[1..], keyOf, seen, room);
        if |FirstByKey(s, keyOf, seen, room)| > 0 {
          SubsequenceOfTail(FirstByKey(s, keyOf, seen, room), s);
        }
      } else {
        FirstByKeyIsSubsequence(s[1..], keyOf, seen + {keyOf(s[0])}, room - 1);
      }
    }
  }

  /** The keys of a non-empty sequence: its first key and the keys of the rest. */
  lemma KeysOfCons<T, K>(s: seq<T>, keyOf: T -> K)
    requires |s| > 0
    ensures KeysOf(s, keyOf) == {keyOf(s[0])} + KeysOf(s[1..], keyOf)
  {
    assert forall i :: 0 < i < |s| ==> s[i] == s[1..][i - 1];
    forall k | k in KeysOf(s[1..], keyOf)
      ensures k in KeysOf(s, keyOf)
    {
      var i :| 0 <= i < |s[1..]| && keyOf(s[1..][i]) == k;
      assert s[i + 1] == s[1..][i];
    }
  }

  /** The keys after appending `x`: the old keys and the key of `x`. */
  lemma KeysOfSnoc<T, K>(s: seq<T>, x: T, keyOf: T -> K)
    ensures KeysOf(s + [x], keyOf) == KeysOf(s, keyOf) + {keyOf(x)}
  {
    assert forall i :: 0 <= i < |s| ==> (s + [x])[i] == s[i];
    assert (s + [x])[|s|] == x;
  }

  /** When `FirstByKey` stops short of `room`, no key was dropped: every key of
      the input was either already seen or is kept. */
  lemma {:induction false} FirstByKeyKeepsEveryKey<T, K>(s: seq<T>, keyOf: T -> K, seen: set<K>, room: nat)
    requires |FirstByKey(s, keyOf, seen, room)| < room
    ensures KeysOf(s, keyOf) <= seen + KeysOf(FirstByKey(s, keyOf, seen, room), keyOf)
    decreases |s|
  {
    if |s| > 0 {
      var k0 := keyOf(s[0]);
      KeysOfCons(s, keyOf);
      if k0 in seen {
        FirstByKeyKeepsEveryKey(s[1..], keyOf, seen, room);
      } else {
        var rest := FirstByKey(s[1..], keyOf, seen + {k0}, room - 1);
        FirstByKeyKeepsEveryKey(s[1..], keyOf, seen + {k0}, room - 1);
        assert FirstByKey(s, keyOf, seen, room) == [s[0]] + rest;
        KeysOfCons([s[0]] + rest, keyOf);
        assert ([s[0]] + rest)[1..] == rest;
      }
    }
  }

  /** `s[j]` is the first element of `s` with its key. */
  ghost predicate FirstOfKey<T, K>(s: seq<T>, keyOf: T -> K, j: nat)
    requires j < |s|
  {
    forall k :: 0 <= k < j ==> keyOf(s[k]) != keyOf(s[j])
  }

  /** A first occurrence in the tail whose key differs from the head's is a
      first occurrence in the whole sequence. */
  lemma FirstOfKeyShift<T, K>(s: seq<T>, keyOf: T -> K, j: nat)
    requires 0 < |s| && j < |s| - 1
    requires FirstOfKey(s[1..], keyOf, j) && keyOf(s[0]) != keyOf(s[j + 1])
    ensures FirstOfKey(s, keyOf, j + 1)
  {
    forall k | 0 < k < j + 1
      ensures keyOf(s[k]) != keyOf(s[j + 1])
    {
      assert s[k] == s[1..][k - 1] && s[j + 1] == s[1..][j];
    }
  }

  /** Each element `FirstByKey` keeps is the first element of the input with
      its key: no earlier element shares that key. */
  lemma {:induction false} FirstByKeyFirstOccurrence<T, K>(s: seq<T>, keyOf: T -> K, seen: set<K>, room: nat)
    ensures forall i :: 0 <= i < |FirstByKey(s, keyOf, seen, room)| ==>
              exists j :: 0 <= j < |s| && s[j] == FirstByKey(s, keyOf, seen, room)[i] && FirstOfKey(s, keyOf, j)
    decreases |s|
  {
    var r := FirstByKey(s, keyOf, seen, room);
    if room > 0 && |s| > 0 {
      var k0 := keyOf(s[0]);
      var seen' := if k0 in seen then seen else seen + {k0};
      var room' := if k0 in seen then room else room - 1;
      var tail := s[1..];
      var rest := FirstByKey(tail, keyOf, seen', room');
      FirstByKeyFirstOccurrence(tail, keyOf, seen', room');
      assert forall i :: 0 <= i < |rest| ==> exists j :: 0 <= j < |tail| && tail[j] == rest[i] && FirstOfKey(tail, keyOf, j);
      forall i | 0 <= i < |r|
        ensures exists j :: 0 <= j < |s| && s[j] == r[i] && FirstOfKey(s, keyOf, j)
      {
        if k0 !in seen && i == 0 {
          assert s[0] == r[0] && FirstOfKey(s, keyOf, 0);
        } else {
          var i' := if k0 in seen then i else i - 1;
          assert 0 <= i' < |rest| && r[i] == rest[i'];
          var j' :| 0 <= j' < |tail| && tail[j'] == rest[i'] && FirstOfKey(tail, keyOf, j');
          assert keyOf(rest[i']) !in seen';
          FirstOfKeyShift(s, keyOf, j');
          assert s[j' + 1] == r[i];
        }
      }
    }
  }

  /** On a list with no repeated key, first-by-key selection with room to
      spare keeps everything. */
  lemma {:induction false} DistinctFirstByKey<T, K>(s: seq<T>, keyOf: T -> K, room: nat)
    requires DistinctKeys(s, keyOf) && |s| < room
    ensures FirstByKey(s, keyOf, {}, room) == s
  {
    DistinctFirstByKeySeen(s, keyOf, {}, room);
  }

  lemma {:induction false} DistinctFirstByKeySeen<T, K>(s: seq<T>, keyOf: T -> K, seen: set<K>, room: nat)
    requires DistinctKeys(s, keyOf) && |s| < room
    requires forall i :: 0 <= i < |s| ==> keyOf(s[i]) !in seen
    ensures FirstByKey(s, keyOf, seen, room) == s
    decreases |s|
  {
    if |s| > 0 {
      var tail := s[1..];
      forall i | 0 <= i < |tail|
        ensures keyOf(tail[i]) !in seen + {keyOf(s[0])}
      {
        assert tail[i] == s[i + 1];
      }
      DistinctFirstByKeySeen(tail, keyOf, seen + {keyOf(s[0])}, room - 1);
    }
  }

  /** Two filters whose predicates split a third one between them count
      exactly what the third counts. */
  lemma {:induction false} CountSplit<T(!new)>(s: seq<T>, p: T -> bool, q: T -> bool, both: T -> bool)
    requires forall x :: !(p(x) && q(x)) && (both(x) <==> p(x) || q(x))
    ensures Count(s, p) + Count(s, q) == Count(s, both)
  {
    if |s| > 0 {
      CountSplit(s[1..], p, q, both);
    }
  }

  /** Concatenation of a sequence of sequences, in order. */
  function Concat<T>(pages: seq<seq<T>>): seq<T> {
    if |pages| == 0 then [] else pages[0] + Concat(pages[1..])
  }

  /** Total number of elements over all pages. */
  function TotalLength<T>(pages: seq<seq<T>>): nat {
    if |pages| == 0 then 0 else |pages[0]| + TotalLength(pages[1..])
  }

  lemma SumOfRemove<T>(b: seq<T>, k: nat, f: T -> int)
    requires k < |b|
    ensures SumOf(b, f) == f(b[k]) + SumOf(b[..k] + b[k + 1..], f)
  {
    var pre, rest := b[..k], b[k + 1..];
    assert b[k..] == [b[k]] + rest;
    assert b == pre + b[k..];
    SumOfAppend(pre, [b[k]] + rest, f);
    assert SumOf([b[k]] + rest, f) == f(b[k]) + SumOf(rest, f) by {
      assert ([b[k]] + rest)[1..] == rest;
    }
    SumOfAppend(pre, rest, f);
  }

  lemma MultisetRemove<T>(b: seq<T>, k: nat)
    requires k < |b|
    ensures multiset(b[..k] + b[k + 1..]) == multiset(b) - multiset{b[k]}
  {
    assert b == b[..k] + [b[k]] + b[k + 1..];
    assert multiset(b) == multiset(b[..k]) + multiset([b[k]]) + multiset(b[k + 1..]);
  }

  /** Sums do not depend on the order of the elements. */
  lemma {:induction false} SumOfPermutation<T>(a: seq<T>, b: seq<T>, f: T -> int)
    requires multiset(a) == multiset(b)
    ensures SumOf(a, f) == SumOf(b, f)
    decreases |a|
  {
    if |a| == 0 {
      assert |b| == |multiset(b)| == 0;
    } else {
      assert a[0] in multiset(b);
      var k :| 0 <= k < |b| && b[k] == a[0];
      var b' := b[..k] + b[k + 1..];
      MultisetRemove(b, k);
      assert a == [a[0]] + a[1..];
      assert multiset(a[1..]) == multiset(a) - multiset{a[0]};
      SumOfPermutation(a[1..], b', f);
      SumOfRemove(b, k, f);
    }
  }

  /** No element occurs twice. */
  ghost predicate NoDuplicates<T>(s: seq<T>) {
    forall i, j :: 0 <= i < j < |s| ==> s[i] != s[j]
  }

  lemma {:induction false} NoDuplicatesMultiset<T>(s: seq<T>, x: T)
    requires NoDuplicates(s)
    ensures multiset(s)[x] <= 1
  {
    if |s| > 0 {
      assert s == [s[0]] + s[1..];
      NoDuplicatesMultiset(s[1..], x);
      if x == s[0] {
        assert x !in s[1..];
      }
    }
  }

  /** A permutation of a sequence without duplicates has none either. */
  lemma PermutationNoDuplicates<T>(a: seq<T>, b: seq<T>)
    requires multiset(a) == multiset(b) && NoDuplicates(a)
    ensures NoDuplicates(b)
  {
    forall i, j | 0 <= i < j < |b|
      ensures b[i] != b[j]
    {
      if b[i] == b[j] {
        assert b == b[..j] + b[j..];
        assert b[i] in multiset(b[..j]);
        assert b[j] in multiset(b[j..]);
        NoDuplicatesMultiset(a, b[i]);
      }
    }
  }

  /** Distinct keys survive any reordering. */
  lemma PermutationDistinctKeys<T, K>(a: seq<T>, b: seq<T>, keyOf: T -> K)
    requires multiset(a) == multiset(b) && DistinctKeys(a, keyOf)
    ensures DistinctKeys(b, keyOf)
  {
    assert NoDuplicates(a);
    PermutationNoDuplicates(a, b);
    forall i, j | 0 <= i < j < |b|
      ensures keyOf(b[i]) != keyOf(b[j])
    {
      assert b[i] in multiset(a) && b[j] in multiset(a);
      var p :| 0 <= p < |a| && a[p] == b[i];
      var q :| 0 <= q < |a| && a[q] == b[j];
      assert p != q;
    }
  }

  /** `s.map(f)`. */
  function Map<T, U>(s: seq<T>, f: T -> U): (r: seq<U>)
    ensures |r| == |s|
    ensures forall i :: 0 <= i < |s| ==> r[i] == f(s[i])
  {
    if |s| == 0 then [] else [f(s[0])] + Map(s[1..], f)
  }

  lemma {:induction false} SumOfMap<T, U>(s: seq<T>, f: T -> U, g: U -> int)
    ensures SumOf(Map(s, f), g) == SumOf(s, x => g(f(x)))
  {
    if |s| > 0 {
      assert Map(s, f)[1..] == Map(s[1..], f);
      SumOfMap(s[1..], f, g);
    }
  }

  /** Two filters whose predicates never hold together keep at most the
      whole sequence between them. */
  lemma {:induction false} CountDisjoint<T(!new)>(s: seq<T>, p: T -> bool, q: T -> bool)
    requires forall x :: !(p(x) && q(x))
    ensures Count(s, p) + Count(s, q) <= |s|
  {
    if |s| > 0 {
      CountDisjoint(s[1..], p, q);
    }
  }

  /** The elements of `s` in order of first occurrence, each once. */
  function Distinct<T(==,!new)>(s: seq<T>): (r: seq<T>)
    ensures forall x :: x in r <==> x in s
    ensures NoDuplicates(r)
  {
    if |s| == 0 then []
    else
      var d := Distinct(s[..|s| - 1]);
      assert s == s[..|s| - 1] + [s[|s| - 1]];
      if s[|s| - 1] in d then d else d + [s[|s| - 1]]
  }

  /** Adding one to `f` at a single point `y` adds one to a sum over a
      duplicate-free sequence exactly when `y` occurs in it. */
  lemma {:induction false} SumOfBump<T>(d: seq<T>, f: T -> int, g: T -> int, y: T)
    requires NoDuplicates(d)
    requires forall x :: g(x) == f(x) + (if x == y then 1 else 0)
    ensures SumOf(d, g) == SumOf(d, f) + (if y in d then 1 else 0)
  {
    if |d| > 0 {
      SumOfBump(d[1..], f, g, y);
      assert y in d <==> y == d[0] || y in d[1..];
    }
  }

  /** Summing the number of occurrences over the distinct elements counts
      every element once. */
  lemma {:induction false} OccurrencesSum<T(!new)>(s: seq<T>)
    ensures SumOf(Distinct(s), x => multiset(s)[x]) == |s|
  {
    if |s| > 0 {
      var t, y := s[..|s| - 1], s[|s| - 1];
      assert s == t + [y];
      var d := Distinct(t);
      OccurrencesSum(t);
      SumOfBump(d, x => multiset(t)[x], x => multiset(s)[x], y);
      if y !in d {
        SumOfAppend(d, [y], x => multiset(s)[x]);
      }
    }
  }

  /** Sums over the same sequence agree when the summed functions agree on it. */
  lemma {:induction false} SumOfCongruent<T>(s: seq<T>, f: T -> int, g: T -> int)
    requires forall i :: 0 <= i < |s| ==> f(s[i]) == g(s[i])
    ensures SumOf(s, f) == SumOf(s, g)
  {
    if |s| > 0 {
      SumOfCongruent(s[1..], f, g);
    }
  }

  /** A sum of values between `lo` and `hi` lies between `lo` and `hi` times
      the number of values. */
  lemma {:induction false} SumOfBounds<T>(s: seq<T>, f: T -> int, lo: int, hi: int)
    requires forall i :: 0 <= i < |s| ==> lo <= f(s[i]) <= hi
    ensures lo * |s| <= SumOf(s, f) <= hi * |s|
  {
    if |s| > 0 {
      SumOfBounds(s[1..], f, lo, hi);
    }
  }

  lemma {:induction false} CountAppend<T(!new)>(a: seq<T>, b: seq<T>, p: T -> bool)
    ensures Count(a + b, p) == Count(a, p) + Count(b, p)
  {
    if |a| == 0 {
      assert a + b == b;
    } else {
      assert (a + b)[1..] == a[1..] + b;
      CountAppend(a[1..], b, p);
    }
  }

  /** One more element adds one to the count exactly when it satisfies `p`. */
  lemma CountSnoc<T(!new)>(a: seq<T>, x: T, p: T -> bool)
    ensures Count(a + [x], p) == Count(a, p) + (if p(x) then 1 else 0)
  {
    CountAppend(a, [x], p);
    assert Filter([x], p) == if p(x) then [x] else [] by {
      assert [x][1..] == [];
    }
  }

  /** Sums over two sequences of the same length agree when the summed
      values agree position by position. */
  lemma {:induction false} SumOfPointwise<A, B>(a: seq<A>, f: A -> int, b: seq<B>, g: B -> int)
    requires |a| == |b|
    requires forall i :: 0 <= i < |a| ==> f(a[i]) == g(b[i])
    ensures SumOf(a, f) == SumOf(b, g)
  {
    if |a| > 0 {
      SumOfPointwise(a[1..], f, b[1..], g);
    }
  }

  /** Reordering a sequence does not change which values a map over it takes. */
  lemma MapPermutationMembers<T, U>(a: seq<T>, b: seq<T>, f: T -> U, y: U)
    requires multiset(a) == multiset(b)
    requires y in Map(a, f)
    ensures y in Map(b, f)
  {
    var i :| 0 <= i < |a| && Map(a, f)[i] == y;
    assert a[i] in multiset(b);
    var j :| 0 <= j < |b| && b[j] == a[i];
    assert Map(b, f)[j] == y;
  }
}

=== FILE: server.dfy ===
/** The recommendation service's `/recommend` endpoint, from the similarity
    scores on: the general list (one profile against the discover pool) and
    one group of suggestions per favourite. Scores are inputs; how they are
    computed is not part of this model. */
module RecommendServer {
  import opened Seqs
  import opened Ranking

  /** A title as the service receives it. */
  datatype Movie = Movie(
    id: int,
    title: string,
    tags: string,
    posterPath: string,
    releaseDate: string,
    voteAverage: real,
    mediaType: string)

  /** The `(id, type)` identity the service de-duplicates on. */
  datatype Key = Key(id: int, mediaType: string)

  function KeyOf(m: Movie): Key {
    Key(m.id, m.mediaType)
  }

  /** A discover title with its similarity score. */
  datatype Scored = Scored(movie: Movie, score: real)

  function ScoreOf(c: Scored): real {
    c.score
  }

  function CandKey(c: Scored): Key {
    KeyOf(c.movie)
  }

  function MovieOf(c: Scored): Movie {
    c.movie
  }

  /** Suggestions for one favourite. */
  datatype Group = Group(basedOn: string, suggestions: seq<Movie>)

  datatype Response = Response(general: seq<Movie>, individual: seq<Group>)

  /** The endpoint either answers or fails with a server error. */
  datatype Reply = ServerError | Answer(response: Response)

  /** Each discover title paired with its score, in discover order. */
  function Pool(discover: seq<Movie>, scores: seq<real>): (r: seq<Scored>)
    requires |scores| == |discover|
    ensures |r| == |discover|
    ensures forall i :: 0 <= i < |r| ==> r[i] == Scored(discover[i], scores[i])
  {
    seq(|discover|, i requires 0 <= i < |discover| => Scored(discover[i], scores[i]))
  }

  /** The rows of the discover data frame once their tags are replaced by
      the stemmed text: each title with `stem` applied to its tags and every
      other field, its key included, unchanged. These rows are what the
      service returns. The stemmer is a parameter. */
  function StemmedRows(discover: seq<Movie>, stem: string -> string): (r: seq<Movie>)
    ensures |r| == |discover|
    ensures forall i :: 0 <= i < |r| ==> r[i] == discover[i].(tags := stem(discover[i].tags))
  {
    Map(discover, (m: Movie) => m.(tags := stem(m.tags)))
  }

  /** The keys of the favourites: `exclude_ids`. */
  function FavoriteKeys(favorites: seq<Movie>): set<Key> {
    KeysOf(favorites, KeyOf)
  }

  /** One selection round: drop the titles whose key is excluded, sort by score
      (highest first, ties in pool order), then walk the sorted list keeping
      the first title of each key until `room` are kept. */
  function Pick(pool: seq<Scored>, excluded: set<Key>, room: nat): seq<Scored> {
    FirstByKey(Sort(Filter(pool, c => CandKey(c) !in excluded), ScoreOf), CandKey, {}, room)
  }

  /** What a selection round guarantees: at most `room` titles, all from the
      pool, none excluded, no key twice, scores non-increasing; when fewer
      than `room` are kept, every eligible key is among them; each kept title
      is the best-scoring eligible title of its key; and an eligible title
      whose key was not kept scores no higher than any kept one. */
  ghost predicate Ranked(r: seq<Scored>, pool: seq<Scored>, excluded: set<Key>, room: nat) {
    && |r| <= room
    && (forall i :: 0 <= i < |r| ==> r[i] in pool && CandKey(r[i]) !in excluded)
    && DistinctKeys(r, CandKey)
    && SortedBy(r, ScoreOf)
    && (|r| < room ==> forall c :: c in pool && CandKey(c) !in excluded ==> CandKey(c) in KeysOf(r, CandKey))
    && (forall c, i :: c in pool && CandKey(c) !in excluded && 0 <= i < |r| && CandKey(r[i]) == CandKey(c)
                       ==> ScoreOf(r[i]) >= ScoreOf(c))
    && (forall c, i :: c in pool && CandKey(c) !in excluded && CandKey(c) !in KeysOf(r, CandKey) && 0 <= i < |r|
                       ==> ScoreOf(r[i]) >= ScoreOf(c))
  }

  /** The plain facts about a selection round: at most `room` titles, all
      from the pool, none excluded, no key twice, scores non-increasing, and,
      when fewer than `room` are kept, every eligible key is among them. */
  lemma PickFacts(pool: seq<Scored>, excluded: set<Key>, room: nat)
    ensures var r := Pick(pool, excluded, room);
            && |r| <= room
            && (forall i :: 0 <= i < |r| ==> r[i] in pool && CandKey(r[i]) !in excluded)
            && DistinctKeys(r, CandKey)
            && SortedBy(r, ScoreOf)
            && (|r| < room ==> forall c :: c in pool && CandKey(c) !in excluded ==> CandKey(c) in KeysOf(r, CandKey))
  {
    var eligible := Filter(pool, c => CandKey(c) !in excluded);
    var sorted := Sort(eligible, ScoreOf);
    var r := Pick(pool, excluded, room);
    forall i | 0 <= i < |r|
      ensures r[i] in pool && CandKey(r[i]) !in excluded
    {
      assert r[i] in multiset(sorted);
      assert r[i] in eligible;
    }
    FirstByKeyIsSubsequence(sorted, CandKey, {}, room);
    SubsequenceOfSorted(r, sorted, ScoreOf);
    if |r| < room {
      FirstByKeyKeepsEveryKey(sorted, CandKey, {}, room);
      forall c | c in pool && CandKey(c) !in excluded
        ensures CandKey(c) in KeysOf(r, CandKey)
      {
        assert c in eligible;
        assert c in multiset(sorted);
        var j :| 0 <= j < |sorted| && sorted[j] == c;
        assert CandKey(c) in KeysOf(sorted, CandKey);
      }
    }
  }

  /** A selection round keeps the top of the pool: each kept title scores at
      least as high as every eligible title with its key, and an eligible
      title whose key was not kept scores no higher than any kept one. */
  lemma PickTop(pool: seq<Scored>, excluded: set<Key>, room: nat)
    ensures var r := Pick(pool, excluded, room);
            forall c, i :: c in pool && CandKey(c) !in excluded && 0 <= i < |r| && CandKey(r[i]) == CandKey(c)
                           ==> ScoreOf(r[i]) >= ScoreOf(c)
    ensures var r := Pick(pool, excluded, room);
            forall c, i :: c in pool && CandKey(c) !in excluded && CandKey(c) !in KeysOf(r, CandKey) && 0 <= i < |r|
                           ==> ScoreOf(r[i]) >= ScoreOf(c)
  {
    var eligible := Filter(pool, c => CandKey(c) !in excluded);
    var sorted := Sort(eligible, ScoreOf);
    var r := Pick(pool, excluded, room);
    FirstByKeyKeepsBest(sorted, CandKey, ScoreOf, {}, room);
    FirstByKeyDropsWorse(sorted, CandKey, ScoreOf, {}, room);
    forall c, i | c in pool && CandKey(c) !in excluded && 0 <= i < |r|
      ensures CandKey(r[i]) == CandKey(c) ==> ScoreOf(r[i]) >= ScoreOf(c)
      ensures CandKey(c) !in KeysOf(r, CandKey) ==> ScoreOf(r[i]) >= ScoreOf(c)
    {
      assert c in eligible;
      assert c in multiset(sorted);
      var j :| 0 <= j < |sorted| && sorted[j] == c;
    }
  }

  /** A selection round is ranked. */
  lemma PickRanked(pool: seq<Scored>, excluded: set<Key>, room: nat)
    ensures Ranked(Pick(pool, excluded, room), pool, excluded, room)
  {
    PickFacts(pool, excluded, room);
    PickTop(pool, excluded, room);
  }

  /** The titles of a selection round from the discover pool are a ranked
      selection by `scores`. */
  lemma PickTopFor(discover: seq<Movie>, scores: seq<real>, excluded: set<Key>, room: nat)
    requires |scores| == |discover|
    ensures TopFor(Map(Pick(Pool(discover, scores), excluded, room), MovieOf), discover, scores, excluded, room)
  {
    PickRanked(Pool(discover, scores), excluded, room);
  }

  /** `movies` are the titles of a ranked selection from the discover pool
      scored by `scores`. */
  ghost predicate TopFor(movies: seq<Movie>, discover: seq<Movie>, scores: seq<real>, excluded: set<Key>, room: nat) {
    && |scores| == |discover|
    && exists picks :: Ranked(picks, Pool(discover, scores), excluded, room) && Map(picks, MovieOf) == movies
  }

  /** Ties keep their pool order: among titles of equal score, the kept ones
      appear in the order they had in the pool. */
  lemma PickKeepsTieOrder(pool: seq<Scored>, excluded: set<Key>, room: nat, k: real)
    ensures IsSubsequence(Pick(pool, excluded, room), Sort(Filter(pool, c => CandKey(c) !in excluded), ScoreOf))
    ensures WithKey(Sort(Filter(pool, c => CandKey(c) !in excluded), ScoreOf), ScoreOf, k)
         == WithKey(Filter(pool, c => CandKey(c) !in excluded), ScoreOf, k)
  {
    var eligible := Filter(pool, c => CandKey(c) !in excluded);
    FirstByKeyIsSubsequence(Sort(eligible, ScoreOf), CandKey, {}, room);
    SortIsStable(eligible, ScoreOf, k);
  }

  /** The general recommendations: up to 20 titles against the user profile.
      `discover` holds the data frame's rows, as `Recommend` passes them. */
  function General(favorites: seq<Movie>, discover: seq<Movie>, scores: seq<real>): (r: seq<Movie>)
    requires |scores| == |discover|
    ensures |r| <= 20
    ensures forall i :: 0 <= i < |r| ==> r[i] in discover && KeyOf(r[i]) !in FavoriteKeys(favorites)
    ensures DistinctKeys(r, KeyOf)
  {
    var picks := Pick(Pool(discover, scores), FavoriteKeys(favorites), 20);
    PickFacts(Pool(discover, scores), FavoriteKeys(favorites), 20);
    var r := Map(picks, MovieOf);
    forall i | 0 <= i < |r|
      ensures r[i] in discover
    {
      var j :| 0 <= j < |discover| && Pool(discover, scores)[j] == picks[i];
    }
    r
  }

  /** The general list is the top of the discover pool: a ranked selection
      of 20 by the profile's scores among the titles that are not favourites. */
  lemma GeneralTop(favorites: seq<Movie>, discover: seq<Movie>, scores: seq<real>)
    requires |scores| == |discover|
    ensures TopFor(General(favorites, discover, scores), discover, scores, FavoriteKeys(favorites), 20)
  {
    PickTopFor(discover, scores, FavoriteKeys(favorites), 20);
  }

  /** No key appears in two different groups. */
  ghost predicate GroupsDisjoint(groups: seq<Group>) {
    forall i, j, a, b :: 0 <= i < j < |groups| && 0 <= a < |groups[i].suggestions|
                         && 0 <= b < |groups[j].suggestions|
                         ==> KeyOf(groups[i].suggestions[a]) != KeyOf(groups[j].suggestions[b])
  }

  /** The keys a group takes. */
  function Taken(g: Group): set<Key> {
    KeysOf(g.suggestions, KeyOf)
  }

  /** The keys a list of groups takes between them. */
  function TakenBy(groups: seq<Group>): set<Key> {
    if |groups| == 0 then {} else Taken(groups[0]) + TakenBy(groups[1..])
  }

  /** What a prefix of a list with `first` in front takes. */
  lemma TakenByCons(first: Group, rest: seq<Group>, n: nat)
    requires n <= |rest|
    ensures TakenBy(([first] + rest)[..n + 1]) == Taken(first) + TakenBy(rest[..n])
  {
    assert ([first] + rest)[..n + 1][1..] == rest[..n];
  }

  /** What one group promises: it is based on `title`, holds at most 5
      discover titles with distinct keys, and none of their keys is blocked. */
  ghost predicate GroupOk(g: Group, title: string, discover: seq<Movie>, blocked: set<Key>) {
    && g.basedOn == title
    && |g.suggestions| <= 5
    && DistinctKeys(g.suggestions, KeyOf)
    && forall a :: 0 <= a < |g.suggestions| ==>
         g.suggestions[a] in discover && KeyOf(g.suggestions[a]) !in blocked
  }

  lemma GroupOkWeaken(g: Group, title: string, discover: seq<Movie>, blocked: set<Key>, fewer: set<Key>)
    requires GroupOk(g, title, discover, blocked) && fewer <= blocked
    ensures GroupOk(g, title, discover, fewer)
  {
  }

  /** One favourite's group: up to 5 discover titles by that favourite's
      scores, none of whose keys is blocked. `discover` holds the data
      frame's rows, as `Recommend` passes them. */
  function GroupFor(favorite: Movie, discover: seq<Movie>, scores: seq<real>, blocked: set<Key>): (g: Group)
    requires |scores| == |discover|
    ensures GroupOk(g, favorite.title, discover, blocked)
  {
    var pool := Pool(discover, scores);
    var picks := Pick(pool, blocked, 5);
    PickFacts(pool, blocked, 5);
    var g := Group(favorite.title, Map(picks, MovieOf));
    forall a | 0 <= a < |g.suggestions|
      ensures g.suggestions[a] in discover
    {
      var j :| 0 <= j < |discover| && pool[j] == picks[a];
    }
    g
  }

  /** A group is the top of what is not blocked: a ranked selection of 5 by
      its favourite's scores. */
  lemma GroupForTop(favorite: Movie, discover: seq<Movie>, scores: seq<real>, blocked: set<Key>)
    requires |scores| == |discover|
    ensures TopFor(GroupFor(favorite, discover, scores, blocked).suggestions, discover, scores, blocked, 5)
  {
    PickTopFor(discover, scores, blocked, 5);
  }

  /** The individual groups, one per favourite in request order. Each takes up
      to 5 titles by that favourite's scores, skipping the favourites and
      every title an earlier group already took (`used`). */
  function Individual(favorites: seq<Movie>, scores: seq<seq<real>>, discover: seq<Movie>,
                      excluded: set<Key>, used: set<Key>): (r: seq<Group>)
    requires |scores| == |favorites|
    requires forall i :: 0 <= i < |scores| ==> |scores[i]| == |discover|
    ensures |r| == |favorites|
    decreases |favorites|
  {
    if |favorites| == 0 then []
    else
      var first := GroupFor(favorites[0], discover, scores[0], excluded + used);
      [first] + Individual(favorites[1..], scores[1..], discover, excluded, used + Taken(first))
  }

  /** A group that keeps its promise in front of groups that keep theirs
      against a larger blocked set still keeps the promise throughout. */
  lemma ConsGroupsOk(first: Group, rest: seq<Group>, favorites: seq<Movie>, discover: seq<Movie>,
                     blocked: set<Key>, blocked': set<Key>)
    requires |favorites| == |rest| + 1 && blocked <= blocked'
    requires GroupOk(first, favorites[0].title, discover, blocked)
    requires forall i :: 0 <= i < |rest| ==> GroupOk(rest[i], favorites[i + 1].title, discover, blocked')
    ensures var r := [first] + rest;
            forall i :: 0 <= i < |r| ==> GroupOk(r[i], favorites[i].title, discover, blocked)
  {
    var r := [first] + rest;
    forall i | 1 <= i < |r|
      ensures GroupOk(r[i], favorites[i].title, discover, blocked)
    {
      assert r[i] == rest[i - 1];
      GroupOkWeaken(rest[i - 1], favorites[i].title, discover, blocked', blocked);
    }
  }

  /** A group in front of pairwise-disjoint groups that avoid its keys keeps
      the list pairwise disjoint. */
  lemma ConsDisjoint(first: Group, rest: seq<Group>)
    requires GroupsDisjoint(rest)
    requires forall j, b :: 0 <= j < |rest| && 0 <= b < |rest[j].suggestions| ==>
               KeyOf(rest[j].suggestions[b]) !in Taken(first)
    ensures GroupsDisjoint([first] + rest)
  {
    var r := [first] + rest;
    forall i, j, a, b | 0 <= i < j < |r| && 0 <= a < |r[i].suggestions| && 0 <= b < |r[j].suggestions|
      ensures KeyOf(r[i].suggestions[a]) != KeyOf(r[j].suggestions[b])
    {
      assert r[j] == rest[j - 1];
      if i == 0 {
        assert KeyOf(first.suggestions[a]) in Taken(first);
      } else {
        assert r[i] == rest[i - 1];
      }
    }
  }

  /** Every group is based on its favourite, holds at most 5 discover titles
      with distinct keys, and none of them is excluded or already used. */
  lemma {:induction false} IndividualGroups(favorites: seq<Movie>, scores: seq<seq<real>>, discover: seq<Movie>,
                                            excluded: set<Key>, used: set<Key>)
    requires |scores| == |favorites|
    requires forall i :: 0 <= i < |scores| ==> |scores[i]| == |discover|
    ensures var r := Individual(favorites, scores, discover, excluded, used);
            forall i :: 0 <= i < |r| ==> GroupOk(r[i], favorites[i].title, discover, excluded + used)
    decreases |favorites|
  {
    if |favorites| > 0 {
      var first := GroupFor(favorites[0], discover, scores[0], excluded + used);
      var used' := used + Taken(first);
      IndividualGroups(favorites[1..], scores[1..], discover, excluded, used');
      ConsGroupsOk(first, Individual(favorites[1..], scores[1..], discover, excluded, used'),
                   favorites, discover, excluded + used, excluded + used');
    }
  }

  /** No title appears in two groups: each group skips what the earlier ones took. */
  lemma {:induction false} IndividualDisjoint(favorites: seq<Movie>, scores: seq<seq<real>>, discover: seq<Movie>,
                                              excluded: set<Key>, used: set<Key>)
    requires |scores| == |favorites|
    requires forall i :: 0 <= i < |scores| ==> |scores[i]| == |discover|
    ensures GroupsDisjoint(Individual(favorites, scores, discover, excluded, used))
    decreases |favorites|
  {
    if |favorites| > 0 {
      var first := GroupFor(favorites[0], discover, scores[0], excluded + used);
      var used' := used + Taken(first);
      var rest := Individual(favorites[1..], scores[1..], discover, excluded, used');
      IndividualDisjoint(favorites[1..], scores[1..], discover, excluded, used');
      IndividualGroups(favorites[1..], scores[1..], discover, excluded, used');
      ConsDisjoint(first, rest);
    }
  }

  /** Each group is the top of what was left for it: a ranked selection of
      5 by its own scores among the titles that are neither blocked nor taken
      by an earlier group. */
  ghost predicate GroupsRanked(groups: seq<Group>, discover: seq<Movie>, scores: seq<seq<real>>, blocked: set<Key>) {
    && |scores| == |groups|
    && forall i :: 0 <= i < |groups| ==>
         TopFor(groups[i].suggestions, discover, scores[i], blocked + TakenBy(groups[..i]), 5)
  }

  /** Prefix `i` of a list with `first` in front blocks what prefix `i - 1`
      of the rest blocks once the keys of `first` are added. */
  lemma BlockedShift(first: Group, rest: seq<Group>, blocked: set<Key>, i: nat)
    requires 1 <= i <= |rest|
    ensures blocked + TakenBy(([first] + rest)[..i]) == blocked + Taken(first) + TakenBy(rest[..i - 1])
  {
    TakenByCons(first, rest, i - 1);
  }

  /** A group ranked against `blocked` in front of groups ranked against
      `blocked` and its own keys keeps the list ranked. */
  lemma ConsGroupsRanked(first: Group, rest: seq<Group>, discover: seq<Movie>, scores: seq<seq<real>>, blocked: set<Key>)
    requires |scores| == |rest| + 1
    requires TopFor(first.suggestions, discover, scores[0], blocked, 5)
    requires GroupsRanked(rest, discover, scores[1..], blocked + Taken(first))
    ensures GroupsRanked([first] + rest, discover, scores, blocked)
  {
    var r := [first] + rest;
    assert r[..0] == [];
    assert blocked + TakenBy(r[..0]) == blocked;
    forall i | 1 <= i < |r|
      ensures TopFor(r[i].suggestions, discover, scores[i], blocked + TakenBy(r[..i]), 5)
    {
      assert r[i] == rest[i - 1] && scores[i] == scores[1..][i - 1];
      BlockedShift(first, rest, blocked, i);
    }
  }

  /** Every individual group is ranked among the titles that are neither
      excluded, nor already used, nor taken by an earlier group. */
  lemma {:induction false} IndividualRanked(favorites: seq<Movie>, scores: seq<seq<real>>, discover: seq<Movie>,
                                            excluded: set<Key>, used: set<Key>)
    requires |scores| == |favorites|
    requires forall i :: 0 <= i < |scores| ==> |scores[i]| == |discover|
    ensures GroupsRanked(Individual(favorites, scores, discover, excluded, used), discover, scores, excluded + used)
    decreases |favorites|
  {
    if |favorites| > 0 {
      var first := GroupFor(favorites[0], discover, scores[0], excluded + used);
      var used' := used + Taken(first);
      var rest := Individual(favorites[1..], scores[1..], discover, excluded, used');
      IndividualRanked(favorites[1..], scores[1..], discover, excluded, used');
      GroupForTop(favorites[0], discover, scores[0], excluded + used);
      assert excluded + used' == excluded + used + Taken(first);
      ConsGroupsRanked(first, rest, discover, scores, excluded + used);
    }
  }

  /** `recommend`. An empty discover pool or an empty favourites list makes the
      service fail (an empty vocabulary, a missing column); otherwise it
      stems the discover tags and answers with the general list and the
      individual groups, drawn from the stemmed rows. */
  function Recommend(favorites: seq<Movie>, discover: seq<Movie>, stem: string -> string,
                     generalScores: seq<real>, individualScores: seq<seq<real>>): (r: Reply)
    requires |generalScores| == |discover| && |individualScores| == |favorites|
    requires forall i :: 0 <= i < |individualScores| ==> |individualScores[i]| == |discover|
    ensures r.ServerError? <==> |favorites| == 0 || |discover| == 0
    ensures r.Answer? ==>
              && |r.response.general| <= 20
              && DistinctKeys(r.response.general, KeyOf)
              && (forall i :: 0 <= i < |r.response.general| ==> KeyOf(r.response.general[i]) !in FavoriteKeys(favorites))
              && |r.response.individual| == |favorites|
              && (forall i :: 0 <= i < |favorites| ==>
                    GroupOk(r.response.individual[i], favorites[i].title, StemmedRows(discover, stem), FavoriteKeys(favorites)))
              && GroupsDisjoint(r.response.individual)
    ensures r.Answer? ==>
              forall i :: 0 <= i < |r.response.general| ==>
                exists j :: 0 <= j < |discover| && r.response.general[i] == discover[j].(tags := stem(discover[j].tags))
  {
    if |favorites| == 0 || |discover| == 0 then ServerError
    else
      var rows := StemmedRows(discover, stem);
      IndividualGroups(favorites, individualScores, rows, FavoriteKeys(favorites), {});
      IndividualDisjoint(favorites, individualScores, rows, FavoriteKeys(favorites), {});
      var general := General(favorites, rows, generalScores);
      forall i | 0 <= i < |general|
        ensures exists j :: 0 <= j < |discover| && general[i] == discover[j].(tags := stem(discover[j].tags))
      {
        var j :| 0 <= j < |rows| && rows[j] == general[i];
      }
      Answer(Response(general, Individual(favorites, individualScores, rows, FavoriteKeys(favorites), {})))
  }

  /** Both halves of an answer are rankings: the general list is the top 20
      of the non-favourite titles by the profile's scores, and each group is
      the top 5 by its favourite's scores of what the favourites and the
      earlier groups left. */
  lemma RecommendRanked(favorites: seq<Movie>, discover: seq<Movie>, stem: string -> string,
                        generalScores: seq<real>, individualScores: seq<seq<real>>)
    requires |generalScores| == |discover| && |individualScores| == |favorites|
    requires forall i :: 0 <= i < |individualScores| ==> |individualScores[i]| == |discover|
    ensures var r := Recommend(favorites, discover, stem, generalScores, individualScores);
            r.Answer? ==>
              && TopFor(r.response.general, StemmedRows(discover, stem), generalScores, FavoriteKeys(favorites), 20)
              && GroupsRanked(r.response.individual, StemmedRows(discover, stem), individualScores, FavoriteKeys(favorites))
  {
    if |favorites| > 0 && |discover| > 0 {
      var rows := StemmedRows(discover, stem);
      GeneralTop(favorites, rows, generalScores);
      IndividualRanked(favorites, individualScores, rows, FavoriteKeys(favorites), {});
      assert FavoriteKeys(favorites) + {} == FavoriteKeys(favorites);
    }
  }
}

=== FILE: stats.dfy ===
/** The viewing-habits page: watch time per type, title counts, the genre
    histogram and the weekday histogram, all computed from the watched list. */
module ViewingStats {
  import opened Seqs
  import opened IsoDate
  import opened Ranking
  import opened Records

  datatype GenreCount = GenreCount(name: string, count: nat)

  datatype Statistics = Statistics(
    totalWatchTime: int,
    movieWatchTime: int,
    showWatchTime: int,
    favoriteGenres: seq<GenreCount>,
    allGenres: seq<GenreCount>,
    averageRating: real,
    totalItems: nat,
    moviesCount: nat,
    showsCount: nat,
    favoriteCount: nat)

  predicate IsMovie(item: WatchedItem) {
    item.mediaType == "movie"
  }

  predicate IsShow(item: WatchedItem) {
    item.mediaType == "tv"
  }

  /** Minutes a title adds to the movie total: a movie's runtime, missing
      counting as 0. */
  function MovieTime(item: WatchedItem): int {
    if IsMovie(item) then OrZero(item.runtime) else 0
  }

  /** Minutes a title adds to the show total: episode length times episode
      count for a series, each missing counting as 0. */
  function ShowTime(item: WatchedItem): int {
    if IsShow(item) then OrZero(item.episodeRunTime) * OrZero(item.episodes) else 0
  }

  function RatingOf(item: WatchedItem): int {
    OrZero(item.rating)
  }

  /** A title's genre list; a missing list contributes nothing. */
  function GenresOf(item: WatchedItem): seq<string> {
    if item.genres.Some? then item.genres.value else []
  }

  /** Every genre entry of every title, in list order. */
  function GenreNames(data: seq<WatchedItem>): seq<string> {
    if |data| == 0 then [] else GenreNames(data[..|data| - 1]) + GenresOf(data[|data| - 1])
  }

  function NameOf(e: GenreCount): string {
    e.name
  }

  function CountOf(e: GenreCount): int {
    e.count
  }

  function CountKey(e: GenreCount): real {
    e.count as real
  }

  /** Each distinct genre once, in order of first appearance (the insertion
      order `Object.entries` reports), with the number of its occurrences. */
  function Histogram(names: seq<string>): seq<GenreCount> {
    Map(Distinct(names), g => GenreCount(g, multiset(names)[g]))
  }

  /** The histogram lists the distinct genres, each once, in order of first
      appearance, and gives each its number of occurrences, at least one. */
  lemma HistogramEntries(names: seq<string>)
    ensures Map(Histogram(names), NameOf) == Distinct(names)
    ensures forall i :: 0 <= i < |Histogram(names)| ==>
              Histogram(names)[i].count == multiset(names)[Histogram(names)[i].name] > 0
  {
    var h := Histogram(names);
    var d := Distinct(names);
    forall i | 0 <= i < |h|
      ensures h[i].name == d[i] && h[i].count == multiset(names)[d[i]] > 0
    {
      assert d[i] in names;
    }
  }

  /** The histogram's counts add up to the number of genre entries. */
  lemma HistogramTotal(names: seq<string>)
    ensures SumOf(Histogram(names), CountOf) == |names|
  {
    SumOfPointwise(Histogram(names), CountOf, Distinct(names), x => multiset(names)[x]);
    OccurrencesSum(names);
  }

  /** The genres as the page lists them: the histogram sorted by count, most
      frequent first, ties in order of first appearance. */
  function AllGenres(data: seq<WatchedItem>): seq<GenreCount> {
    Sort(Histogram(GenreNames(data)), CountKey)
  }

  /** No genre is listed twice. */
  lemma AllGenresDistinct(data: seq<WatchedItem>)
    ensures DistinctKeys(AllGenres(data), NameOf)
  {
    var h := Histogram(GenreNames(data));
    HistogramEntries(GenreNames(data));
    assert DistinctKeys(h, NameOf) by {
      forall i, j | 0 <= i < j < |h|
        ensures h[i].name != h[j].name
      {
        assert Map(h, NameOf)[i] == h[i].name && Map(h, NameOf)[j] == h[j].name;
      }
    }
    PermutationDistinctKeys(h, AllGenres(data), NameOf);
  }

  /** A genre is listed exactly when some title has it. */
  lemma AllGenresNames(data: seq<WatchedItem>)
    ensures forall g :: g in Map(AllGenres(data), NameOf) <==> g in GenreNames(data)
  {
    var names := GenreNames(data);
    var h := Histogram(names);
    var r := AllGenres(data);
    HistogramEntries(names);
    forall g
      ensures g in Map(r, NameOf) <==> g in names
    {
      if g in Map(r, NameOf) {
        MapPermutationMembers(r, h, NameOf, g);
      }
      if g in names {
        MapPermutationMembers(h, r, NameOf, g);
      }
    }
  }

  /** Every listed genre carries the number of its occurrences, at least one. */
  lemma AllGenresCounts(data: seq<WatchedItem>)
    ensures forall i :: 0 <= i < |AllGenres(data)| ==>
              AllGenres(data)[i].count == multiset(GenreNames(data))[AllGenres(data)[i].name] > 0
  {
    var names := GenreNames(data);
    var h := Histogram(names);
    var r := AllGenres(data);
    HistogramEntries(names);
    forall i | 0 <= i < |r|
      ensures r[i].count == multiset(names)[r[i].name] > 0
    {
      assert r[i] in multiset(h);
      var j :| 0 <= j < |h| && h[j] == r[i];
    }
  }

  /** The listed counts add up to the number of genre entries. */
  lemma AllGenresTotal(data: seq<WatchedItem>)
    ensures SumOf(AllGenres(data), CountOf) == |GenreNames(data)|
  {
    HistogramTotal(GenreNames(data));
    SumOfPermutation(Histogram(GenreNames(data)), AllGenres(data), CountOf);
  }

  /** Stability of the genre ranking: genres with equal counts keep their
      order of first appearance. */
  lemma AllGenresStable(data: seq<WatchedItem>, k: real)
    ensures WithKey(AllGenres(data), CountKey, k) == WithKey(Histogram(GenreNames(data)), CountKey, k)
  {
    SortIsStable(Histogram(GenreNames(data)), CountKey, k);
  }

  /** The genre tally the page keeps while it walks the list: the genres in
      order of first appearance, and for each its count so far. */
  ghost predicate Tallied(order: seq<string>, counts: map<string, nat>, names: seq<string>) {
    && order == Distinct(names)
    && (forall g :: g in counts <==> g in order)
    && (forall g :: g in counts ==> counts[g] == multiset(names)[g])
  }

  /** Counting one more genre: bump a known genre, or append a new one with
      count 1. */
  function CountGenre(order: seq<string>, counts: map<string, nat>, g: string): (seq<string>, map<string, nat>) {
    if g in counts then (order, counts[g := counts[g] + 1]) else (order + [g], counts[g := 1])
  }

  /** Bumping keeps the tally complete for the list with one more genre. */
  lemma TallyStep(order: seq<string>, counts: map<string, nat>, names: seq<string>, g: string)
    requires Tallied(order, counts, names)
    ensures Tallied(CountGenre(order, counts, g).0, CountGenre(order, counts, g).1, names + [g])
  {
    assert (names + [g])[..|names + [g]| - 1] == names;
  }

  /** Counts one title's genres into the tally, one after the other. */
  function TallyGenres(order: seq<string>, counts: map<string, nat>, gs: seq<string>)
    : (seq<string>, map<string, nat>)
    decreases |gs|
  {
    if |gs| == 0 then (order, counts)
    else
      var next := CountGenre(order, counts, gs[0]);
      TallyGenres(next.0, next.1, gs[1..])
  }

  /** Moving the first element of `b` to the end of `a` leaves `a + b` as it is. */
  lemma ShiftFirst<T>(a: seq<T>, b: seq<T>)
    requires |b| > 0
    ensures a + [b[0]] + b[1..] == a + b
  {
  }

  /** Counting a title's genres extends a complete tally by those genres. */
  lemma {:induction false} TallyGenresCounts(order: seq<string>, counts: map<string, nat>, before: seq<string>, gs: seq<string>)
    requires Tallied(order, counts, before)
    ensures Tallied(TallyGenres(order, counts, gs).0, TallyGenres(order, counts, gs).1, before + gs)
    decreases |gs|
  {
    if |gs| == 0 {
      assert before + gs == before;
    } else {
      var next := CountGenre(order, counts, gs[0]);
      var names := before + [gs[0]];
      TallyStep(order, counts, before, gs[0]);
      assert Tallied(next.0, next.1, names);
      TallyGenresCounts(next.0, next.1, names, gs[1..]);
      ShiftFirst(before, gs);
    }
  }

  /** The entries of a tally, in tally order. */
  function TallyEntries(order: seq<string>, counts: map<string, nat>): seq<GenreCount>
    requires forall j :: 0 <= j < |order| ==> order[j] in counts
  {
    seq(|order|, j requires 0 <= j < |order| => GenreCount(order[j], counts[order[j]]))
  }

  /** A complete tally holds exactly the histogram. */
  lemma TallyIsHistogram(order: seq<string>, counts: map<string, nat>, names: seq<string>)
    requires Tallied(order, counts, names)
    ensures forall j :: 0 <= j < |order| ==> order[j] in counts
    ensures TallyEntries(order, counts) == Histogram(names)
  {
  }

  /** The mean rating, missing ratings counting as 0; 0 for an empty list. */
  function Average(total: int, n: nat): real {
    if n > 0 then total as real / n as real else 0.0
  }

  /** The watch-time half of the page's pass over the list, together with
      the rating total. */
  method WatchTimes(data: seq<WatchedItem>) returns (movieTime: int, showTime: int, ratings: int)
    ensures movieTime == SumOf(data, MovieTime)
    ensures showTime == SumOf(data, ShowTime)
    ensures ratings == SumOf(data, RatingOf)
  {
    movieTime, showTime, ratings := 0, 0, 0;
    var i := 0;
    while i < |data|
      invariant 0 <= i <= |data|
      invariant movieTime == SumOf(data[..i], MovieTime)
      invariant showTime == SumOf(data[..i], ShowTime)
      invariant ratings == SumOf(data[..i], RatingOf)
    {
      var item := data[i];
      assert data[..i + 1] == data[..i] + [item];
      SumOfAppend(data[..i], [item], MovieTime);
      SumOfAppend(data[..i], [item], ShowTime);
      SumOfAppend(data[..i], [item], RatingOf);
      movieTime, showTime := movieTime + MovieTime(item), showTime + ShowTime(item);
      ratings := ratings + RatingOf(item);
      i := i + 1;
    }
    assert data[..i] == data;
  }

  /** The genre half of the page's pass: `genreCount[genre] += 1` for every
      genre entry of every title. */
  method TallyAll(data: seq<WatchedItem>) returns (order: seq<string>, counts: map<string, nat>)
    ensures Tallied(order, counts, GenreNames(data))
  {
    order, counts := [], map[];
    var i := 0;
    while i < |data|
      invariant 0 <= i <= |data|
      invariant Tallied(order, counts, GenreNames(data[..i]))
    {
      assert data[..i + 1][..i] == data[..i];
      assert GenreNames(data[..i + 1]) == GenreNames(data[..i]) + GenresOf(data[i]);
      TallyGenresCounts(order, counts, GenreNames(data[..i]), GenresOf(data[i]));
      order, counts := TallyGenres(order, counts, GenresOf(data[i])).0, TallyGenres(order, counts, GenresOf(data[i])).1;
      i := i + 1;
    }
    assert data[..i] == data;
  }

  /** The statistics computation: watch times, the genre tally, the sorted
      genre list with its top three, the mean rating and the counts. */
  method ComputeStatistics(data: seq<WatchedItem>) returns (s: Statistics)
    ensures s.totalItems == |data|
    ensures s.moviesCount == Count(data, IsMovie) && s.showsCount == Count(data, IsShow)
    ensures s.favoriteCount == Count(data, IsFavorite)
    ensures s.moviesCount + s.showsCount <= s.totalItems && s.favoriteCount <= s.totalItems
    ensures s.movieWatchTime == SumOf(data, MovieTime)
    ensures s.showWatchTime == SumOf(data, ShowTime)
    ensures s.totalWatchTime == s.movieWatchTime + s.showWatchTime
    ensures s.allGenres == AllGenres(data)
    ensures s.favoriteGenres == Take(s.allGenres, 3)
    ensures s.averageRating == Average(SumOf(data, RatingOf), |data|)
  {
    CountDisjoint(data, IsMovie, IsShow);
    var movieTime, showTime, ratings := WatchTimes(data);
    var order, counts := TallyAll(data);
    TallyIsHistogram(order, counts, GenreNames(data));
    var sorted := Sort(TallyEntries(order, counts), CountKey);
    s := Statistics(movieTime + showTime, movieTime, showTime, Take(sorted, 3), sorted,
                    Average(ratings, |data|), |data|, Count(data, IsMovie), Count(data, IsShow),
                    Count(data, IsFavorite));
  }

  /** With every rating between 0 and 5 the mean is between 0 and 5 too. */
  lemma AverageBounded(data: seq<WatchedItem>)
    requires forall i :: 0 <= i < |data| ==> 0 <= RatingOf(data[i]) <= 5
    ensures 0.0 <= Average(SumOf(data, RatingOf), |data|) <= 5.0
  {
    SumOfBounds(data, RatingOf, 0, 5);
    if |data| > 0 {
      MeanBounded(SumOf(data, RatingOf), |data|);
    }
  }

  /** A total between 0 and 5 per entry averages to between 0 and 5. */
  lemma MeanBounded(total: int, n: nat)
    requires n > 0 && 0 <= total <= 5 * n
    ensures 0.0 <= total as real / n as real <= 5.0
  {
    var q := total as real / n as real;
    assert q * n as real == total as real;
    if q > 5.0 {
      assert q * n as real > 5.0 * n as real;
    }
  }

  // ---------------------------------------------------------------------
  // Weekday histogram

  /** The `getDay` bucket a title counts in: a movie whose watch date reads as
      a calendar day. Other titles, and dates that do not read, count nowhere. */
  function WatchDay(item: WatchedItem): (r: Option<int>)
    ensures r.Some? ==> 0 <= r.value < 7
  {
    if IsMovie(item) && Truthy(item.watchDate) then
      match ParseDay(item.watchDate.value)
      case Some(t) => Some(Weekday(t))
      case None => None
    else None
  }

  predicate InBucket(d: int, item: WatchedItem) {
    WatchDay(item) == Some(d)
  }

  predicate Dated(item: WatchedItem) {
    WatchDay(item).Some?
  }

  function Total(c: seq<nat>): nat
    requires |c| == 7
  {
    c[0] + c[1] + c[2] + c[3] + c[4] + c[5] + c[6]
  }

  /** The bucket counts after one more title: its bucket, if any, goes up by one. */
  function Bump(counts: seq<nat>, item: WatchedItem): (r: seq<nat>)
    requires |counts| == 7
    ensures |r| == 7
    ensures Total(r) == Total(counts) + (if Dated(item) then 1 else 0)
  {
    match WatchDay(item)
    case Some(d) => counts[d := counts[d] + 1]
    case None => counts
  }

  /** Bumping raises bucket `d` by one exactly when the title falls in it. */
  lemma BumpAt(counts: seq<nat>, item: WatchedItem, d: int)
    requires |counts| == 7 && 0 <= d < 7
    ensures Bump(counts, item)[d] == counts[d] + (if InBucket(d, item) then 1 else 0)
  {
  }

  /** `weekdayCounts` after the bucketing loop, index 0 being Sunday as
      `getDay` numbers the days. */
  function Buckets(data: seq<WatchedItem>): (r: seq<nat>)
    ensures |r| == 7
  {
    if |data| == 0 then [0, 0, 0, 0, 0, 0, 0]
    else Bump(Buckets(data[..|data| - 1]), data[|data| - 1])
  }

  /** Bucket `d` counts exactly the movies whose watch date falls on day `d`. */
  lemma {:induction false} BucketsCount(data: seq<WatchedItem>, d: int)
    requires 0 <= d < 7
    ensures Buckets(data)[d] == Count(data, item => InBucket(d, item))
  {
    if |data| > 0 {
      var a, item := data[..|data| - 1], data[|data| - 1];
      assert data == a + [item];
      BucketsCount(a, d);
      CountSnoc(a, item, item => InBucket(d, item));
      BumpAt(Buckets(a), item, d);
    }
  }

  /** Every dated movie lands in exactly one bucket, so the seven buckets add
      up to the number of dated movies. */
  lemma {:induction false} BucketsTotal(data: seq<WatchedItem>)
    ensures Total(Buckets(data)) == Count(data, Dated)
  {
    if |data| > 0 {
      var a, item := data[..|data| - 1], data[|data| - 1];
      assert data == a + [item];
      BucketsTotal(a);
      CountSnoc(a, item, Dated);
    }
  }

  /** The bucketing loop. */
  method WeekdayCounts(data: seq<WatchedItem>) returns (counts: seq<nat>)
    ensures |counts| == 7
    ensures forall d :: 0 <= d < 7 ==> counts[d] == Count(data, item => InBucket(d, item))
    ensures Total(counts) == Count(data, Dated)
  {
    counts := [0, 0, 0, 0, 0, 0, 0];
    var i := 0;
    while i < |data|
      invariant 0 <= i <= |data|
      invariant counts == Buckets(data[..i])
    {
      var day := WatchDay(data[i]);
      assert data[..i + 1][..i] == data[..i];
      if day.Some? {
        counts := counts[day.value := counts[day.value] + 1];
      }
      i := i + 1;
    }
    assert data[..i] == data;
    forall d | 0 <= d < 7
      ensures counts[d] == Count(data, item => InBucket(d, item))
    {
      BucketsCount(data, d);
    }
    BucketsTotal(data);
  }

  /** The chart's labels, left to right. */
  const Labels: seq<string> := ["Mon", "Tue", "Wed", "Thu", "Fri", "Sat", "Sun"]

  /** The names of the days as `getDay` numbers them, Sunday first. */
  const DayNames: seq<string> := ["Sun", "Mon", "Tue", "Wed", "Thu", "Fri", "Sat"]

  datatype DayBar = DayBar(name: string, count: nat)

  /** The chart as written: the bar labelled `Labels[j]` shows bucket `j`. */
  function WeekdayBarsAsWritten(counts: seq<nat>): (r: seq<DayBar>)
    requires |counts| == 7
    ensures |r| == 7
    ensures forall j :: 0 <= j < 7 ==> r[j].name == Labels[j]
  {
    seq(7, j requires 0 <= j < 7 => DayBar(Labels[j], counts[j]))
  }

  /** One movie watched on Sunday 17 March 2024 shows up in the bar labelled
      "Mon", while the Monday bucket is empty. */
  lemma WeekdayBarsMislabelled()
    ensures var t := Instant(2024, 3, 17, 0, 0, 0, 0);
            var item := WatchedItem(1, None, None, "movie", None, None, None, None, None, None, None,
                                    None, None, None, None, None, None, None, None, None, None, None,
                                    Some(DayKey(t)));
            var bars := WeekdayBarsAsWritten(Buckets([item]));
            bars[0] == DayBar("Mon", 1) && Buckets([item])[1] == 0
  {
    var t := Instant(2024, 3, 17, 0, 0, 0, 0);
    var item := WatchedItem(1, None, None, "movie", None, None, None, None, None, None, None,
                            None, None, None, None, None, None, None, None, None, None, None,
                            Some(DayKey(t)));
    SundayMovie(item);
    SundayBuckets(item);
  }

  /** A movie watched on Sunday 17 March 2024 counts on day 0. */
  lemma SundayMovie(item: WatchedItem)
    requires item.mediaType == "movie"
    requires item.watchDate == Some(DayKey(Instant(2024, 3, 17, 0, 0, 0, 0)))
    ensures WatchDay(item) == Some(0)
  {
    var t := Instant(2024, 3, 17, 0, 0, 0, 0);
    WeekdayExamples();
    assert t.Midnight() == t;
    assert ParseDay(item.watchDate.value) == Some(t);
  }

  /** A single title counted on day 0 fills only the first bucket. */
  lemma SundayBuckets(item: WatchedItem)
    requires WatchDay(item) == Some(0)
    ensures Buckets([item]) == [1, 0, 0, 0, 0, 0, 0]
  {
    assert [item][..0] == [];
  }

  /** The chart as evidently intended: the bar labelled with a day's name
      shows the bucket of that day. */
  function WeekdayBars(counts: seq<nat>): (r: seq<DayBar>)
    requires |counts| == 7
    ensures |r| == 7
    ensures forall j :: 0 <= j < 7 ==> r[j].name == Labels[j]
    ensures forall j, d :: 0 <= j < 7 && 0 <= d < 7 && DayNames[d] == r[j].name ==> r[j].count == counts[d]
  {
    seq(7, j requires 0 <= j < 7 => DayBar(Labels[j], counts[(j + 1) % 7]))
  }
}

=== FILE: text.dfy ===
/** Strings as the application's JavaScript and Python code treats them:
    whitespace trimming and stripping, ASCII lower-casing, splitting on and
    joining with a separator character, and decimal rendering and reading of
    natural numbers. */
module Text {
  import opened Seqs

  /** The characters JavaScript's `String.prototype.trim` removes and the
      regular-expression class `\s` matches: WhiteSpace and LineTerminator. */
  predicate IsSpace(c: char) {
    || c == '\t' || c == '\n' || c == '\U{000B}' || c == '\U{000C}' || c == '\r'
    || c == ' ' || c == '\U{00A0}' || c == '\U{1680}'
    || ('\U{2000}' <= c <= '\U{200A}')
    || c == '\U{2028}' || c == '\U{2029}' || c == '\U{202F}' || c == '\U{205F}'
    || c == '\U{3000}' || c == '\U{FEFF}'
  }

  predicate NotSpace(c: char) {
    !IsSpace(c)
  }

  /** `s.trimStart()`: the suffix left after dropping leading whitespace. */
  function TrimStart(s: string): (r: string)
    ensures |r| <= |s| && r == s[|s| - |r|..]
    ensures forall i :: 0 <= i < |s| - |r| ==> IsSpace(s[i])
    ensures |r| > 0 ==> !IsSpace(r[0])
  {
    if |s| > 0 && IsSpace(s[0]) then TrimStart(s[1..]) else s
  }

  /** `s.trimEnd()`: the prefix left after dropping trailing whitespace. */
  function TrimEnd(s: string): (r: string)
    ensures |r| <= |s| && r == s[..|r|]
    ensures forall i :: |r| <= i < |s| ==> IsSpace(s[i])
    ensures |r| > 0 ==> !IsSpace(r[|r| - 1])
  {
    if |s| > 0 && IsSpace(s[|s| - 1]) then TrimEnd(s[..|s| - 1]) else s
  }

  /** `s.trim()`. */
  function Trim(s: string): (r: string)
    ensures |r| <= |s|
    ensures |r| > 0 ==> !IsSpace(r[0]) && !IsSpace(r[|r| - 1])
  {
    TrimEnd(TrimStart(s))
  }

  /** The trimmed string is empty exactly when every character is whitespace,
      which is when JavaScript treats `s.trim()` as falsy. */
  lemma TrimEmptyIffAllSpace(s: string)
    ensures Trim(s) == "" <==> forall i :: 0 <= i < |s| ==> IsSpace(s[i])
  {
    var t := TrimStart(s);
    if Trim(s) == "" {
      assert |t| == 0;
    } else {
      var r := Trim(s);
      assert r[0] == t[0];
      assert t[0] == s[|s| - |t|];
    }
  }

  /** Trimming is idempotent. */
  lemma TrimIdempotent(s: string)
    ensures Trim(Trim(s)) == Trim(s)
  {
    var r := Trim(s);
    if |r| > 0 {
      assert TrimStart(r) == r;
      assert TrimEnd(r) == r;
    }
  }

  /** `s.replace(/\s+/g, "")`: every whitespace character removed. */
  function StripSpaces(s: string): (r: string)
    ensures forall i :: 0 <= i < |r| ==> !IsSpace(r[i])
    ensures IsSubsequence(r, s)
  {
    FilterIsSubsequence(s, NotSpace);
    Filter(s, NotSpace)
  }

  /** Lower-cases one ASCII letter; every other character is unchanged. */
  function LowerChar(c: char): char {
    if 'A' <= c <= 'Z' then (c as int + 32) as char else c
  }

  /** `s.toLowerCase()` on the ASCII letters. */
  function Lower(s: string): (r: string)
    ensures |r| == |s|
    ensures forall i :: 0 <= i < |s| ==> r[i] == LowerChar(s[i])
  {
    seq(|s|, i requires 0 <= i < |s| => LowerChar(s[i]))
  }

  /** Lower-casing twice is lower-casing once. */
  lemma LowerIdempotent(s: string)
    ensures Lower(Lower(s)) == Lower(s)
  {
  }

  /** `parts.join(sep)`. */
  function Join(parts: seq<string>, sep: char): string {
    if |parts| == 0 then ""
    else if |parts| == 1 then parts[0]
    else parts[0] + [sep] + Join(parts[1..], sep)
  }

  /** A join is empty exactly when there is nothing to join or one empty part:
      two or more parts always leave a separator. */
  lemma JoinEmpty(parts: seq<string>, sep: char)
    ensures Join(parts, sep) == "" <==> |parts| == 0 || (|parts| == 1 && parts[0] == "")
  {
    if |parts| >= 2 {
      assert |Join(parts, sep)| >= 1;
    }
  }

  /** `s.split(sep)` for a one-character separator: the pieces between
      separators, so `n` separators give `n + 1` pieces and `""` gives `[""]`. */
  function Split(s: string, sep: char): (r: seq<string>)
    ensures |r| >= 1
    ensures forall i :: 0 <= i < |r| ==> sep !in r[i]
  {
    if |s| == 0 then [""]
    else
      var rest := Split(s[1..], sep);
      if s[0] == sep then [""] + rest
      else [[s[0]] + rest[0]] + rest[1..]
  }

  /** Joining the pieces of a split with the same separator gives back the
      original string. */
  lemma {:induction false} JoinSplit(s: string, sep: char)
    ensures Join(Split(s, sep), sep) == s
  {
    if |s| > 0 {
      var rest := Split(s[1..], sep);
      JoinSplit(s[1..], sep);
      if s[0] == sep {
        assert ([""] + rest)[1..] == rest;
      } else {
        var r := Split(s, sep);
        assert r[1..] == rest[1..];
        if |rest| > 1 {
          assert Join(rest, sep) == rest[0] + [sep] + Join(rest[1..], sep);
        }
      }
    }
  }

  /** Joining a concatenation of two non-empty lists puts one separator
      between their joins. */
  lemma {:induction false} JoinAppend(a: seq<string>, b: seq<string>, sep: char)
    requires |a| > 0 && |b| > 0
    ensures Join(a + b, sep) == Join(a, sep) + [sep] + Join(b, sep)
  {
    if |a| > 1 {
      assert (a + b)[1..] == a[1..] + b;
      JoinAppend(a[1..], b, sep);
    } else {
      assert (a + b)[1..] == b;
    }
  }

  /** The pieces of a split on `sep` hold no `sep`, so when a string without
      `sep` is followed by `sep`, the first piece is exactly that string. */
  lemma {:induction false} SplitFirstPiece(a: string, sep: char, b: string)
    requires sep !in a
    ensures Split(a + [sep] + b, sep)[0] == a
  {
    if |a| == 0 {
      assert (a + [sep] + b)[1..] == b;
    } else {
      assert (a + [sep] + b)[1..] == a[1..] + [sep] + b;
      SplitFirstPiece(a[1..], sep, b);
    }
  }

  // ---------------------------------------------------------------------
  // Decimal numbers

  predicate IsDigit(c: char) {
    '0' <= c <= '9'
  }

  predicate AllDigits(s: string) {
    forall i :: 0 <= i < |s| ==> IsDigit(s[i])
  }

  function DigitChar(d: nat): char
    requires d < 10
  {
    ('0' as int + d) as char
  }

  function DigitValue(c: char): nat
    requires IsDigit(c)
  {
    c as int - '0' as int
  }

  /** The number a string of decimal digits denotes (leading zeros allowed). */
  function Value(s: string): nat
    requires AllDigits(s)
  {
    if |s| == 0 then 0 else Value(s[..|s| - 1]) * 10 + DigitValue(s[|s| - 1])
  }

  /** `String(n)` for a natural number: its shortest decimal rendering. */
  function NatToString(n: nat): (r: string)
    ensures |r| >= 1 && AllDigits(r)
    ensures |r| > 1 ==> r[0] != '0'
  {
    if n < 10 then [DigitChar(n)]
    else NatToString(n / 10) + [DigitChar(n % 10)]
  }

  /** Reading a rendered number gives the number back. */
  lemma {:induction false} ValueOfNatToString(n: nat)
    ensures Value(NatToString(n)) == n
  {
    if n >= 10 {
      var s := NatToString(n);
      assert s[..|s| - 1] == NatToString(n / 10);
      ValueOfNatToString(n / 10);
    }
  }

  function Pow10(w: nat): nat {
    if w == 0 then 1 else 10 * Pow10(w - 1)
  }

  /** A string of `w` digits denotes a number below `10^w`. */
  lemma {:induction false} ValueBound(s: string)
    requires AllDigits(s)
    ensures Value(s) < Pow10(|s|)
  {
    if |s| > 0 {
      ValueBound(s[..|s| - 1]);
    }
  }

  lemma {:induction false} NatToStringLength(n: nat, w: nat)
    requires 1 <= w && n < Pow10(w)
    ensures |NatToString(n)| <= w
  {
    if n >= 10 {
      assert w > 1;
      NatToStringLength(n / 10, w - 1);
    }
  }

  function Zeros(k: nat): (r: string)
    ensures |r| == k && AllDigits(r)
  {
    seq(k, _ => '0')
  }

  /** `String(n).padStart(w, "0")`. */
  function Pad(n: nat, w: nat): (r: string)
    ensures AllDigits(r)
  {
    var s := NatToString(n);
    if |s| >= w then s else Zeros(w - |s|) + s
  }

  /** A zero-padded rendering of a number below `10^w` has exactly `w`
      digits and denotes the number. */
  lemma PadFacts(n: nat, w: nat)
    requires 1 <= w && n < Pow10(w)
    ensures |Pad(n, w)| == w
    ensures Value(Pad(n, w)) == n
  {
    NatToStringLength(n, w);
    ValueOfNatToString(n);
    var s := NatToString(n);
    if |s| < w {
      LeadingZeros(w - |s|, s);
    }
  }

  lemma {:induction false} LeadingZeros(k: nat, s: string)
    requires AllDigits(s)
    ensures Value(Zeros(k) + s) == Value(s)
  {
    if |s| == 0 {
      assert Zeros(k) + s == Zeros(k);
      ZerosValue(k);
    } else {
      assert (Zeros(k) + s)[..|Zeros(k) + s| - 1] == Zeros(k) + s[..|s| - 1];
      LeadingZeros(k, s[..|s| - 1]);
    }
  }

  lemma {:induction false} ZerosValue(k: nat)
    ensures Value(Zeros(k)) == 0
  {
    if k > 0 {
      assert Zeros(k)[..k - 1] == Zeros(k - 1);
      ZerosValue(k - 1);
    }
  }

  /** Number of leading decimal digits of `s`. */
  function DigitRun(s: string): (k: nat)
    ensures k <= |s| && AllDigits(s[..k])
    ensures k < |s| ==> !IsDigit(s[k])
  {
    if |s| > 0 && IsDigit(s[0]) then
      var k := 1 + DigitRun(s[1..]);
      assert forall i :: 1 <= i < k ==> s[..k][i] == s[1..][..k - 1][i - 1];
      k
    else 0
  }

  lemma {:induction false} DigitRunOf(ds: string, rest: string)
    requires AllDigits(ds)
    requires |rest| == 0 || !IsDigit(rest[0])
    ensures DigitRun(ds + rest) == |ds|
  {
    if |ds| > 0 {
      assert (ds + rest)[1..] == ds[1..] + rest;
      DigitRunOf(ds[1..], rest);
    } else {
      assert ds + rest == rest;
    }
  }

  /** Reads a number followed by a unit letter (`"12h"`), returning the number
      and what follows the letter; fails when no digits or no letter are there. */
  function ReadSegment(s: string, unit: char): Option<(nat, string)> {
    var k := DigitRun(s);
    if 0 < k < |s| && s[k] == unit then Some((Value(s[..k]), s[k + 1..])) else None
  }

  /** A rendered number followed by its unit letter reads back exactly. */
  lemma SegmentRoundTrip(n: nat, unit: char, rest: string)
    requires !IsDigit(unit)
    ensures ReadSegment(NatToString(n) + [unit] + rest, unit) == Some((n, rest))
  {
    var ds := NatToString(n);
    var s := ds + [unit] + rest;
    assert s == ds + ([unit] + rest);
    DigitRunOf(ds, [unit] + rest);
    assert s[..|ds|] == ds;
    assert s[|ds| + 1..] == rest;
    ValueOfNatToString(n);
  }
}

=== FILE: watchedlist.dfy ===
/** The watched list page: the favourites filter and removing a title from
    the list shown. */
module WatchedList {
  import opened Seqs
  import opened Records

  /** The list shown for a filter value: only the favourites for "favorite",
      the whole list for any other value. */
  function Shown(watched: seq<WatchedItem>, filter: string): (r: seq<WatchedItem>)
    ensures |r| <= |watched|
    ensures filter != "favorite" ==> r == watched
    ensures filter == "favorite" ==> forall x :: x in r <==> x in watched && IsFavorite(x)
    ensures IsSubsequence(r, watched)
  {
    if filter == "favorite" then
      FilterIsSubsequence(watched, IsFavorite);
      Filter(watched, IsFavorite)
    else
      SubsequenceRefl(watched);
      watched
  }

  /** The favourites view keeps each favourite as many times as the list has
      it and nothing else, so it counts the favourites; showing it again
      changes nothing. */
  lemma ShownFavorites(watched: seq<WatchedItem>)
    ensures multiset(Shown(watched, "favorite")) == multiset(Filter(watched, IsFavorite))
    ensures forall x :: multiset(Shown(watched, "favorite"))[x] == if IsFavorite(x) then multiset(watched)[x] else 0
    ensures |Shown(watched, "favorite")| == Count(watched, IsFavorite)
    ensures Shown(Shown(watched, "favorite"), "favorite") == Shown(watched, "favorite")
  {
    FilterIdempotent(watched, IsFavorite);
  }

  /** The list after the title with id `id` is removed. */
  function RemoveById(watched: seq<WatchedItem>, id: int): (r: seq<WatchedItem>)
    ensures forall i :: 0 <= i < |r| ==> r[i].id != id
    ensures forall x :: x in r <==> x in watched && x.id != id
    ensures IsSubsequence(r, watched)
  {
    FilterIsSubsequence(watched, (x: WatchedItem) => x.id != id);
    Filter(watched, (x: WatchedItem) => x.id != id)
  }

  /** Removing twice is removing once; removing an id the list does not
      have changes nothing. */
  lemma RemoveByIdFacts(watched: seq<WatchedItem>, id: int)
    ensures RemoveById(RemoveById(watched, id), id) == RemoveById(watched, id)
    ensures (forall i :: 0 <= i < |watched| ==> watched[i].id != id) ==> RemoveById(watched, id) == watched
  {
    FilterIdempotent(watched, (x: WatchedItem) => x.id != id);
    if forall i :: 0 <= i < |watched| ==> watched[i].id != id {
      FilterAll(watched, (x: WatchedItem) => x.id != id);
    }
  }

  /** Removal keeps every other title as often as the list had it. */
  lemma RemoveByIdKeepsOthers(watched: seq<WatchedItem>, id: int)
    ensures forall x: WatchedItem :: x.id != id ==> multiset(RemoveById(watched, id))[x] == multiset(watched)[x]
    ensures |RemoveById(watched, id)| == |watched| - Count(watched, (x: WatchedItem) => x.id == id)
  {
    CountSplit(watched, (x: WatchedItem) => x.id != id, (x: WatchedItem) => x.id == id, (x: WatchedItem) => true);
    FilterAll(watched, (x: WatchedItem) => true);
  }
}
